=== FILE: README.md ===
# AWOL and COACS record shaping, modelled in Dafny

AWOL (The Ancient World Online) is a blog that announces open-access
resources about the ancient world. The ISAW `awol` package reads its
posts and turns each one into bibliographic `Resource` records. COACS
turns those records into MARC records for library catalogues. This
project models the deterministic core of that pipeline and proves
properties of it:

- **The `Resource` record and `merge`.** A record has 33 attributes, and
  `merge(r1, r2)` reconciles two records field by field. Each field is
  merged by its own rule: URL reconciliation, identity fields that must
  agree, text preference, list union, per-family identifier merge, child
  lists, and the provenance log. The record also supports `package()` and
  `set_provenance()` (module `Resources`).
- **The text normalisers.** These are `normalize_space`, `clean_string`,
  `deduplicate_sentences`, `deduplicate_lines`, `purify_text`, and
  `clean_title` with `RX_MATCH_DOMAIN` (modules `NormalizeSpace`,
  `CleanString`, `AwolArticle`).
- **The decision rules of the base post parser.** These cover:
  - the colon-prefix tables (`check_colon`, `allow_by_title`) and title
    reconciliation;
  - the analytic-title patterns for volume, issue and year;
  - keyword mining and validation;
  - ISSN regularisation;
  - domain extraction and anchor filtering;
  - the assembly of a post's resources.

  These are in modules `Titles`, `Keywords`, `Identifiers`, `Domains`
  and `PostResources`.
- **Routing.** The bank of parsers picks the parser for a post (module
  `Routing`). The ASCSA and OI parsers override the base parser in small
  ways (module `DomainParsers`).
- **The exporters.** The MODS walk dispatches on tag names into a
  dictionary of lists (module `Mods`). The COACS JSON-to-MARC conversion
  covers the 008 language splice, field selection, and subordinate issue
  records (module `Marc`).

Python values are modelled directly:

- strings are `seq<char>`;
- Python dictionaries whose key order matters are association lists
  (`Dicts`), and the rest are Dafny maps;
- a raised exception is an `Err` of a `Result` (`Results`), so every
  error path is a value that a contract can talk about.

Some inputs cannot be computed here and are passed in as parameters:

- the results of regular-expression scans;
- the anchors of a post's HTML;
- a parsed MODS tree;
- the clock reading that stamps provenance;
- the order in which Python iterates a `set`.

Where the source is evidently wrong, the model keeps the code as written
and a corrected version side by side. Lemmas show where the two differ,
and the corrected versions carry the intended properties (see
"## Findings").

The source is partly ported from Python 2 (`unicode`, `iteritems`). The
model treats `str` and `unicode` as the same text type. Some behaviour of
the code is easy to misread:

- **`package()`.** It reads `extended_title`, an attribute no resource
  has, so its `AttributeError` handler always takes `title` as
  `title_full` and `title` is never added (`resource.py:99-108`,
  `Resources.PackageAsWritten`).
- **Merging `subordinate_resources` and `related_resources`.** The
  de-duplication loop reads every child's `url`, so a child without one
  raises `KeyError` (`resource.py:318-326`,
  `Resources.MergeChildrenAsWritten`).
- **`clean_title` on an empty or blank title.** It raises `IndexError`
  before any trimming. Unlike `clean_string`, nothing catches the error
  (`AwolArticle.CleanTitleBlank`).
- **The identity-field branch of `merge`.** Its test
  `v1 is None and v1 is not None` (`resource.py:247`) can never hold.
  It is also unreachable, because the `None` cases are decided earlier
  (`resource.py:223-227`). The model therefore has no separate case for
  it (`Resources.MergeScalar`).

## Model

| member | source | states |
|---|---|---|
| Resources.Default | awol_python3/isaw/awol/resource.py:31-66 | every attribute of a new record starts as `None` or an empty list, of the kind its field holds |
| Resources.NewResource | awol_python3/isaw/awol/resource.py:31-66 | a new record has all 33 attributes, each blank |
| Resources.PackageAsWritten | awol_python3/isaw/awol/resource.py:97-108 | as written the package holds exactly `title_full` and `url`, and `title_full` is the short title |
| Resources.Package | awol_python3/isaw/awol/resource.py:97-108 | the package's full title is the extended title when there is one; `title` is added exactly when the short title differs from it |
| Resources.PackageAsWrittenDropsTitle | awol_python3/isaw/awol/resource.py:97-108 | as written `title` is never packaged, so a record whose extended title differs from its title packages differently from the intended package |
| Resources.PackageAgreement | awol_python3/isaw/awol/resource.py:97-108 | the written and intended packages agree exactly when there is no extended title or it equals the title |
| Resources.SetProvenance | awol_python3/isaw/awol/resource.py:159-174 | an unknown verb raises `KeyError`; otherwise exactly one entry is appended to the log, with the verb's term, the date and fields given, and nothing else changes |
| Resources.MergeText | awol_python3/isaw/awol/resource.py:340-356 | the merged text is one of the two texts; data beats no data; a text that contains the other wins; otherwise the result is at least as long as either; modified exactly when the texts differ |
| Resources.MergeTextOrder | awol_python3/isaw/awol/resource.py:340-356 | swapping the records changes the merged text only for two different texts of equal length, neither containing the other |
| Resources.MergeScalar | awol_python3/isaw/awol/resource.py:220-252 | for `volume`, `year`, `zenon_id`, `issue` and `zotero_id`, equal or one-sided values are kept, and two different values raise `ValueError` |
| Resources.MergeUrl | awol_python3/isaw/awol/resource.py:201-217 | equal URLs are kept. When one URL extends the other, the shorter is kept and the longer becomes the alternate. The same path with one `https` scheme gives that `https` URL with no alternate. A missing side raises `AttributeError` or `TypeError`; every other mismatch raises `ValueError` |
| Resources.MergeUrlPrefixExample | awol_python3/isaw/awol/resource.py:203-208 | a URL with a trailing slash yields to its prefix and becomes the alternate |
| Resources.DomainTest | awol_python3/isaw/awol/resource.py:233-234 | `domain in p['url']` raises `KeyError` exactly when there is no `url`, and is true exactly when both are present and the URL contains the domain |
| Resources.MergePart | awol_python3/isaw/awol/resource.py:220-242 | a one-sided or equal parent is kept. Otherwise a parent whose URL lies in r1's domain wins, r1 first, so r2 wins exactly when only its URL is in the domain. Failing that, a parent that alone has an ISSN wins; otherwise the field is cleared. The merge fails exactly when a domain test it reaches raises, and with that test's error |
| Resources.MergeList | awol_python3/isaw/awol/resource.py:330-339 | an empty side yields the other unchanged; otherwise the result holds exactly the elements of both, without repeats; modified unless both are empty |
| Resources.MergeVariants | awol_python3/isaw/awol/resource.py:281-305 | two dictionaries of identifier kinds merge kind by kind: every kind of either side is present and holds exactly both sides' values |
| Resources.MergeFamily | awol_python3/isaw/awol/resource.py:270-310 | a flat list on either side gives the flat union of both sides' elements; a one-sided dictionary is taken whole; two dictionaries merge kind by kind |
| Resources.MergeIdentifiers | awol_python3/isaw/awol/resource.py:262-314 | an empty side yields the other; otherwise every family of either side, and no other, holds the merge of its two sides |
| Resources.MergeIdentifiersAsWritten | awol_python3/isaw/awol/resource.py:262-314 | as written, an empty side still yields the other (the loop itself is modelled as written) |
| Resources.IdentifiersAsWrittenLoses | awol_python3/isaw/awol/resource.py:270-300 | as written, a family present on one side only replaces everything merged so far, so r1's ISSN is lost when r2 adds an ISBN |
| Resources.IdentifiersKeepSample | awol_python3/isaw/awol/resource.py:262-314 | the intended merge keeps r1's ISSN in the same example |
| Resources.MergeChildrenAsWritten | awol_python3/isaw/awol/resource.py:316-326 | as written, the child lists are concatenated whole; a child without `url` raises `KeyError` |
| Resources.DedupByUrl | awol_python3/isaw/awol/resource.py:318-326 | keeps only children from the list, with pairwise distinct URLs, and every URL of the list is kept |
| Resources.DedupByUrlOfDistinct | awol_python3/isaw/awol/resource.py:318-326 | children whose URLs are already distinct are kept as they are |
| Resources.MergeChildren | awol_python3/isaw/awol/resource.py:316-326 | the merged children come from either side, have distinct URLs, and cover every URL of both; `KeyError` exactly when a child lacks `url` |
| Resources.ChildrenAsWrittenKeepsDuplicates | awol_python3/isaw/awol/resource.py:318-326 | two lists holding the same child keep both copies as written, one in the intended merge |
| Resources.MergeField | awol_python3/isaw/awol/resource.py:180-358 | each field merges into a value of its own kind; only `url` yields an alternate and is never reported modified; `languages` and `identifiers` always are; only URL, parent, identity and child fields can raise |
| Resources.Merge | awol_python3/isaw/awol/resource.py:180-363 | a successful merge is a complete record with every attribute of its kind |
| Resources.MergeFails | awol_python3/isaw/awol/resource.py:357-358 | the merge succeeds exactly when every field merges, and otherwise raises the error of a failing field |
| Resources.MergeSpec | awol_python3/isaw/awol/resource.py:180-363 | every field except `url_alternates` and `provenance` holds its field's merged value, whatever order the fields are visited in |
| Resources.MergeAlternates | awol_python3/isaw/awol/resource.py:201-217 | `url_alternates` holds the merged alternates followed by the URL that lost to its prefix |
| Resources.MergeLog | awol_python3/isaw/awol/resource.py:359-362 | the merged log is r1's, then r2's, then one `Combine` entry naming the modified fields in visiting order |
| Resources.ProvenanceField | awol_python3/isaw/awol/resource.py:327-329 | the provenance field merges by concatenation and is not reported modified |
| Resources.ModifiedNamesFacts | awol_python3/isaw/awol/resource.py:200-314 | the log entry never names `url` and always names `languages` and `identifiers` |
| Resources.ModifiedNamesListed | awol_python3/isaw/awol/resource.py:359-362 | every field whose merge reports a change is named in the log entry |
| Resources.SelfMerge | awol_python3/isaw/awol/resource.py:180-363 | a record merged with itself keeps every text, identity field, URL and parent |
| Resources.SelfMergeKeeps | awol_python3/isaw/awol/resource.py:201-252 | a text, identity field, URL or parent merged with itself is kept and not reported modified |
| Resources.SelfMergeLog | awol_python3/isaw/awol/resource.py:253-314 | merging a record with itself still logs `languages` and `identifiers` as modified |
| Resources.SelfMergeOk | awol_python3/isaw/awol/resource.py:180-363 | every field of a record merges with itself when every child has a URL |
| Resources.ScalarConflict | awol_python3/isaw/awol/resource.py:250-252 | two different values of an identity field make the whole merge fail |
| Resources.ListUnion | awol_python3/isaw/awol/resource.py:330-339 | a merged list field of the merged record holds exactly the elements of both records |
| Resources.ListFieldUnion | awol_python3/isaw/awol/resource.py:330-339 | a list field always merges, into exactly the elements of both sides |
| Resources.AsWrittenLoses | awol_python3/isaw/awol/resource.py:204-208 | as written, with `url` visited before `url_alternates`, `url_alternates` ends with only its own merged list |
| Resources.AlternateLostAsWritten | awol_python3/isaw/awol/resource.py:204-208 | with `url` visited first, the written merge drops the URL that lost to its prefix, which the intended merge keeps |
| NormalizeSpace.Normalize | awol_python3/isaw/awol/normalize_space.py:11-17 | the result is the input's whitespace-separated words joined by single plain spaces: no whitespace at either end, no other whitespace, the same non-whitespace characters in the same order, and empty exactly when the input is all whitespace |
| NormalizeSpace.NormalizeWords | awol_python3/isaw/awol/normalize_space.py:11-17 | the normal form splits into exactly the input's words |
| NormalizeSpace.CollapseWords | awol_python3/isaw/awol/normalize_space.py:17 | collapsing each whitespace run to one space keeps the words: no two words merge and none is split |
| NormalizeSpace.WordsStrip | awol_python3/isaw/awol/normalize_space.py:17 | stripping the ends changes no word |
| NormalizeSpace.NormalJoinsWords | awol_python3/isaw/awol/normalize_space.py:11-17 | text in normal form is its own words joined by single spaces |
| NormalizeSpace.NormalizeHas | awol_python3/isaw/awol/normalize_space.py:17 | normalising neither adds nor removes a non-whitespace character |
| NormalizeSpace.CollapseProps | awol_python3/isaw/awol/normalize_space.py:11-17 | collapsing leaves single plain spaces, keeps every non-whitespace character in order, and keeps the same words |
| NormalizeSpace.NormalizeValue | awol_python3/isaw/awol/normalize_space.py:12-21 | anything but text raises `TypeError` |
| NormalizeSpace.NormalFixed | awol_python3/isaw/awol/normalize_space.py:11-17 | text already in normal form is its own normalisation |
| NormalizeSpace.NormalizeIdempotent | awol_python3/isaw/awol/normalize_space.py:11-17 | normalising twice is normalising once |
| CleanString.DropAnd | awol_python3/isaw/awol/clean_string.py:90-91 | a leading `and ` is removed and nothing else |
| CleanString.DotRejoin | awol_python3/isaw/awol/clean_string.py:50-59 | splitting on `.` and rejoining gives back the text, now that truncation is disabled |
| CleanString.Clean | awol_python3/isaw/awol/clean_string.py:46-96 | the result is normal text cut out of the normalised input; blank input gives `""` (the trimming itself: `CleanString.CleanUnwrapsPair`, `CleanString.CleanTrimsSingle`, `CleanString.CleanDropsAnd`) |
| CleanString.CleanFixed | awol_python3/isaw/awol/clean_string.py:46-96 | normal text with nothing to trim is returned as it is |
| CleanString.CleanOfNormal | awol_python3/isaw/awol/clean_string.py:46-96 | on normal nonempty text, cleaning is the junk loop alone |
| CleanString.CleanUnwrapsPair | awol_python3/isaw/awol/clean_string.py:60-89 | text wrapped in the first bracket or quote pair it matches loses exactly that pair |
| CleanString.CleanTrimsSingle | awol_python3/isaw/awol/clean_string.py:60-96 | text with a single-character junk entry at its start or end loses exactly that character, when that entry is the first the text matches and the rest has nothing to trim |
| CleanString.CleanDropsAnd | awol_python3/isaw/awol/clean_string.py:90-96 | a leading `and ` is dropped |
| CleanString.CleanValue | awol_python3/isaw/awol/clean_string.py:46-47 | anything but text raises `TypeError` |
| CleanString.NormalizeAll | awol_python3/isaw/awol/clean_string.py:103 | every piece is normalised, in place |
| CleanString.NonBlank | awol_python3/isaw/awol/clean_string.py:135 | exactly the nonempty normalised pieces are kept, each normal |
| CleanString.KeptSentences | awol_python3/isaw/awol/clean_string.py:98-126 | every sentence kept is a nonempty normalised piece of the input |
| CleanString.KeptSentencesWithoutDot | awol_python3/isaw/awol/clean_string.py:101-103 | no kept sentence holds a `.`, since each is a piece of a split on `.` |
| CleanString.SentencesRoundTrip | awol_python3/isaw/awol/clean_string.py:101-103 | nonempty normal sentences without `.`, joined by `". "`, split on `.` and cleaned of blank pieces, are the sentences again |
| CleanString.DeduplicateSentences | awol_python3/isaw/awol/clean_string.py:98-126 | the result is normal, empty iff nothing is kept, and splitting it on `.` and dropping blank pieces gives exactly the kept sentences |
| CleanString.SentenceRepeatIgnored | awol_python3/isaw/awol/clean_string.py:108-110 | a sentence repeated right after itself is kept once |
| CleanString.SentenceExtensionReplaces | awol_python3/isaw/awol/clean_string.py:111-118 | a sentence that extends the previous one replaces it |
| CleanString.Canary | awol_python3/isaw/awol/clean_string.py:139 | the key of a line is its lower-cased text without the punctuation and whitespace of `RX_CANARY` |
| CleanString.KeptLines | awol_python3/isaw/awol/clean_string.py:128-164 | every line kept is a nonempty normalised line of the input, without a line break |
| CleanString.DeduplicateLines | awol_python3/isaw/awol/clean_string.py:128-167 | the result is exactly the kept lines joined by single spaces and is normal; it is empty iff no line is kept |
| CleanString.LineStepIsSentenceStep | awol_python3/isaw/awol/clean_string.py:141-160 | on a nonempty key, the line loop decides as the sentence loop does on keys |
| CleanString.LineRepeatDropped | awol_python3/isaw/awol/clean_string.py:155-160 | a line whose key equals the previous key is dropped |
| CleanString.Dedash | awol_python3/isaw/awol/clean_string.py:169-182 | every dash character becomes `-` and nothing else changes |
| CleanString.Purify | awol_python3/isaw/awol/clean_string.py:169-182 | the result holds no character that the dash pattern or the replacement table rewrites (what each character becomes: `CleanString.PurifyPerChar`) |
| CleanString.PurifyFixed | awol_python3/isaw/awol/clean_string.py:169-182 | text with no character to rewrite and no `N°` is returned unchanged |
| CleanString.PurifySteps | awol_python3/isaw/awol/clean_string.py:169-182 | on any text, the dash and no-break-space steps act per character, then `N°` becomes `No.`, then the last three replacements act per character |
| CleanString.PurifyPerChar | awol_python3/isaw/awol/clean_string.py:14-36 | text without `N°` is purified character by character, each character as the dash class and the replacement table say on their own |
| CleanString.PurifyNumero | awol_python3/isaw/awol/clean_string.py:30-32 | a leading `N°` becomes `No.`, and the rest is purified on its own |
| CleanString.PurifyValue | awol_python3/isaw/awol/clean_string.py:172-178 | anything but text raises `TypeError` |
| AwolArticle.CleanTitle | awol_python3/isaw/awol/awol_article.py:181-224 | a cleaned title has no whitespace at either end; the only error is `IndexError` (the trimming itself: `AwolArticle.CleanTitleTrimsSingle`) |
| AwolArticle.TitleChunksProps | awol_python3/isaw/awol/awol_article.py:182-191 | the loop start is a prefix of the normalised title, and is either all of it or at least 40 characters long |
| AwolArticle.TitleChunksFirstTwo | awol_python3/isaw/awol/awol_article.py:184-189 | when the first two chunks reach 40 characters nothing is appended |
| AwolArticle.TitleLoopAgrees | awol_python3/isaw/awol/awol_article.py:215-223 | the title junk loop computes what the `clean_string` one does, and fails exactly where that one would be left with `""` |
| AwolArticle.CleanTitleBlank | awol_python3/isaw/awol/awol_article.py:182-217 | an empty or blank title raises `IndexError` |
| AwolArticle.CleanTitleFixed | awol_python3/isaw/awol/awol_article.py:181-224 | a normal title with nothing to trim and at most one `.` is returned unchanged |
| AwolArticle.CleanTitleTrimsSingle | awol_python3/isaw/awol/awol_article.py:181-224 | a title with a single-character junk entry at its start or end loses exactly that character, under the same conditions |
| AwolArticle.MatchDomain | awol_python3/isaw/awol/awol_article.py:62 | a match is a nonempty host of characters other than `/` and `#` right after `http://` or `https://`, ending the URL or followed by `/` or `#` |
| AwolArticle.MatchDomainOf | awol_python3/isaw/awol/awol_article.py:62 | conversely, every `http(s)://host` URL yields its host |
| AwolArticle.MatchDomainExample | awol_python3/isaw/awol/awol_article.py:62 | `http://isaw.nyu.edu/news/` yields `isaw.nyu.edu` |
| Titles.FirstColon | awol_python3/isaw/awol/parse/awol_parse.py:95-97 | the colon prefix is the text before the first `:` and the rest is all the text after it |
| Titles.CheckColon | awol_python3/isaw/awol/parse/awol_parse.py:93-101 | a title without a colon is returned as it is; a title that changes becomes the cleaned text after its first colon |
| Titles.CheckColonSplit | awol_python3/isaw/awol/parse/awol_parse.py:93-101 | on `before:after`, a prefix flagged for stripping gives the cleaned `after`, and any other prefix leaves the title unchanged |
| Titles.AllowByTitleSplit | awol_python3/isaw/awol/parse/awol_parse.py:102-113 | a post is refused exactly when its lower-case title is omitted or its colon prefix is flagged for omission |
| Titles.AllowByTitleNoColon | awol_python3/isaw/awol/parse/awol_parse.py:102-113 | without a colon only the omitted titles are refused |
| Titles.ReconcileBoth | awol_python3/isaw/awol/parse/awol_parse.py:1171-1182 | one or two titles. Titles equal up to case give the post title alone; a single title equals the anchor up to case; two titles are the cleaned post title, which lies inside the anchor up to case, and then the anchor |
| Titles.ReconcileTwoTitles | awol_python3/isaw/awol/parse/awol_parse.py:1173-1182 | two titles come back exactly when the titles differ up to case and the cleaned post title differs from the anchor but lies inside it, up to case |
| Titles.ReconcileAnchorWins | awol_python3/isaw/awol/parse/awol_parse.py:1175-1182 | when the titles differ and the cleaned post title is not inside the anchor, the anchor title alone is returned |
| Titles.ReconcileAsWritten | awol_python3/isaw/awol/parse/awol_parse.py:1163-1182 | as written, there is no result exactly when both titles are missing |
| Titles.ReconcileTitles | awol_python3/isaw/awol/parse/awol_parse.py:1163-1182 | there is no result exactly when both titles are missing; one or two titles otherwise; a lone title of either kind goes through `check_colon` |
| Titles.ReconcileAgrees | awol_python3/isaw/awol/parse/awol_parse.py:1163-1182 | the written and intended versions agree everywhere but the lone anchor title |
| Titles.ReconcileMissingArticle | awol_python3/isaw/awol/parse/awol_parse.py:1169-1170 | with only an anchor title, the written code hands back a function as the title |
| Titles.GroupOf | awol_python3/isaw/awol/parse/awol_parse.py:937-948 | a group the pattern's map does not name gives `None`; a named group within the pattern gives its text; a number beyond the pattern's groups raises `IndexError` |
| Titles.Grok | awol_python3/isaw/awol/parse/awol_parse.py:930-949 | there is no result exactly when no pattern matches |
| Titles.GrokFirstWins | awol_python3/isaw/awol/parse/awol_parse.py:932-949 | the first matching pattern decides, and the fields its map leaves out are `None`, for a match with every group the map names |
| Titles.MatchBdNrFormat | awol_python3/isaw/awol/parse/awol_parse.py:171-175 | the first pattern reads back the volume, issue and year of every title of its shape |
| Titles.MatchBdNrExample | awol_python3/isaw/awol/parse/awol_parse.py:171-175 | `Bd. 52, Nr. 1 (2005)` matches with groups `52`, `1`, `2005` |
| Titles.GrokBdNr | awol_python3/isaw/awol/parse/awol_parse.py:169-175 | `Bd. 52, Nr. 1 (2005)` yields volume `52`, issue `1` and year `2005` |
| Keywords.TableTags | awol_python3/isaw/awol/parse/awol_parse.py:959-976 | exactly the tags of the table entries whose key is hit |
| Keywords.AccessTags | awol_python3/isaw/awol/parse/awol_parse.py:963-969 | `mixed access` for partial open access, `open access` for plain open access, each only with both words and the phrase |
| Keywords.PartialIsNotOpen | awol_python3/isaw/awol/parse/awol_parse.py:963-969 | text that mentions `partial` is never tagged plain open access |
| Keywords.MineOne | awol_python3/isaw/awol/parse/awol_parse.py:956-976 | the tags of one text: term tags, access tags, `series` without `lecture`, then phrase tags |
| Keywords.Mine | awol_python3/isaw/awol/parse/awol_parse.py:952-977 | exactly the tags of the texts that are present; absent texts add nothing |
| Keywords.AllPieces | awol_python3/isaw/awol/parse/awol_parse.py:1002-1008 | exactly the pieces of the raw tags, none holding a comma; a nonempty tag without a comma is its own piece |
| Keywords.AllPiecesDedup | awol_python3/isaw/awol/parse/awol_parse.py:1000-1008 | removing repeated tags first changes no piece |
| Keywords.KeywordList | awol_python3/isaw/awol/parse/awol_parse.py:1000-1009 | the keywords are exactly the normalised pieces, each once |
| Keywords.UnlicensedListed | awol_python3/isaw/awol/parse/awol_parse.py:1010-1016 | a keyword fails the licence check exactly when it is the normal form of an unlicensed piece |
| Keywords.CleanKeywords | awol_python3/isaw/awol/parse/awol_parse.py:999-1017 | distinct normalised pieces of the raw tags; `ValueError` exactly when one of them is unlicensed |
| Keywords.CleanKeywordsStable | awol_python3/isaw/awol/parse/awol_parse.py:999-1017 | cleaning cleaned keywords gives back the same keywords, unless one is empty |
| Keywords.PiecesOfKeywords | awol_python3/isaw/awol/parse/awol_parse.py:1002-1008 | keywords with no comma and none empty are their own pieces |
| Keywords.EmptyPieceKept | awol_python3/isaw/awol/parse/awol_parse.py:1003-1006 | a tag with an empty comma-separated piece yields the empty keyword |
| Keywords.CategoryTags | awol_python3/isaw/awol/parse/awol_parse.py:988-996 | post categories become table tags, skipping `kind#post`; a category with no entry raises |
| Keywords.ParseKeywords | awol_python3/isaw/awol/parse/awol_parse.py:979-997 | the keywords are exactly the normalised pieces of the mined tags and the category tags, so every mined piece is one. An unlicensed tag raises `ValueError`, and only then; any other failure propagates |
| Identifiers.MentionsWordwise | awol_python3/isaw/awol/parse/awol_parse.py:1080-1109 | a family is mentioned exactly when one word of the text holds its name, whatever the order of the word set |
| Identifiers.ExtractAll | awol_python3/isaw/awol/parse/awol_parse.py:1092-1118 | every candidate is extracted in order, and the first failure raises |
| Identifiers.KindValues | awol_python3/isaw/awol/parse/awol_parse.py:1113-1120 | no candidate gives no entry; otherwise the distinct extracted values |
| Identifiers.RegularIssn | awol_python3/isaw/awol/parse/awol_parse.py:1126-1130 | each character is upper-cased, with a space turned into `-` first; the length is kept |
| Identifiers.RemoveWhileIterating | awol_python3/isaw/awol/parse/awol_parse.py:1134-1136 | the written loop keeps a subsequence of the list, in order, and every value that is not electronic keeps all its copies |
| Identifiers.PruneAsWritten | awol_python3/isaw/awol/parse/awol_parse.py:1133-1138 | as written, the pruned list is a subsequence of the generic list that keeps every value not also electronic |
| Identifiers.PruneGeneric | awol_python3/isaw/awol/parse/awol_parse.py:1133-1138 | exactly the generic values that are not electronic remain, in order |
| Identifiers.PruneAsWrittenSkips | awol_python3/isaw/awol/parse/awol_parse.py:1134-1136 | with two shared values, the written loop leaves the second one generic, while the intended pruning removes both |
| Identifiers.RegularizeIssns | awol_python3/isaw/awol/parse/awol_parse.py:1124-1138 | both kinds are regularised, the generic values are pruned against the electronic ones, an emptied generic entry is deleted, and other kinds are untouched |
| Identifiers.RegularizeIssnsClean | awol_python3/isaw/awol/parse/awol_parse.py:1124-1138 | afterwards every ISSN is in presentation form, no value is both generic and electronic, and no generic entry is empty |
| Identifiers.FamilyKinds | awol_python3/isaw/awol/parse/awol_parse.py:1112-1120 | a kind is present exactly when it has candidates, and holds its extracted values; a failing extraction of either kind fails the family |
| Identifiers.FamilyEntry | awol_python3/isaw/awol/parse/awol_parse.py:1108-1138 | there is no entry exactly when the text does not mention the family; an entry holds each kind once |
| Identifiers.ParseWith | awol_python3/isaw/awol/parse/awol_parse.py:1072-1139 | `None` text gives `{}`; otherwise exactly the families the lower-cased text mentions, each holding its family entry |
| Identifiers.ParseIdentifiersAsWritten | awol_python3/isaw/awol/parse/awol_parse.py:1077-1079 | as written, no text gives `{}` |
| Identifiers.ParseIdentifiers | awol_python3/isaw/awol/parse/awol_parse.py:1077-1079 | with the intended pruning, no text gives `{}` |
| Identifiers.ParseIdentifiersClean | awol_python3/isaw/awol/parse/awol_parse.py:1108-1139 | a parsed ISSN entry holds ISSNs in presentation form, no value both generic and electronic, and no empty generic list |
| Domains.DomainFromUrl | awol_python3/isaw/awol/parse/awol_parse.py:217-218 | once every scheme is deleted, the domain is the text up to the first `/` |
| Domains.DomainOfUrl | awol_python3/isaw/awol/parse/awol_parse.py:217-218 | the domain of `http(s)://host/path` is the host |
| Domains.DomainExample | awol_python3/isaw/awol/parse/awol_parse.py:217-218 | the example URL of the test suite gives its host |
| Domains.Reset | awol_python3/isaw/awol/parse/awol_parse.py:256-267 | the soup is stored when given, the domain cache is cleared, the skipped domains are the ignored and own domains, and the other lists are the module's |
| Domains.ConsiderAnchor | awol_python3/isaw/awol/parse/awol_parse.py:269-285 | an anchor is considered exactly when it has a link and text, and its domain, URL and text are on no skip list |
| Domains.FilterAnchors | awol_python3/isaw/awol/parse/awol_parse.py:287-289 | exactly the considered anchors, in order |
| Domains.ComputeDomains | awol_python3/isaw/awol/parse/awol_parse.py:236-248 | the listed domains are distinct |
| Domains.ComputeDomainsMembers | awol_python3/isaw/awol/parse/awol_parse.py:239-246 | a domain is listed exactly when some anchor links to it, it is not skipped, and it is not bibliographic unless it is alone |
| Domains.BibliographicAlone | awol_python3/isaw/awol/parse/awol_parse.py:245-246 | a bibliographic domain survives only as the sole domain |
| Domains.GetDomains | awol_python3/isaw/awol/parse/awol_parse.py:228-248 | the list returned is the one cached; a cached list is returned as it is; only a parser that was never given a soup fails, with `KeyError` |
| Domains.GetDomainsCached | awol_python3/isaw/awol/parse/awol_parse.py:236-248 | asking again returns the cached list and leaves the state alone |
| Domains.GetDomainsFresh | awol_python3/isaw/awol/parse/awol_parse.py:228-248 | on a fresh soup the call succeeds, and every listed domain is linked from the post and on neither ignore list |
| PostResources.FirstOfKind | awol_python3/isaw/awol/parse/awol_parse.py:665-674 | a found value is the first of its kind; the lookups the handlers catch give nothing; any other error is `TypeError` or `IndexError` |
| PostResources.IsbnAsWritten | awol_python3/isaw/awol/parse/awol_parse.py:672 | as written, only a flat ISBN list yields a value, its first; an empty flat list raises |
| PostResources.ParentIdAsWritten | awol_python3/isaw/awol/parse/awol_parse.py:664-674 | as written, an ISBN reaches the parent only from a flat ISBN list |
| PostResources.ParentId | awol_python3/isaw/awol/parse/awol_parse.py:664-674 | the parent's identifier is an ISSN or an ISBN |
| PostResources.ParentIdShaped | awol_python3/isaw/awol/parse/awol_parse.py:664-674 | on parsed identifiers the lookup never fails, and gives the preferred ISSN, else the preferred ISBN |
| PostResources.ParentIsbnLost | awol_python3/isaw/awol/parse/awol_parse.py:671-674 | as written, parsed identifiers never give the parent an ISBN |
| PostResources.IsbnOnlyAsWritten | awol_python3/isaw/awol/parse/awol_parse.py:664-674 | identifiers holding only an ISBN give the parent nothing as written |
| PostResources.IsbnOnlyFound | awol_python3/isaw/awol/parse/awol_parse.py:664-674 | the intended lookup gives the parent that ISBN |
| PostResources.Adopt | awol_python3/isaw/awol/parse/awol_parse.py:677-678 | every subordinate is made part of the parent, and is otherwise unchanged |
| PostResources.AssembleAsWritten | awol_python3/isaw/awol/parse/awol_parse.py:676-685 | with `package()` as written, the primary resource lists its subordinates' packages and comes first, followed by the adopted subordinates |
| PostResources.Assemble | awol_python3/isaw/awol/parse/awol_parse.py:676-685 | for either reading of `package()`, the packages of the subordinates and of the related resources are appended to the primary's lists and nothing else of it changes; then the adopted subordinates, then the related resources |
| PostResources.GetResourcesAsWritten | awol_python3/isaw/awol/parse/awol_parse.py:660-687 | a refused title gives `None`, and only then. An allowed post fails exactly when the parent lookup fails or there are related resources, which raise `NameError` because `append` is not defined. Otherwise the resources are linked with `package()` as written |
| PostResources.GetResources | awol_python3/isaw/awol/parse/awol_parse.py:660-687 | a refused title gives `None`, and only then; the call fails exactly when the parent lookup fails; otherwise the resources are linked with `package()` as intended: the primary resource, then the subordinates, then the related resources |
| PostResources.AdoptedPackages | awol_python3/isaw/awol/parse/awol_parse.py:676-679 | for either reading of `package()`, the packages appended are those of the subordinates as found, since a package does not depend on the parent |
| PostResources.GetResourcesAgrees | awol_python3/isaw/awol/parse/awol_parse.py:660-687 | without related resources, without an ISBN family, and with no extended title that differs from the title, the written and intended versions agree |
| PostResources.AssembleAgrees | awol_python3/isaw/awol/parse/awol_parse.py:676-679 | with no extended title that differs from the title, both readings of `package()` assemble the same resources |
| Routing.Lookup | awol_python3/isaw/awol/parse/awol_parsers.py:60-68 | a registered name is found; any other raises `KeyError` |
| Routing.Route | awol_python3/isaw/awol/parse/awol_parsers.py:55-70 | no domains, or several without `journal:` in the title, raise `NotImplementedError`; a chosen parser is the domain's own, `generic` or `generic-single` |
| Routing.RouteJournal | awol_python3/isaw/awol/parse/awol_parsers.py:58-60 | a `journal:` title selects `generic-single` however many domains there are |
| Routing.RouteOneDomain | awol_python3/isaw/awol/parse/awol_parsers.py:61-68 | one domain selects its own parser, else `generic-single` for the listed domain, else `generic` |
| Routing.BankDomains | awol_python3/isaw/awol/parse/awol_parsers.py:82-92 | with no soup given or stored it raises `AttributeError`; a given soup is stored, and the domains are the generic parser's for it |
| Routing.Parse | awol_python3/isaw/awol/parse/awol_parsers.py:43-72 | a post without soup raises `AttributeError`; otherwise the route for the domains of its soup |
| Routing.ParseStateless | awol_python3/isaw/awol/parse/awol_parsers.py:46-48 | the choice does not depend on the state the generic parser was left in |
| Routing.ParseNoDomains | awol_python3/isaw/awol/parse/awol_parsers.py:55-56 | a post linking nowhere is refused with `NotImplementedError` |
| DomainParsers.AscsaReconcile | awol_python3/isaw/awol/parse/awol_parse_ascsa.py:34-42 | with the base method corrected: the newsletter's post keeps its own title, and every other pair goes to the corrected base rules |
| DomainParsers.AscsaReconcileAsWritten | awol_python3/isaw/awol/parse/awol_parse_ascsa.py:34-42 | as written: the newsletter's post keeps its own title, and every other pair goes to the base method as written |
| DomainParsers.AscsaMissingArticle | awol_python3/isaw/awol/parse/awol_parse_ascsa.py:34-42 | with only an anchor title, the written override hands back the function `check_colon` as the title, while the corrected one cleans the anchor title |
| DomainParsers.AscsaAgrees | awol_python3/isaw/awol/parse/awol_parse_ascsa.py:34-42 | wherever the post has a title, the written and corrected overrides agree |
| DomainParsers.AscsaOverrides | awol_python3/isaw/awol/parse/awol_parse_ascsa.py:39-40 | for the newsletter the override gives a different answer than the base rules |
| DomainParsers.AscsaReset | awol_python3/isaw/awol/parse/awol_parse_ascsa.py:46-48 | the base reset, with one more skipped URL at the end and nothing else changed |
| DomainParsers.AscsaConsiders | awol_python3/isaw/awol/parse/awol_parse_ascsa.py:46-48 | the anchors considered are the base parser's, except a link to the newsletter notice |
| DomainParsers.AscsaSameDomains | awol_python3/isaw/awol/parse/awol_parse_ascsa.py:46-48 | the ASCSA parser lists the same domains as the base one |
| DomainParsers.OiScan | awol_python3/isaw/awol/parse/awol_parse_oi.py:33-38 | the scan stops at the first eligible anchor, or at the last anchor; an anchor without a link raises `AttributeError` |
| DomainParsers.OiPrimaryAnchor | awol_python3/isaw/awol/parse/awol_parse_oi.py:31-38 | no anchors raise `NameError`; a chosen anchor is one of the post's |
| DomainParsers.FirstEligible | awol_python3/isaw/awol/parse/awol_parse_oi.py:17-36 | the first anchor whose host is not on the never-primary list and whose URL is not skipped; `None` exactly when every anchor is ineligible |
| DomainParsers.OiPrimaryChoice | awol_python3/isaw/awol/parse/awol_parse_oi.py:31-38 | on linked anchors, the first eligible anchor, or the last when none is eligible |
| DomainParsers.OiFilteredAnchors | awol_python3/isaw/awol/parse/awol_parse_oi.py:31-38 | on the base parser's anchors, the OI choice fails only when there are none |
| Mods.LocalName | awol_python3/isaw/awol/tools/mods.py:22 | the local name never holds a `}` |
| Mods.LocalNameOf | awol_python3/isaw/awol/tools/mods.py:22 | a tag `{ns}name` gives `name`, and a tag without `}` is its own local name |
| Mods.Append | awol_python3/isaw/awol/tools/mods.py:31-36 | a new key gets a one-element list; an existing key's list gets the value at its end; no other key changes |
| Mods.AppendInOrder | awol_python3/isaw/awol/tools/mods.py:31-36 | appending twice under a key lists both values in order |
| Mods.AppendExtends | awol_python3/isaw/awol/tools/mods.py:31-36 | appending only extends lists |
| Mods.LowerText | awol_python3/isaw/awol/tools/mods.py:61-77 | an element without text raises `AttributeError`; otherwise the value is its text in lower case |
| Mods.DateKey | awol_python3/isaw/awol/tools/mods.py:106-113 | no point gives `issued_date`; the open end `9999` gives no key; otherwise `<point>_date` |
| Mods.DateIssuedRecords | awol_python3/isaw/awol/tools/mods.py:106-115 | the `dateIssued` handler leaves the dictionary unchanged exactly for the open end; every other date is recorded under its key |
| Mods.LanguageItem | awol_python3/isaw/awol/tools/mods.py:118-123 | a coded term keeps its authority; any other term is its text |
| Mods.NoteKey | awol_python3/isaw/awol/tools/mods.py:125-131 | the key is the type with each space turned into `_`, character by character, or `note` without a type |
| Mods.IdentifierKey | awol_python3/isaw/awol/tools/mods.py:133-139 | the identifier type, or `identifier` |
| Mods.Entry | awol_python3/isaw/awol/tools/mods.py:38-141 | each handler files at most one value, and only `dateIssued` can file none; it fails only on an unmodelled handler or with `AttributeError` on an element without text |
| Mods.Handle | awol_python3/isaw/awol/tools/mods.py:38-141 | a handler leaves the dictionary alone or appends one value under one key; it fails only on an unmodelled handler or an element without text |
| Mods.Walk | awol_python3/isaw/awol/tools/mods.py:21-29 | the walk only extends the lists already in the dictionary, and keeps each key once |
| Mods.WalkHandled | awol_python3/isaw/awol/tools/mods.py:22-29 | an element whose local name has a handler is given to that handler |
| Mods.WalkLanguage | awol_python3/isaw/awol/tools/mods.py:118-123 | a `languageTerm` element adds its term, coded with its authority or plain, at the end of the `language` list, and no other key changes |
| Mods.WalkDate | awol_python3/isaw/awol/tools/mods.py:106-115 | a `dateIssued` element adds its text at the end of its date key's list, and no other key changes; an open end changes nothing |
| Mods.WalkNote | awol_python3/isaw/awol/tools/mods.py:125-131 | a `note` element adds its text at the end of the list under its note key, and no other key changes |
| Mods.WalkIdentifier | awol_python3/isaw/awol/tools/mods.py:133-139 | an `identifier` element adds its text at the end of the list under its identifier type, and no other key changes |
| Mods.WalkOtherName | awol_python3/isaw/awol/tools/mods.py:21-29 | an element named like another name of the module records nothing: `walk` recurses until the limit, `__subclasshook__` returns without walking the children, and every other name raises `TypeError` |
| Mods.HandlersApart | awol_python3/isaw/awol/tools/mods.py:7-141 | no handler shares its name with another name of the module |
| Mods.WalkThrough | awol_python3/isaw/awol/tools/mods.py:23-27 | an element without a handler yields what its children yield, in order |
| Mods.WalkPlain | awol_python3/isaw/awol/tools/mods.py:21-29 | a tree with no handled element records nothing |
| Mods.Extract | awol_python3/isaw/awol/tools/mods.py:13-19 | the extracted dictionary holds each key once |
| Mods.ExtractTitle | awol_python3/isaw/awol/tools/mods.py:13-40 | a namespaced title inside a plain wrapper is the one value recorded |
| Marc.Splice008 | COACS_json_to_marc.py:112 | the splice keeps the length and everything but positions 21-23, which hold the code |
| Marc.LookupCode | COACS_json_to_marc.py:112 | a listed language gives its code from the table; any other gives three blanks |
| Marc.LookupFirstPart | COACS_json_to_marc.py:6-70 | a code found in the first part of the table is the one looked up |
| Marc.ArabicCode | COACS_json_to_marc.py:6-70 | `ar` maps to `ara` |
| Marc.FirstLanguage | COACS_json_to_marc.py:109-114 | English without a list or with a `null` first entry; blanks for an empty list; otherwise the code of the first language |
| Marc.Field008 | COACS_json_to_marc.py:107-120 | a `null` language list raises `TypeError`; otherwise the default 008 with the first language's code at positions 21-23 |
| Marc.Field008English | COACS_json_to_marc.py:109-112 | a post whose first language maps to `eng` gets exactly the default value |
| Marc.PackageGet | COACS_json_to_marc.py:144 | a missing key raises `KeyError` |
| Marc.RecordSub | COACS_json_to_marc.py:277-299 | `KeyError` exactly when no field has the tag; a control field or missing code gives `None` |
| Marc.SubValueSkip | COACS_json_to_marc.py:296-300 | subfields with other codes in front do not change a lookup |
| Marc.Truncated | COACS_json_to_marc.py:143-149 | one subfield `a`, holding the first 9000 characters of the value |
| Marc.Field022 | COACS_json_to_marc.py:126-138 | `a` holds the first generic ISSN and `l` the first electronic one; an empty list raises `IndexError` |
| Marc.Field245 | COACS_json_to_marc.py:143-149 | a parent without `title_full` raises `KeyError`; otherwise a 245 is there exactly when the parent's full title is truthy |
| Marc.Fields022 | COACS_json_to_marc.py:126-138 | a 022 exactly when the post has ISSNs, failing exactly when `Field022` does |
| Marc.Middle | COACS_json_to_marc.py:126-181 | fails exactly on an empty ISSN list or a parent without `title_full`; holds the 022, every field Field245 builds and every describing field; never a control, 856 or 866 field, and a 246 only for a truthy title |
| Marc.Leading | COACS_json_to_marc.py:97-181 | a `null` language list or a failing middle part fails; otherwise 006, 007 and the built 008 first, every middle field after, and no 856 or 866 |
| Marc.ParentUrl | COACS_json_to_marc.py:186-191 | a parent without `url` raises `KeyError`; otherwise the parent's URL, or `None` without a parent |
| Marc.Describing | COACS_json_to_marc.py:150-181 | 506 is always there. A 260 with the year is there exactly when the year is truthy, and every 260 is that one. 246 and 520 hold the cut title and description when they are truthy, and appear only then |
| Marc.Field856 | COACS_json_to_marc.py:186-203 | read back, `a`, `d` and `u` give the domain, the parent's URL and the post's URL, each when truthy |
| Marc.SubRecord | COACS_json_to_marc.py:237-306 | fails exactly when the full title is `null`, or the journal has no 246, or the issue has a URL and the journal no 856; the 008 is the one given, 490 repeats the journal's title, and 856 links the issue's URL with the journal's |
| Marc.SubHead | COACS_json_to_marc.py:237-276 | an issue with a full title gets exactly 006 `m`, 007 `cr`, the given 008, its cut 245 and the open-access 506, in that order; without one nothing; a `null` full title fails |
| Marc.Sub856 | COACS_json_to_marc.py:288-304 | an issue with a URL gets one 856 with that URL, then the journal's domain and URL when truthy; it fails exactly when the journal record has no 856 |
| Marc.SubRecords | COACS_json_to_marc.py:233-308 | one record per issue, in order; fails exactly when one of them fails |
| Marc.Sub008AsWritten | COACS_json_to_marc.py:251-254 | as written, the issue's 008 is always the English default |
| Marc.Sub008 | COACS_json_to_marc.py:251-254 | corrected, the issue's 008 is the journal's 008 value |
| Marc.JournalRecord | COACS_json_to_marc.py:92-211 | fails exactly when the leading fields fail or the parent lacks `url`; the leading fields come first; the 856 built for the post is its only 856; an 866 holds a truthy volume; a 246 with the cut title is there exactly when the title is truthy |
| Marc.Journal856 | COACS_json_to_marc.py:186-203 | the journal record's only 856 is the one built for it |
| Marc.Journal246 | COACS_json_to_marc.py:150-156 | the journal record has a 246 exactly when the title is truthy, and it holds the cut title |
| Marc.Journal008 | COACS_json_to_marc.py:107-120 | the 008 found in the journal record is the one built for it |
| Marc.Journal008At | COACS_json_to_marc.py:97-120 | the journal record opens with 006 `m`, 007 `cr` and the built 008 |
| Marc.JournalLookups | COACS_json_to_marc.py:150-203 | read back, the record gives the URL, domain and parent URL in 856, the cut title in 246, and its 008 value |
| Marc.JsonToMarcWith | COACS_json_to_marc.py:92-229 | nothing is written unless the post or its parent has a URL; a `null` issue list raises `NameError`; otherwise the journal record and its issue records |
| Marc.SubordinateLinks | COACS_json_to_marc.py:277-304 | each issue record's 490 holds the journal's title, and its 856 holds the issue's URL with the journal's domain and URL; with a full title its 008 is the chosen value |
| Marc.SubRecordLinks | COACS_json_to_marc.py:277-304 | an issue record built from a journal record names the journal's title in 490 and links the journal's domain and URL in 856 |
| Marc.SubordinatesFail | COACS_json_to_marc.py:233-308 | the issue records fail exactly when the journal has no truthy title or an issue fails on its own |
| Marc.SubordinateLanguageAsWritten | COACS_json_to_marc.py:251-260 | as written, an issue of a journal in another language than English still says English |
| Marc.SubordinateLanguage | COACS_json_to_marc.py:251-260 | corrected, every issue record carries the journal's 008 value |
| Marc.ArabicSubordinateAsWritten | COACS_json_to_marc.py:251-260 | a journal in Arabic says `ara` in its 008, while as written each of its issues says `eng` |

## Left out

- The regular-expression engine. Scans for ISSN and ISBN candidates,
  author and editor patterns, and every analytic-title pattern except the
  first are inputs. The first analytic-title pattern is written out
  character by character.
- The HTML document (BeautifulSoup) and its navigation. This covers
  `_get_anchors`, `_get_description`, `_get_subordinate_resources`,
  `_get_related_resources` and `_get_primary_resource`: anchors and
  subordinate resources are inputs.
- The language classifier (`_get_language`), which works with
  probabilities and a floating-point threshold.
- The network and files: Zotero and Wikidata calls, JSON dump and load,
  the Atom and XML loaders, and the `pymarc` file writes. Directory
  walking and the command lines are also left out.
- The clock. `set_provenance` and `merge` take the time stamp as a
  parameter.
- The order in which Python iterates a `set`. It is unspecified, and is
  modelled as first-occurrence order (`Strings.Dedup`) or as a
  caller-given field order in `Resources.Merge`. Contracts speak about
  the elements only. `_clean_keywords` sorts before its final
  `list(set(..))`, and that ordering is not modelled.
- Case mapping is modelled on ASCII letters only (`Strings.Lower`,
  `Strings.Upper`).
- Titles.MatchBdNr: `\d` is modelled as the ASCII digits `0`-`9`
  (`Titles.IsDigit`). The `regex` module also matches the other Unicode
  decimal digits, so a title written with, say, Arabic-Indic digits
  matches there and not in the model.
- Mods.OtherNames: lists the attributes of a Python 2.7 module object,
  in line with the Python 2.7 reading below. Python 3 adds `__spec__`,
  `__loader__`, `__cached__`, the rich comparisons and a few more; an
  element with one of those local names is walked through here. The
  runaway `walk` recursion is named `RecursionError`, which Python 2.7
  reports as `RuntimeError`.
- Mods.Extract: the MODS `name` and `originInfo` handlers walk `lxml`
  objectified children. Meeting one yields `Err(Unmodelled)` rather than
  a value.
- Domains.DomainOfUrl: is stated for a host without a port. The general
  definition covers every URL.
- Marc.RecordSub: follows `pymarc`'s documented behaviour. `record[tag]`
  raises `KeyError` when absent, and `field[code]` is `None` when the
  code is missing. A field with repeated codes is not modelled.
- Marc.JsonToMarcWith: the JSON record is assumed to hold every key the
  code reads. A missing `title`, `url`, `year`, `description`, `volume`
  or `subordinate_resources` key, which would raise `KeyError`, is not
  modelled.
- The generic, generic-single, domain and othes parsers. Apart from
  their registration names they are DOM walks or network fetches.
- The hashing of resource keys (sha1).
- Python 3 itself. The files sit under a Python 3 tree but keep
  Python 2 code, which Python 3 would refuse or reject at run time: the
  `ur'...'` literal of `awol_parse.py:53` is a syntax error, the
  `.iteritems()` calls of `awol_parse.py:167-168` fail, and
  `keys() + keys()` at `resource.py:187` and `resource.py:269` raises
  `TypeError`. The model reads all of this as Python 2.7 would: dictionary
  keys as lists, `iteritems` as the items, `ur'...'` as a raw text
  pattern. That reading is a modelling choice.
- Resources.MergeAsWritten: only its alternates loop is as written. Each
  field is merged as intended, so this defect shows on its own; the
  identifier and child-list merges as written are stated separately by
  `Resources.MergeIdentifiersAsWritten` and
  `Resources.MergeChildrenAsWritten`.

## Findings

| source | as written | input that shows it | evidently intended | confidence | as-written member | corrected member |
|---|---|---|---|---|---|---|
| awol_python3/isaw/awol/parse/awol_parse.py:1169-1170 | a lone anchor title returns `(check_colon,)`, the function itself | `anchor_title="X"`, `article_title=None` | `(check_colon(anchor_title),)` | high; not executed | Titles.ReconcileMissingArticle | Titles.ReconcileTitles |
| awol_python3/isaw/awol/resource.py:270-300 | a family present on one side only replaces the whole merged dictionary with a copy of that side | r1 `{'issn': {'generic': ['a']}}`, r2 `{'issn': {'generic': ['b']}, 'isbn': {'generic': ['c']}}`, families visited ISSN first | every family merged and kept | high; not executed | Resources.IdentifiersAsWrittenLoses | Resources.IdentifiersKeepSample |
| awol_python3/isaw/awol/parse/awol_parse.py:1134-1136 | `remove` inside `for ident in generic` skips the element after each removal | electronic `[A, B]`, generic `[A, B]` | every generic value also electronic removed | high; not executed | Identifiers.PruneAsWrittenSkips | Identifiers.ParseIdentifiersClean |
| awol_python3/isaw/awol/resource.py:99-108 | reads `extended_title`, so `title_full` is always `title` and `title` is never added | a resource with `title_extended` different from `title` | the extended title as `title_full`, plus `title` when they differ | medium; not executed | Resources.PackageAsWrittenDropsTitle | Resources.Package |
| awol_python3/isaw/awol/resource.py:204-208,330-339 | the alternate URL goes into `url_alternates` of the new record, which is overwritten when `url_alternates` is merged later | URLs `http://a.org/x` and `http://a.org/x/` with `url` visited before `url_alternates` | the longer URL kept among the alternates | high; not executed | Resources.AlternateLostAsWritten | Resources.MergeAlternates |
| awol_python3/isaw/awol/resource.py:318-326 | `del child` only unbinds the loop variable, so no duplicate child is removed | two child lists holding the same child | the later child with an already-seen URL dropped | high; not executed | Resources.ChildrenAsWrittenKeepsDuplicates | Resources.MergeChildren |
| awol_python3/isaw/awol/parse/awol_parse.py:682-683 | `primary_resource.related_resources(append(...))` calls an undefined `append` | a post with one related resource | the package appended to `related_resources` | high; not executed | PostResources.GetResourcesAsWritten | PostResources.GetResources |
| awol_python3/isaw/awol/parse/awol_parse.py:672 | `identifiers['isbn'][0]` indexes a dictionary of kinds, so the `KeyError` is caught and no ISBN is set | identifiers `{'isbn': {'generic': ['x']}}` | the first electronic, else generic, ISBN | high; not executed | PostResources.IsbnOnlyAsWritten | PostResources.IsbnOnlyFound |
| COACS_json_to_marc.py:253-254 | `'languages' in parent_record` asks the MARC record for a field tagged `languages`, so every issue says English | a post with languages `["ar"]` and an issue with `title_full` | the journal's language in each issue's 008 | high; not executed | Marc.ArabicSubordinateAsWritten | Marc.SubordinateLanguage |

=== FILE: awol_article.dfy ===
/** `awol_article.py`: `clean_title` and the `RX_MATCH_DOMAIN` pattern. */
module AwolArticle {
  import opened Results
  import opened Strings
  import opened NormalizeSpace
  import opened CleanString

  // ---------------------------------------------------------------------
  // clean_title
  // ---------------------------------------------------------------------

  /** The length below which `clean_title` keeps appending '.'-chunks. */
  const TitleChunkLimit: nat := 40

  /** The `while i < len(chopped) and len(cooked) < 40` loop. */
  function AppendWhileShort(cooked: string, rest: seq<string>): string
    decreases |rest|
  {
    if |rest| == 0 || |cooked| >= TitleChunkLimit then cooked
    else AppendWhileShort(cooked + "." + rest[0], rest[1..])
  }

  /** One pass of the junk loop of `clean_title`. Unlike `clean_string`
      nothing catches the IndexError of indexing an empty title. */
  function TitleStep(cooked: string, j: Junk): Result<string> {
    if |cooked| == 0 then Err(IndexError)
    else
      match j
      case Pair(o, c) =>
        var t := if cooked[0] == o && cooked[|cooked| - 1] == c then Inner(cooked) else cooked;
        Ok(Strip(DropAnd(t)))
      case Single(ch) =>
        var t := if cooked[0] == ch then cooked[1..] else cooked;
        if |t| == 0 then Err(IndexError)
        else
          var u := if t[|t| - 1] == ch then t[..|t| - 1] else t;
          Ok(Strip(DropAnd(u)))
  }

  function TitleLoop(cooked: string, js: seq<Junk>): Result<string>
    decreases |js|
  {
    if |js| == 0 then Ok(cooked)
    else
      var next :- TitleStep(cooked, js[0]);
      TitleLoop(next, js[1..])
  }

  /** The text the junk loop of `clean_title` starts from. */
  function TitleChunks(prepped: string): string {
    var chopped := Split(prepped, '.');
    if |chopped| > 2 then AppendWhileShort(Join(chopped[..2], "."), chopped[2..])
    else prepped
  }

  /** `clean_title(raw)`. */
  function CleanTitle(raw: string): (r: Result<string>)
    ensures r.Ok? ==> NoEdgeSpace(r.value)
    ensures r.Err? ==> r.error == IndexError
  {
    var cooked := TitleChunks(Normalize(raw));
    TitleLoopSound(cooked);
    TitleLoop(cooked, JunkTable)
  }

  lemma TitleLoopSound(cooked: string)
    ensures TitleLoop(cooked, JunkTable).Ok? ==> NoEdgeSpace(TitleLoop(cooked, JunkTable).value)
    ensures TitleLoop(cooked, JunkTable).Err? ==> TitleLoop(cooked, JunkTable).error == IndexError
  {
    TitleLoopAgrees(cooked, JunkTable);
    var next := JunkStep(cooked, JunkTable[0]);
    JunkStepShrinks(cooked, JunkTable[0]);
    JunkLoopShrinks(next, JunkTable[1..]);
  }

  lemma {:induction false} JoinPrefix(ps: seq<string>, qs: seq<string>)
    requires |ps| >= 1
    ensures StartsWith(Join(ps + qs, "."), Join(ps, "."))
    decreases |qs|
  {
    if |qs| == 0 {
      assert ps + qs == ps;
    } else {
      var ps' := ps + [qs[0]];
      assert ps'[..|ps'| - 1] == ps;
      var m := Join(ps', ".");
      assert m == Join(ps, ".") + "." + qs[0];
      JoinPrefix(ps', qs[1..]);
      assert ps' + qs[1..] == ps + qs;
      var full := Join(ps + qs, ".");
      assert full[..|m|] == m;
      assert full[..|Join(ps, ".")|] == m[..|Join(ps, ".")|];
    }
  }

  /** The chunk loop keeps a prefix of the text: all of it, or at least 40
      characters of it; and it adds nothing to a start of 40 or more. */
  lemma {:induction false} AppendWhileShortPrefix(ps: seq<string>, qs: seq<string>)
    requires |ps| >= 1
    ensures var r := AppendWhileShort(Join(ps, "."), qs);
      && StartsWith(Join(ps + qs, "."), r)
      && (r == Join(ps + qs, ".") || |r| >= TitleChunkLimit)
      && (|Join(ps, ".")| >= TitleChunkLimit ==> r == Join(ps, "."))
    decreases |qs|
  {
    if |qs| == 0 {
      assert ps + qs == ps;
      StartsWithSelf(Join(ps, "."));
    } else if |Join(ps, ".")| >= TitleChunkLimit {
      JoinPrefix(ps, qs);
    } else {
      var ps' := ps + [qs[0]];
      assert ps'[..|ps'| - 1] == ps;
      assert Join(ps', ".") == Join(ps, ".") + "." + qs[0];
      AppendWhileShortPrefix(ps', qs[1..]);
      assert ps' + qs[1..] == ps + qs;
    }
  }

  lemma StartsWithSelf(s: string)
    ensures StartsWith(s, s)
  {
    assert s[..|s|] == s;
  }

  /** Title chunks: with more than two '.'-chunks the text is cut after the
      first chunk boundary at which it reaches 40 characters; otherwise it is
      the normalised text itself. */
  lemma TitleChunksProps(prepped: string)
    ensures StartsWith(prepped, TitleChunks(prepped))
    ensures TitleChunks(prepped) == prepped || |TitleChunks(prepped)| >= TitleChunkLimit
    ensures |Split(prepped, '.')| <= 2 ==> TitleChunks(prepped) == prepped
  {
    var chopped := Split(prepped, '.');
    if |chopped| > 2 {
      AppendWhileShortPrefix(chopped[..2], chopped[2..]);
      assert chopped[..2] + chopped[2..] == chopped;
      JoinSplit(prepped, '.');
    } else {
      StartsWithSelf(prepped);
    }
  }

  /** When the first two chunks already reach 40 characters nothing more is
      appended. */
  lemma TitleChunksFirstTwo(prepped: string)
    requires |Split(prepped, '.')| > 2
    requires |Join(Split(prepped, '.')[..2], ".")| >= TitleChunkLimit
    ensures TitleChunks(prepped) == Join(Split(prepped, '.')[..2], ".")
  {
    var chopped := Split(prepped, '.');
    AppendWhileShortPrefix(chopped[..2], chopped[2..]);
  }

  /** The junk loop of `clean_title` computes what `clean_string`'s does,
      except that it fails where `clean_string`'s would be left with "". */
  lemma {:induction false} TitleLoopAgrees(cooked: string, js: seq<Junk>)
    ensures TitleLoop(cooked, js).Ok? ==> TitleLoop(cooked, js).value == JunkLoop(cooked, js)
    ensures TitleLoop(cooked, js).Err? ==>
      TitleLoop(cooked, js).error == IndexError && JunkLoop(cooked, js) == ""
    decreases |js|
  {
    if |js| > 0 {
      var step := TitleStep(cooked, js[0]);
      if step.Ok? {
        assert step.value == JunkStep(cooked, js[0]);
        TitleLoopAgrees(step.value, js[1..]);
      } else {
        assert JunkStep(cooked, js[0]) == "";
        JunkLoopEmpty(js[1..]);
      }
    }
  }

  /** Once `clean_string`'s junk loop has emptied the text it stays empty. */
  lemma {:induction false} JunkLoopEmpty(js: seq<Junk>)
    ensures JunkLoop("", js) == ""
    decreases |js|
  {
    if |js| > 0 {
      JunkLoopEmpty(js[1..]);
    }
  }

  /** An empty or all-whitespace title raises IndexError. */
  lemma CleanTitleBlank(raw: string)
    requires forall i :: 0 <= i < |raw| ==> IsSpace(raw[i])
    ensures CleanTitle(raw) == Err(IndexError)
  {
    assert Normalize(raw) == "";
    assert Split("", '.') == [""];
  }

  /** A normal title with nothing to trim and at most one '.' is returned
      unchanged. */
  lemma CleanTitleFixed(s: string)
    requires Normal(s) && JunkFree(s) && |Split(s, '.')| <= 2
    ensures CleanTitle(s) == Ok(s)
  {
    NormalFixed(s);
    TitleChunksProps(s);
    JunkLoopFixed(s, JunkTable);
    TitleLoopAgrees(s, JunkTable);
  }

  /** A title with one character of a single-character junk entry at its
      start or at its end loses exactly that character, when that entry is
      the first the title matches, the title has at most one '.', and what
      remains has nothing more to trim. */
  lemma CleanTitleTrimsSingle(s: string, x: string, k: nat)
    requires k < |JunkTable| && JunkTable[k].Single?
    requires s == [JunkTable[k].c] + x || s == x + [JunkTable[k].c]
    requires forall i :: 0 <= i < k ==> !EndsMatch(s, JunkTable[i])
    requires Normal(s) && !StartsWith(s, "and ") && |Split(s, '.')| <= 2
    requires Normal(x) && JunkFree(x)
    ensures CleanTitle(s) == Ok(x)
  {
    NormalFixed(s);
    TitleChunksProps(s);
    LoopTrimsSingle(s, x, JunkTable, k);
    TitleLoopAgrees(s, JunkTable);
  }

  // ---------------------------------------------------------------------
  // RX_MATCH_DOMAIN = ^https?:\/\/([^/#]+)
  // ---------------------------------------------------------------------

  predicate HostChar(c: char) {
    c != '/' && c != '#'
  }

  /** The longest prefix of `s` made of characters other than '/' and '#'. */
  function HostPrefix(s: string): (r: string)
    ensures StartsWith(s, r)
    ensures forall i :: 0 <= i < |r| ==> HostChar(r[i])
    ensures |r| == |s| || !HostChar(s[|r|])
    decreases |s|
  {
    if |s| > 0 && HostChar(s[0]) then [s[0]] + HostPrefix(s[1..]) else ""
  }

  /** The scheme `RX_MATCH_DOMAIN` saw at the start of a matched URL. */
  function SchemeOf(url: string): string {
    if StartsWith(url, "http://") then "http://" else "https://"
  }

  /** Group 1 of `RX_MATCH_DOMAIN.match(url)`, or None when it does not match:
      a nonempty run of host characters right after the scheme, ending the
      URL or followed by '/' or '#'. */
  function MatchDomain(url: string): (r: Option<string>)
    ensures r.Some? ==> StartsWith(url, "http://") || StartsWith(url, "https://")
    ensures r.Some? ==>
      && r.value != ""
      && (forall i :: 0 <= i < |r.value| ==> HostChar(r.value[i]))
      && var n := |SchemeOf(url)|;
         && StartsWith(url, SchemeOf(url))
         && n + |r.value| <= |url|
         && url[n..n + |r.value|] == r.value
         && (|url| == n + |r.value| || !HostChar(url[n + |r.value|]))
  {
    if StartsWith(url, "http://") then HostAfter(url, "http://")
    else if StartsWith(url, "https://") then HostAfter(url, "https://")
    else None
  }

  /** The host after a scheme the URL is known to start with. */
  function HostAfter(url: string, scheme: string): (r: Option<string>)
    requires StartsWith(url, scheme)
    ensures r.Some? ==>
      && r.value != ""
      && (forall i :: 0 <= i < |r.value| ==> HostChar(r.value[i]))
      && |scheme| + |r.value| <= |url|
      && url[|scheme|..|scheme| + |r.value|] == r.value
      && (|url| == |scheme| + |r.value| || !HostChar(url[|scheme| + |r.value|]))
    ensures r.None? <==> |url| == |scheme| || !HostChar(url[|scheme|])
  {
    var t := url[|scheme|..];
    var h := HostPrefix(t);
    if h == "" then None
    else
      assert t[..|h|] == h;
      assert url[|scheme|..|scheme| + |h|] == t[..|h|];
      Some(h)
  }

  /** Conversely, every `http(s)://host` URL yields its host. */
  lemma MatchDomainOf(scheme: string, host: string, tail: string)
    requires scheme == "http://" || scheme == "https://"
    requires host != "" && forall i :: 0 <= i < |host| ==> HostChar(host[i])
    requires tail == "" || !HostChar(tail[0])
    ensures MatchDomain(scheme + host + tail) == Some(host)
  {
    var url := scheme + host + tail;
    assert url[..|scheme|] == scheme;
    assert url[|scheme|..] == host + tail;
    HostPrefixOf(host, tail);
    if scheme == "https://" {
      assert url[4] == 's';
      assert !StartsWith(url, "http://");
    }
  }

  lemma {:induction false} HostPrefixOf(host: string, tail: string)
    requires forall i :: 0 <= i < |host| ==> HostChar(host[i])
    requires tail == "" || !HostChar(tail[0])
    ensures HostPrefix(host + tail) == host
    decreases |host|
  {
    if |host| > 0 {
      assert (host + tail)[1..] == host[1..] + tail;
      HostPrefixOf(host[1..], tail);
    } else {
      assert host + tail == tail;
    }
  }

  /** The case in the module's tests. */
  lemma MatchDomainExample()
    ensures MatchDomain("http://isaw.nyu.edu/news/") == Some("isaw.nyu.edu")
  {
    var url, host := "http://isaw.nyu.edu/news/", "isaw.nyu.edu";
    assert forall i :: 0 <= i < |host| ==> HostChar(host[i]);
    assert url[..7] == "http://" && url[7..19] == host && url[19..] == "/news/";
    assert url == url[..7] + url[7..19] + url[19..];
    MatchDomainOf("http://", host, "/news/");
  }
}

=== FILE: clean_string.dfy ===
/** `clean_string.py`: title and text cleaning on top of `normalize_space`. */
module CleanString {
  import opened Results
  import opened Strings
  import opened NormalizeSpace

  // ---------------------------------------------------------------------
  // clean_string
  // ---------------------------------------------------------------------

  /** An entry of the junk table: a bracket or quote pair removed together
      from both ends, or a single character removed from either end. */
  datatype Junk = Pair(open: char, close: char) | Single(c: char)

  /** The junk table, in the order the loop visits it. */
  const JunkTable: seq<Junk> := [
    Pair('(', ')'),
    Pair('[', ']'),
    Pair('{', '}'),
    Pair('"', '"'),
    Pair('\'', '\''),
    Pair('<', '>'),
    Pair('\U{AB}', '\U{BB}'),        // « »
    Pair('\U{2018}', '\U{2019}'),    // ‘ ’
    Pair('\U{201A}', '\U{201B}'),    // ‚ ‛
    Pair('\U{201C}', '\U{201D}'),    // “ ”
    Pair('\U{201F}', '\U{201E}'),    // ‟ „
    Pair('\U{2039}', '\U{203A}'),    // ‹ ›
    Pair('\U{301F}', '\U{FF02}'),    // 〟 ＂
    Single('\\'),
    Single('/'),
    Single('|'),
    Single(','),
    Single(';'),
    Single('-'),
    Single('.'),
    Single('_')
  ]

  /** Whether a junk entry would trim something off the ends of `s`. */
  predicate EndsMatch(s: string, j: Junk) {
    |s| > 0 &&
    match j
    case Pair(o, c) => s[0] == o && s[|s| - 1] == c
    case Single(ch) => s[0] == ch || s[|s| - 1] == ch
  }

  /** Text the junk loop leaves alone: nothing to trim, no leading "and ". */
  predicate JunkFree(s: string) {
    |s| > 0 && !StartsWith(s, "and ") &&
    forall k :: 0 <= k < |JunkTable| ==> !EndsMatch(s, JunkTable[k])
  }

  /** `cooked[4:]` when `cooked[0:4] == 'and '`. */
  function DropAnd(s: string): (r: string)
    ensures StartsWith(s, "and ") ==> s == "and " + r
    ensures !StartsWith(s, "and ") ==> r == s
  {
    if StartsWith(s, "and ") then s[4..] else s
  }

  /** One pass of the junk loop. Indexing an empty string raises IndexError,
      which the loop swallows; the text is empty at that point, so the pass
      leaves "". */
  function JunkStep(cooked: string, j: Junk): string {
    if |cooked| == 0 then ""
    else
      match j
      case Pair(o, c) =>
        var t := if cooked[0] == o && cooked[|cooked| - 1] == c then Inner(cooked) else cooked;
        Strip(DropAnd(t))
      case Single(ch) =>
        var t := if cooked[0] == ch then cooked[1..] else cooked;
        if |t| == 0 then ""
        else
          var u := if t[|t| - 1] == ch then t[..|t| - 1] else t;
          Strip(DropAnd(u))
  }

  function JunkLoop(cooked: string, js: seq<Junk>): string
    decreases |js|
  {
    if |js| == 0 then cooked else JunkLoop(JunkStep(cooked, js[0]), js[1..])
  }

  /** The `while` loop that appends `'.' + chopped[i]` to `cooked`. */
  function AppendChunks(cooked: string, rest: seq<string>): string
    decreases |rest|
  {
    if |rest| == 0 then cooked else AppendChunks(cooked + "." + rest[0], rest[1..])
  }

  /** Appending the remaining chunks one by one joins all of them. */
  lemma {:induction false} AppendChunksJoin(ps: seq<string>, qs: seq<string>)
    requires |ps| >= 1
    ensures AppendChunks(Join(ps, "."), qs) == Join(ps + qs, ".")
    decreases |qs|
  {
    if |qs| > 0 {
      var ps' := ps + [qs[0]];
      assert ps'[..|ps'| - 1] == ps;
      assert Join(ps', ".") == Join(ps, ".") + "." + qs[0];
      AppendChunksJoin(ps', qs[1..]);
      assert ps' + qs[1..] == ps + qs;
    } else {
      assert ps + qs == ps;
    }
  }

  /** Lines 50-59: split on '.', and with more than two chunks rejoin the
      first two and append the rest; with truncation disabled this gives
      back the text unchanged. */
  function DotRejoin(prepped: string): (r: string)
    ensures r == prepped
  {
    var chopped := Split(prepped, '.');
    if |chopped| > 2 then
      AppendChunksJoin(chopped[..2], chopped[2..]);
      assert chopped[..2] + chopped[2..] == chopped;
      JoinSplit(prepped, '.');
      AppendChunks(Join(chopped[..2], "."), chopped[2..])
    else prepped
  }

  /** `clean_string(raw)` on a `str`. */
  function Clean(raw: string): (r: string)
    ensures Normal(r)
    ensures IsInfix(r, Normalize(raw))
    ensures (forall i :: 0 <= i < |raw| ==> IsSpace(raw[i])) ==> r == ""
  {
    var prepped := Normalize(raw);
    if prepped == "" then
      assert "" == prepped[0..0];
      ""
    else
      JunkLoopShrinks(prepped, JunkTable);
      InfixKeepsSpacing(JunkLoop(prepped, JunkTable), prepped);
      JunkLoop(DotRejoin(prepped), JunkTable)
  }

  /** The tail of every pass: dropping "and " and stripping keep a piece. */
  lemma FinishShrinks(t: string, cooked: string)
    requires IsInfix(t, cooked)
    ensures IsInfix(Strip(DropAnd(t)), cooked) && NoEdgeSpace(Strip(DropAnd(t)))
  {
    var d := DropAnd(t);
    assert d == t[|t| - |d|..|t|];
    InfixTrans(d, t, cooked);
    StripProps(d);
    InfixTrans(Strip(d), d, cooked);
  }

  lemma EmptyInfix(s: string)
    ensures IsInfix("", s)
  {
    assert "" == s[0..0];
  }

  /** The tail of a pass applied to the slice `cooked[a:b]`. */
  lemma FinishAt(cooked: string, a: nat, b: nat)
    requires a <= b <= |cooked|
    ensures IsInfix(Strip(DropAnd(cooked[a..b])), cooked)
    ensures NoEdgeSpace(Strip(DropAnd(cooked[a..b])))
  {
    InfixAt(cooked, a, b);
    FinishShrinks(cooked[a..b], cooked);
  }

  lemma PairStepShrinks(cooked: string, o: char, c: char)
    ensures IsInfix(JunkStep(cooked, Pair(o, c)), cooked)
    ensures NoEdgeSpace(JunkStep(cooked, Pair(o, c)))
  {
    if |cooked| == 0 {
      EmptyInfix(cooked);
    } else {
      var unwrap := cooked[0] == o && cooked[|cooked| - 1] == c;
      var a := if unwrap && |cooked| >= 2 then 1 else 0;
      var b := if !unwrap then |cooked| else if |cooked| >= 2 then |cooked| - 1 else 0;
      assert (if unwrap then Inner(cooked) else cooked) == cooked[a..b];
      FinishAt(cooked, a, b);
    }
  }

  /** The cuts of a single-character pass as one slice. */
  lemma SingleCut(cooked: string, ch: char, a: nat, b: nat)
    requires |cooked| >= 2 || (|cooked| == 1 && cooked[0] != ch)
    requires a == (if cooked[0] == ch then 1 else 0)
    requires b == (if cooked[|cooked| - 1] == ch then |cooked| - 1 else |cooked|)
    ensures a <= b <= |cooked| && |cooked[a..]| > 0
    ensures cooked[a..][|cooked[a..]| - 1] == cooked[|cooked| - 1]
    ensures (if cooked[|cooked| - 1] == ch then cooked[a..][..|cooked[a..]| - 1] else cooked[a..]) == cooked[a..b]
  {
  }

  /** A single-character pass on text it does not empty: the tail of the
      pass applied to `cooked[a:b]`, where `a` and `b` cut the character
      off either end. */
  lemma SingleStepSlice(cooked: string, ch: char, a: nat, b: nat)
    requires |cooked| >= 2 || (|cooked| == 1 && cooked[0] != ch)
    requires a == (if cooked[0] == ch then 1 else 0)
    requires b == (if cooked[|cooked| - 1] == ch then |cooked| - 1 else |cooked|)
    ensures a <= b <= |cooked|
    ensures JunkStep(cooked, Single(ch)) == Strip(DropAnd(cooked[a..b]))
  {
    SingleCut(cooked, ch, a, b);
    var t := if cooked[0] == ch then cooked[1..] else cooked;
    assert t == cooked[a..];
    var u := if t[|t| - 1] == ch then t[..|t| - 1] else t;
    assert u == cooked[a..b];
    SingleStepUnfold(cooked, ch, t, u);
  }

  /** The single-character pass, once `t` and `u` are named. */
  lemma SingleStepUnfold(cooked: string, ch: char, t: string, u: string)
    requires |cooked| > 0
    requires t == (if cooked[0] == ch then cooked[1..] else cooked) && |t| > 0
    requires u == (if t[|t| - 1] == ch then t[..|t| - 1] else t)
    ensures JunkStep(cooked, Single(ch)) == Strip(DropAnd(u))
  {
    if cooked[0] == ch {
      if t[|t| - 1] == ch {
        assert u == cooked[1..][..|t| - 1];
      } else {
        assert u == cooked[1..];
      }
    } else {
      if t[|t| - 1] == ch {
        assert u == cooked[..|t| - 1];
      } else {
        assert u == cooked;
      }
    }
  }

  lemma SingleStepShrinks(cooked: string, ch: char)
    ensures IsInfix(JunkStep(cooked, Single(ch)), cooked)
    ensures NoEdgeSpace(JunkStep(cooked, Single(ch)))
  {
    var n := |cooked|;
    if n == 0 || (n == 1 && cooked[0] == ch) {
      EmptyInfix(cooked);
    } else {
      var a := if cooked[0] == ch then 1 else 0;
      var b := if cooked[n - 1] == ch then n - 1 else n;
      SingleStepSlice(cooked, ch, a, b);
      FinishAt(cooked, a, b);
    }
  }

  /** Each pass keeps a piece of its input with no space at either end. */
  lemma JunkStepShrinks(cooked: string, j: Junk)
    ensures IsInfix(JunkStep(cooked, j), cooked)
    ensures NoEdgeSpace(JunkStep(cooked, j))
  {
    match j
    case Pair(o, c) => PairStepShrinks(cooked, o, c);
    case Single(ch) => SingleStepShrinks(cooked, ch);
  }

  lemma {:induction false} JunkLoopShrinks(cooked: string, js: seq<Junk>)
    requires NoEdgeSpace(cooked)
    ensures IsInfix(JunkLoop(cooked, js), cooked)
    ensures NoEdgeSpace(JunkLoop(cooked, js))
    decreases |js|
  {
    if |js| == 0 {
      assert cooked == cooked[0..|cooked|];
    } else {
      var next := JunkStep(cooked, js[0]);
      JunkStepShrinks(cooked, js[0]);
      JunkLoopShrinks(next, js[1..]);
      InfixTrans(JunkLoop(next, js[1..]), next, cooked);
    }
  }

  lemma {:induction false} JunkLoopFixed(s: string, js: seq<Junk>)
    requires |s| > 0 && NoEdgeSpace(s) && !StartsWith(s, "and ")
    requires forall k :: 0 <= k < |js| ==> !EndsMatch(s, js[k])
    ensures JunkLoop(s, js) == s
    decreases |js|
  {
    if |js| > 0 {
      JunkStepFixed(s, js[0]);
      JunkLoopFixed(s, js[1..]);
    }
  }

  lemma JunkStepFixed(s: string, j: Junk)
    requires |s| > 0 && NoEdgeSpace(s) && !StartsWith(s, "and ")
    requires !EndsMatch(s, j)
    ensures JunkStep(s, j) == s
  {
    StripIdentity(s);
  }

  /** On normal nonempty text `clean_string` is the junk loop alone. */
  lemma CleanOfNormal(s: string)
    requires Normal(s) && s != ""
    ensures Clean(s) == JunkLoop(s, JunkTable)
  {
    NormalFixed(s);
  }

  /** Text that is already normal and has nothing to trim is returned as is. */
  lemma CleanFixed(s: string)
    requires Normal(s) && JunkFree(s)
    ensures Clean(s) == s
  {
    CleanOfNormal(s);
    JunkLoopFixed(s, JunkTable);
  }

  lemma JunkLoopSplit(s: string, js: seq<Junk>, k: nat)
    requires k <= |js|
    ensures JunkLoop(s, js) == JunkLoop(JunkLoop(s, js[..k]), js[k..])
    decreases k
  {
    if k > 0 {
      assert js[1..][..k - 1] == js[1..k];
      assert js[1..][k - 1..] == js[k..];
      JunkLoopSplit(JunkStep(s, js[0]), js[1..], k - 1);
    }
  }

  lemma PairStepUnwraps(s: string, o: char, c: char)
    requires |s| >= 2 && s[0] == o && s[|s| - 1] == c
    requires NoEdgeSpace(Inner(s)) && !StartsWith(Inner(s), "and ")
    ensures JunkStep(s, Pair(o, c)) == Inner(s)
  {
    StripIdentity(Inner(s));
  }

  lemma {:induction false} LoopUnwrapsPair(s: string, js: seq<Junk>, k: nat)
    requires k < |js| && js[k].Pair?
    requires |s| >= 2 && s[0] == js[k].open && s[|s| - 1] == js[k].close
    requires forall i :: 0 <= i < k ==> !EndsMatch(s, js[i])
    requires NoEdgeSpace(s) && !StartsWith(s, "and ")
    requires |Inner(s)| > 0 && NoEdgeSpace(Inner(s)) && !StartsWith(Inner(s), "and ")
    requires forall i :: k < i < |js| ==> !EndsMatch(Inner(s), js[i])
    ensures JunkLoop(s, js) == Inner(s)
  {
    var before := js[..k];
    var rest := js[k + 1..];
    var j := js[k];
    assert js[k..] == [j] + rest;
    calc {
      JunkLoop(s, js);
      { JunkLoopSplit(s, js, k); }
      JunkLoop(JunkLoop(s, before), js[k..]);
      { assert forall i :: 0 <= i < |before| ==> before[i] == js[i];
        JunkLoopFixed(s, before); }
      JunkLoop(s, [j] + rest);
      { assert ([j] + rest)[1..] == rest; }
      JunkLoop(JunkStep(s, j), rest);
      { PairStepUnwraps(s, j.open, j.close); }
      JunkLoop(Inner(s), rest);
      { assert forall i :: 0 <= i < |rest| ==> rest[i] == js[k + 1 + i];
        JunkLoopFixed(Inner(s), rest); }
      Inner(s);
    }
  }

  /** A text wrapped in the first bracket or quote pair it matches loses
      exactly that pair, when what is inside has nothing more to trim. */
  lemma CleanUnwrapsPair(s: string, k: nat)
    requires k < |JunkTable| && JunkTable[k].Pair?
    requires |s| >= 2 && s[0] == JunkTable[k].open && s[|s| - 1] == JunkTable[k].close
    requires forall i :: 0 <= i < k ==> !EndsMatch(s, JunkTable[i])
    requires Normal(s) && !StartsWith(s, "and ")
    requires Normal(Inner(s)) && JunkFree(Inner(s))
    ensures Clean(s) == Inner(s)
  {
    CleanOfNormal(s);
    LoopUnwrapsPair(s, JunkTable, k);
  }

  lemma SingleStepTrims(s: string, x: string, ch: char)
    requires s == [ch] + x || s == x + [ch]
    requires |x| > 0 && x[0] != ch && x[|x| - 1] != ch
    requires NoEdgeSpace(x) && !StartsWith(x, "and ")
    ensures JunkStep(s, Single(ch)) == x
  {
    StripIdentity(x);
    if s == [ch] + x {
      assert s[1..] == x;
    } else {
      assert s[..|s| - 1] == x;
    }
  }

  /** Entries that match neither end of the text leave it alone. */
  lemma LoopSkips(s: string, js: seq<Junk>, k: nat)
    requires k <= |js|
    requires |s| > 0 && NoEdgeSpace(s) && !StartsWith(s, "and ")
    requires forall i :: 0 <= i < k ==> !EndsMatch(s, js[i])
    ensures JunkLoop(s, js) == JunkLoop(s, js[k..])
  {
    JunkLoopSplit(s, js, k);
    var before := js[..k];
    forall i | 0 <= i < |before|
      ensures !EndsMatch(s, before[i])
    {
      assert before[i] == js[i];
    }
    JunkLoopFixed(s, before);
  }

  /** The loop from entry `k` on: one pass of entry `k`, then the rest. */
  lemma LoopAt(s: string, js: seq<Junk>, k: nat)
    requires k < |js|
    ensures JunkLoop(s, js[k..]) == JunkLoop(JunkStep(s, js[k]), js[k + 1..])
  {
    assert js[k..][1..] == js[k + 1..];
  }

  lemma LoopTail(x: string, js: seq<Junk>, k: nat)
    requires k < |js|
    requires |x| > 0 && NoEdgeSpace(x) && !StartsWith(x, "and ")
    requires forall i :: k < i < |js| ==> !EndsMatch(x, js[i])
    ensures JunkLoop(x, js[k + 1..]) == x
  {
    var rest := js[k + 1..];
    forall i | 0 <= i < |rest|
      ensures !EndsMatch(x, rest[i])
    {
      assert rest[i] == js[k + 1 + i];
    }
    JunkLoopFixed(x, rest);
  }

  lemma LoopTrimsSingle(s: string, x: string, js: seq<Junk>, k: nat)
    requires k < |js| && js[k].Single?
    requires s == [js[k].c] + x || s == x + [js[k].c]
    requires forall i :: 0 <= i < k ==> !EndsMatch(s, js[i])
    requires NoEdgeSpace(s) && !StartsWith(s, "and ")
    requires |x| > 0 && NoEdgeSpace(x) && !StartsWith(x, "and ")
    requires forall i :: k <= i < |js| ==> !EndsMatch(x, js[i])
    ensures JunkLoop(s, js) == x
  {
    LoopSkips(s, js, k);
    LoopAt(s, js, k);
    assert !EndsMatch(x, js[k]);
    SingleStepTrims(s, x, js[k].c);
    LoopTail(x, js, k);
  }

  /** A text with one character of a single-character junk entry at its
      start or at its end loses exactly that character, when that entry is
      the first the text matches and what remains has nothing more to
      trim. */
  lemma CleanTrimsSingle(s: string, x: string, k: nat)
    requires k < |JunkTable| && JunkTable[k].Single?
    requires s == [JunkTable[k].c] + x || s == x + [JunkTable[k].c]
    requires forall i :: 0 <= i < k ==> !EndsMatch(s, JunkTable[i])
    requires Normal(s) && !StartsWith(s, "and ")
    requires Normal(x) && JunkFree(x)
    ensures Clean(s) == x
  {
    CleanOfNormal(s);
    LoopTrimsSingle(s, x, JunkTable, k);
  }

  lemma LoopDropsAnd(x: string, js: seq<Junk>)
    requires |js| > 0 && js[0].Pair? && !EndsMatch("and " + x, js[0])
    requires |x| > 0 && NoEdgeSpace(x) && !StartsWith(x, "and ")
    requires forall i :: 0 < i < |js| ==> !EndsMatch(x, js[i])
    ensures JunkLoop("and " + x, js) == x
  {
    var s := "and " + x;
    assert s[..4] == "and ";
    assert DropAnd(s) == x;
    StripIdentity(x);
    assert JunkStep(s, js[0]) == x;
    JunkLoopFixed(x, js[1..]);
  }

  /** A leading "and " is dropped. */
  lemma CleanDropsAnd(x: string)
    requires Normal(x) && JunkFree(x)
    ensures Clean("and " + x) == x
  {
    AndNormal(x);
    CleanOfNormal("and " + x);
    assert ("and " + x)[0] == 'a';
    LoopDropsAnd(x, JunkTable);
  }

  lemma AndNormal(x: string)
    requires Normal(x) && x != ""
    ensures Normal("and " + x)
  {
    var s := "and " + x;
    assert forall i :: 4 <= i < |s| ==> s[i] == x[i - 4];
    assert s[|s| - 1] == x[|x| - 1];
  }

  /** `clean_string(raw)` for a value of any type: `normalize_space` raises
      TypeError on anything but text. */
  function CleanValue(v: PyValue): (r: Result<string>)
    ensures v.PyOther? <==> r == Err(TypeError)
    ensures v.PyStr? ==> r.Ok? && Normal(r.value) && IsInfix(r.value, Normalize(v.s))
  {
    match v
    case PyStr(s) => Ok(Clean(s))
    case PyOther => Err(TypeError)
  }

  // ---------------------------------------------------------------------
  // deduplicate_sentences, deduplicate_lines
  // ---------------------------------------------------------------------

  /** The elements of `xs` other than "", in order. */
  function NonEmpty(xs: seq<string>): (r: seq<string>)
    ensures |r| <= |xs|
    ensures forall x :: x in r <==> x in xs && x != ""
    decreases |xs|
  {
    if |xs| == 0 then []
    else
      var rest := NonEmpty(xs[1..]);
      assert forall x :: x in xs <==> x == xs[0] || x in xs[1..];
      if xs[0] != "" then [xs[0]] + rest else rest
  }

  /** `[normalize_space(x) for x in parts]`. */
  function NormalizeAll(parts: seq<string>): (r: seq<string>)
    ensures |r| == |parts|
    ensures forall i :: 0 <= i < |parts| ==> r[i] == Normalize(parts[i])
    ensures forall x :: x in r ==> Normal(x)
  {
    seq(|parts|, i requires 0 <= i < |parts| => Normalize(parts[i]))
  }

  /** `[normalize_space(x) for x in parts if normalize_space(x) != '']`. */
  function NonBlank(parts: seq<string>): (r: seq<string>)
    ensures |r| <= |parts|
    ensures forall x :: x in r <==> x in NormalizeAll(parts) && x != ""
    ensures forall x :: x in r ==> x != "" && Normal(x)
  {
    NonEmpty(NormalizeAll(parts))
  }

  /** The state of both de-duplication loops: the lines kept so far and the
      previous line (or its comparison key). */
  datatype Kept = Kept(out: seq<string>, prev: string)

  /** `good[0:-1]`, which is `[]` on an empty list. */
  function DropLast(s: seq<string>): (r: seq<string>)
    ensures |s| > 0 ==> s == r + [s[|s| - 1]]
    ensures |s| == 0 ==> r == []
  {
    if |s| == 0 then [] else s[..|s| - 1]
  }

  /** One iteration of the loop of `deduplicate_sentences`. */
  function SentenceStep(st: Kept, sentence: string): Kept {
    if st.prev == sentence then st
    else if |st.prev| > 0 && |st.prev| < |sentence| then
      var kept := if sentence[..|st.prev|] == st.prev then DropLast(st.out) else st.out;
      Kept(kept + [sentence], sentence)
    else Kept(st.out + [sentence], sentence)
  }

  function SentenceLoop(st: Kept, sentences: seq<string>): Kept
    decreases |sentences|
  {
    if |sentences| == 0 then st else SentenceLoop(SentenceStep(st, sentences[0]), sentences[1..])
  }

  /** The sentences `deduplicate_sentences` keeps, in order. */
  function KeptSentences(raws: string): (r: seq<string>)
    ensures forall x :: x in r ==> x in NonBlank(Split(raws, '.'))
    ensures forall x :: x in r ==> x != "" && Normal(x)
  {
    var sentences := NonBlank(Split(raws, '.'));
    SentenceLoopFrom(Kept([], ""), sentences);
    assert forall x :: x in sentences ==> x != "" && Normal(x);
    SentenceLoop(Kept([], ""), sentences).out
  }

  /** No kept sentence holds a `.`: they are pieces of a split on `.`. */
  lemma KeptSentencesWithoutDot(raws: string)
    ensures forall x :: x in KeptSentences(raws) ==> '.' !in x
  {
    NonBlankWithout(Split(raws, '.'), '.');
  }

  /** A non-whitespace character absent from every part is absent from
      every normalised piece. */
  lemma NonBlankWithout(parts: seq<string>, c: char)
    requires !IsSpace(c)
    requires forall i :: 0 <= i < |parts| ==> c !in parts[i]
    ensures forall x :: x in NonBlank(parts) ==> c !in x
  {
    var all := NormalizeAll(parts);
    forall i | 0 <= i < |parts|
      ensures c !in all[i]
    {
      NormalizeHas(parts[i], c);
    }
  }

  /** Nonempty texts pass the emptiness filter unchanged. */
  lemma {:induction false} NonEmptyKeeps(xs: seq<string>)
    requires forall x :: x in xs ==> x != ""
    ensures NonEmpty(xs) == xs
    decreases |xs|
  {
    if |xs| > 0 {
      assert forall x :: x in xs[1..] ==> x in xs;
      NonEmptyKeeps(xs[1..]);
      assert xs[0] in xs;
      assert [xs[0]] + xs[1..] == xs;
    }
  }

  /** Splitting sentences joined by `". "` on `.` and dropping blank pieces
      gives back the sentences. */
  lemma SentencesRoundTrip(ks: seq<string>)
    requires forall k :: k in ks ==> k != "" && Normal(k) && '.' !in k
    ensures NonBlank(Split(Join(ks, ". "), '.')) == ks
  {
    if |ks| == 0 {
      assert NormalizeAll([""]) == [""];
    } else {
      SentencePieces(ks);
      NonEmptyKeeps(ks);
    }
  }

  /** The pieces of joined sentences normalise back to the sentences. */
  lemma SentencePieces(ks: seq<string>)
    requires |ks| >= 1
    requires forall k :: k in ks ==> k != "" && Normal(k) && '.' !in k
    ensures NormalizeAll(Split(Join(ks, ". "), '.')) == ks
  {
    SplitJoinDots(ks);
    PiecesNormalize(ks, Split(Join(ks, ". "), '.'));
  }

  lemma PiecesNormalize(ks: seq<string>, pieces: seq<string>)
    requires |pieces| == |ks| >= 1
    requires forall k :: k in ks ==> k != "" && Normal(k)
    requires pieces[0] == ks[0]
    requires forall i :: 1 <= i < |ks| ==> pieces[i] == " " + ks[i]
    ensures NormalizeAll(pieces) == ks
  {
    var all := NormalizeAll(pieces);
    forall i | 0 <= i < |ks|
      ensures all[i] == ks[i]
    {
      assert ks[i] in ks;
      if i == 0 {
        SentencePiece(ks[0], pieces[0]);
      } else {
        SentencePiece(ks[i], pieces[i]);
      }
    }
  }

  /** A piece is its sentence, possibly behind one space. */
  lemma SentencePiece(k: string, piece: string)
    requires k != "" && Normal(k)
    requires piece == k || piece == " " + k
    ensures Normalize(piece) == k
  {
    if piece == k {
      NormalFixed(k);
    } else {
      NormalizeSpaced(k);
    }
  }

  /** `deduplicate_sentences(raws)`: the kept sentences joined by `". "`. */
  function DeduplicateSentences(raws: string): (r: string)
    ensures Normal(r)
    ensures r == "" <==> |KeptSentences(raws)| == 0
    ensures NonBlank(Split(r, '.')) == KeptSentences(raws)
  {
    var kept := KeptSentences(raws);
    KeptSentencesWithoutDot(raws);
    JoinNormal(kept, ". ");
    SentencesRoundTrip(kept);
    Join(kept, ". ")
  }

  /** Every sentence kept was there before or came from the input. */
  lemma {:induction false} SentenceLoopFrom(st: Kept, ss: seq<string>)
    ensures forall x :: x in SentenceLoop(st, ss).out ==> x in st.out || x in ss
    decreases |ss|
  {
    if |ss| > 0 {
      var st' := SentenceStep(st, ss[0]);
      assert forall x :: x in st'.out ==> x in st.out || x == ss[0] by {
        if |st.out| > 0 {
          assert st.out == DropLast(st.out) + [st.out[|st.out| - 1]];
        }
      }
      SentenceLoopFrom(st', ss[1..]);
    }
  }

  /** The loop invariant of `deduplicate_sentences`: the previous sentence is
      the last one kept. */
  predicate SentenceInv(st: Kept) {
    st.prev == "" || (|st.out| > 0 && st.out[|st.out| - 1] == st.prev)
  }

  lemma SentenceStepInv(st: Kept, sentence: string)
    requires SentenceInv(st) && sentence != ""
    ensures SentenceInv(SentenceStep(st, sentence))
    ensures SentenceStep(st, sentence).prev == sentence
  {
  }

  /** A sentence repeated right after itself is kept once. */
  lemma SentenceRepeatIgnored(st: Kept, sentence: string, rest: seq<string>)
    requires sentence != ""
    ensures SentenceLoop(st, [sentence, sentence] + rest)
         == SentenceLoop(st, [sentence] + rest)
  {
    var st' := SentenceStep(st, sentence);
    assert ([sentence, sentence] + rest)[1..] == [sentence] + rest;
    assert ([sentence] + rest)[1..] == rest;
    assert SentenceStep(st', sentence) == st';
  }

  /** A sentence that extends the previous one replaces it. */
  lemma SentenceExtensionReplaces(st: Kept, x: string, y: string)
    requires SentenceInv(st) && x != ""
    requires |x| < |y| && y[..|x|] == x
    ensures var st1 := SentenceStep(st, x);
      |st1.out| > 0 && st1.out[|st1.out| - 1] == x &&
      SentenceStep(st1, y) == Kept(st1.out[..|st1.out| - 1] + [y], y)
  {
    SentenceStepInv(st, x);
  }

  /** The characters `RX_CANARY` removes: `. , : ! " “ „ ; - '` and whitespace. */
  predicate IsCanaryChar(c: char) {
    c in ".,:!\"\U{201C}\U{201E};-'" || IsSpace(c)
  }

  /** `RX_CANARY.sub('', line.lower())`: the comparison key of a line. */
  function Canary(line: string): (r: string)
    ensures forall c :: c in r <==> c in Lower(line) && !IsCanaryChar(c)
  {
    Filter(Lower(line), c => !IsCanaryChar(c))
  }

  /** One iteration of the loop of `deduplicate_lines`. */
  function LineStep(st: Kept, line: string, canary: string): Kept {
    if canary != "" then
      var toucan := if st.prev != "" && |st.prev| < |canary| then canary[..|st.prev|] else "";
      if st.prev == "" then Kept(st.out + [line], canary)
      else if toucan == st.prev then Kept(DropLast(st.out) + [line], canary)
      else if canary != st.prev then Kept(st.out + [line], canary)
      else Kept(st.out, canary)
    else Kept(st.out + [line], canary)
  }

  function LineLoop(st: Kept, lines: seq<string>): Kept
    decreases |lines|
  {
    if |lines| == 0 then st else LineLoop(LineStep(st, lines[0], Canary(lines[0])), lines[1..])
  }

  /** The lines `deduplicate_lines` keeps, in order. */
  function KeptLines(raws: string): (r: seq<string>)
    ensures forall x :: x in r ==> x in NonBlank(Split(raws, '\n'))
    ensures forall x :: x in r ==> x != "" && Normal(x) && '\n' !in x
  {
    var lines := NonBlank(Split(raws, '\n'));
    LineLoopFrom(Kept([], ""), lines);
    var kept := LineLoop(Kept([], ""), lines).out;
    forall x | x in kept
      ensures '\n' !in x
    {
      NormalNoBreak(x);
    }
    kept
  }

  /** Normal text holds no line break. */
  lemma NormalNoBreak(x: string)
    requires Normal(x)
    ensures '\n' !in x
  {
    if '\n' in x {
      var i :| 0 <= i < |x| && x[i] == '\n';
      assert IsSpace(x[i]);
    }
  }

  /** `deduplicate_lines(raws)`: the kept lines joined by single spaces, with
      nothing for the final `normalize_space` left to change. */
  function DeduplicateLines(raws: string): (r: string)
    ensures Normal(r)
    ensures r == "" <==> |KeptLines(raws)| == 0
    ensures r == Join(KeptLines(raws), " ")
  {
    var kept := KeptLines(raws);
    JoinNormal(kept, " ");
    NormalFixed(Join(kept, " "));
    Normalize(Join(kept, " "))
  }

  /** On a nonempty key both loops take the same decision. */
  lemma LineStepIsSentenceStep(st: Kept, s: string)
    requires s != ""
    ensures LineStep(st, s, s) == SentenceStep(st, s)
  {
  }

  /** A line whose key equals the previous line's key is dropped. */
  lemma LineRepeatDropped(st: Kept, x: string, y: string, rest: seq<string>)
    requires Canary(x) != "" && Canary(y) == Canary(x)
    ensures LineLoop(st, [x, y] + rest) == LineLoop(LineStep(st, x, Canary(x)), rest)
  {
    var st' := LineStep(st, x, Canary(x));
    assert ([x, y] + rest)[1..] == [y] + rest;
    assert ([y] + rest)[1..] == rest;
    assert LineStep(st', y, Canary(y)) == st';
  }

  /** Every line kept was there before or came from the input. */
  lemma {:induction false} LineLoopFrom(st: Kept, lines: seq<string>)
    ensures forall x :: x in LineLoop(st, lines).out ==> x in st.out || x in lines
    decreases |lines|
  {
    if |lines| > 0 {
      var st' := LineStep(st, lines[0], Canary(lines[0]));
      assert forall x :: x in st'.out ==> x in st.out || x == lines[0] by {
        if |st.out| > 0 {
          assert st.out == DropLast(st.out) + [st.out[|st.out| - 1]];
        }
      }
      LineLoopFrom(st', lines[1..]);
    }
  }

  // ---------------------------------------------------------------------
  // purify_text
  // ---------------------------------------------------------------------

  /** The characters of `RX_DASHES`. */
  predicate IsDash(c: char) {
    || c == '-'
    || c == '\U{AD}'
    || ('\U{2010}' <= c <= '\U{2015}')
    || c == '\U{2E3A}'
    || c == '\U{2E3B}'
    || c == '\U{207B}'
    || c == '\U{208B}'
    || c == '\U{FE63}'
    || c == '\U{FF0D}'
  }

  /** `RX_DASHES.sub('-', s)`. */
  function Dedash(s: string): (r: string)
    ensures |r| == |s|
    ensures forall i :: 0 <= i < |s| ==> r[i] == (if IsDash(s[i]) then '-' else s[i])
  {
    seq(|s|, i requires 0 <= i < |s| => if IsDash(s[i]) then '-' else s[i])
  }

  /** A character `purify_text` rewrites to something else. */
  predicate Rewritten(c: char) {
    (IsDash(c) && c != '-') || c in "\U{A0}\U{2026}\U{201C}\U{201D}"
  }

  /** The characters that are gone after the first `k` steps of
      `purify_text`. */
  predicate Banned(c: char, k: nat) {
    || (IsDash(c) && c != '-')
    || (k >= 1 && c == '\U{A0}')
    || (k >= 2 && c == '\U{2026}')
    || (k >= 3 && c == '\U{201C}')
    || (k >= 4 && c == '\U{201D}')
  }

  predicate Clear(s: string, k: nat) {
    forall c :: c in s ==> !Banned(c, k)
  }

  /** A replacement whose text is clear keeps clear text clear. */
  lemma ReplaceKeepsClear(s: string, pat: string, rep: string, k: nat)
    requires |pat| > 0 && Clear(s, k) && Clear(rep, k)
    ensures Clear(Replace(s, pat, rep), k)
  {
    ReplaceChars(s, pat, rep);
  }

  /** A replacement of the `k+1`-th banned character clears it. */
  lemma ReplaceClears(s: string, a: char, rep: string, k: nat)
    requires Clear(s, k) && Clear(rep, k + 1) && Banned(a, k + 1)
    requires forall c :: Banned(c, k + 1) ==> Banned(c, k) || c == a
    ensures Clear(Replace(s, [a], rep), k + 1)
  {
    ReplaceChars(s, [a], rep);
    ReplaceRemovesChar(s, a, rep);
  }

  /** `purify_text(raw)` on text: dashes unified, then the replacement table
      applied in order. */
  function Purify(s: string): (r: string)
    ensures forall c :: c in r ==> !Rewritten(c)
  {
    var d := Dedash(s);
    var a := Replace(d, "\U{A0}", " ");
    var b := Replace(a, "N\U{B0}", "No.");
    var c := Replace(b, "\U{2026}", "...");
    var e := Replace(c, "\U{201C}", "\"");
    var f := Replace(e, "\U{201D}", "\"");
    assert Clear(d, 0);
    ReplaceClears(d, '\U{A0}', " ", 0);
    ReplaceKeepsClear(a, "N\U{B0}", "No.", 1);
    ReplaceClears(b, '\U{2026}', "...", 1);
    ReplaceClears(c, '\U{201C}', "\"", 2);
    ReplaceClears(e, '\U{201D}', "\"", 3);
    assert Clear(f, 4);
    f
  }

  /** Text with nothing to rewrite is returned unchanged. */
  lemma PurifyFixed(s: string)
    requires forall c :: c in s ==> !Rewritten(c)
    requires !Contains(s, "N\U{B0}")
    ensures Purify(s) == s
  {
    assert forall i :: 0 <= i < |s| ==> s[i] in s;
    assert Dedash(s) == s;
    ContainsChar(s, '\U{A0}');
    ReplaceAbsent(s, "\U{A0}", " ");
    ReplaceAbsent(s, "N\U{B0}", "No.");
    ContainsChar(s, '\U{2026}');
    ReplaceAbsent(s, "\U{2026}", "...");
    ContainsChar(s, '\U{201C}');
    ReplaceAbsent(s, "\U{201C}", "\"");
    ContainsChar(s, '\U{201D}');
    ReplaceAbsent(s, "\U{201D}", "\"");
  }

  /** What `purify_text` makes of one character, read off its table alone:
      a dash becomes '-', a no-break space a space, an ellipsis three dots,
      a curly double quote a straight one. */
  function PurifyChar(c: char): (r: string)
    ensures |r| > 0
    ensures c == '\U{2026}' <==> r == "..."
  {
    if IsDash(c) then "-"
    else if c == '\U{A0}' then " "
    else if c == '\U{2026}' then "..."
    else if c == '\U{201C}' || c == '\U{201D}' then "\""
    else [c]
  }

  /** The one-character steps before the "N\U{B0}" replacement. */
  function PreChar(c: char): char {
    if IsDash(c) then '-' else if c == '\U{A0}' then ' ' else c
  }

  /** The one-character steps after the "N\U{B0}" replacement. */
  function PostChar(c: char): string {
    if c == '\U{2026}' then "..." else if c == '\U{201C}' || c == '\U{201D}' then "\"" else [c]
  }

  function Pre(s: string): (r: string)
    ensures |r| == |s|
    ensures forall i :: 0 <= i < |s| ==> r[i] == PreChar(s[i])
  {
    seq(|s|, i requires 0 <= i < |s| => PreChar(s[i]))
  }

  /** Dashes and no-break spaces go first, character by character. */
  lemma PreSteps(s: string)
    ensures Replace(Dedash(s), "\U{A0}", " ") == Pre(s)
  {
    ReplaceOneChar(Dedash(s), '\U{A0}', ' ');
  }

  /** The last three replacements go character by character. */
  lemma {:induction false} PostSteps(t: string)
    ensures Replace(Replace(Replace(t, "\U{2026}", "..."), "\U{201C}", "\""), "\U{201D}", "\"") == MapChars(t, PostChar)
    decreases |t|
  {
    if |t| > 0 {
      var c := t[0];
      var x1 := if c == '\U{2026}' then "..." else [c];
      assert Replace(t, "\U{2026}", "...") == x1 + Replace(t[1..], "\U{2026}", "...");
      var r1 := Replace(t[1..], "\U{2026}", "...");
      ReplaceCharAppend(x1, r1, '\U{201C}', "\"");
      ReplaceCharOn(x1, '\U{201C}', "\"");
      var x2 := if c == '\U{201C}' then "\"" else x1;
      var r2 := Replace(r1, "\U{201C}", "\"");
      ReplaceCharAppend(x2, r2, '\U{201D}', "\"");
      ReplaceCharOn(x2, '\U{201D}', "\"");
      PostSteps(t[1..]);
    }
  }

  /** Neither step before the "N\U{B0}" replacement can make one. */
  lemma {:induction false} PreNoNumero(s: string)
    requires !Contains(s, "N\U{B0}")
    ensures !Contains(Pre(s), "N\U{B0}")
    decreases |s|
  {
    if |s| > 0 {
      assert Pre(s)[1..] == Pre(s[1..]);
      PreNoNumero(s[1..]);
      if |s| >= 2 {
        assert Pre(s)[..2] == [PreChar(s[0]), PreChar(s[1])];
        assert s[..2] == [s[0], s[1]];
      }
    }
  }

  lemma {:induction false} PrePost(s: string)
    ensures MapChars(Pre(s), PostChar) == MapChars(s, PurifyChar)
    decreases |s|
  {
    if |s| > 0 {
      assert Pre(s)[1..] == Pre(s[1..]);
      PrePost(s[1..]);
    }
  }

  /** `purify_text` on any text: the one-character steps around the single
      two-character replacement "N\U{B0}" -> "No.". */
  lemma PurifySteps(s: string)
    ensures Purify(s) == MapChars(Replace(Pre(s), "N\U{B0}", "No."), PostChar)
  {
    PreSteps(s);
    PostSteps(Replace(Pre(s), "N\U{B0}", "No."));
  }

  /** Text without "N\U{B0}" is purified character by character, each
      character by the table alone. */
  lemma PurifyPerChar(s: string)
    requires !Contains(s, "N\U{B0}")
    ensures Purify(s) == MapChars(s, PurifyChar)
  {
    PurifySteps(s);
    PreNoNumero(s);
    ReplaceAbsent(Pre(s), "N\U{B0}", "No.");
    PrePost(s);
  }

  lemma PostKeepsNumber()
    ensures MapChars("No.", PostChar) == "No."
  {
    assert "No."[1..] == "o.";
    assert "o."[1..] == ".";
    assert "."[1..] == "";
  }

  lemma PreOfNumero(s: string)
    ensures Replace(Pre("N\U{B0}" + s), "N\U{B0}", "No.") == "No." + Replace(Pre(s), "N\U{B0}", "No.")
  {
    assert Pre("N\U{B0}" + s) == "N\U{B0}" + Pre(s);
    assert ("N\U{B0}" + Pre(s))[2..] == Pre(s);
  }

  /** A leading "N\U{B0}" becomes "No.", and the rest is purified on its
      own. */
  lemma PurifyNumero(s: string)
    ensures Purify("N\U{B0}" + s) == "No." + Purify(s)
  {
    PurifySteps("N\U{B0}" + s);
    PurifySteps(s);
    PreOfNumero(s);
    MapCharsAppend("No.", Replace(Pre(s), "N\U{B0}", "No."), PostChar);
    PostKeepsNumber();
  }

  /** `purify_text(raw)` for a value of any type: anything but text raises
      TypeError. */
  function PurifyValue(v: PyValue): (r: Result<string>)
    ensures v.PyOther? <==> r == Err(TypeError)
    ensures v.PyStr? ==> r.Ok? && forall c :: c in r.value ==> !Rewritten(c)
  {
    match v
    case PyStr(s) => Ok(Purify(s))
    case PyOther => Err(TypeError)
  }
}

=== FILE: dicts.dfy ===
/** Python dictionaries with string keys, as association lists in iteration
    order: assigning to a present key keeps its place, a new key goes last. */
module Dicts {
  import opened Results
  import opened Strings

  type Dict<V> = seq<(string, V)>

  function Keys<V>(d: Dict<V>): (r: seq<string>)
    ensures |r| == |d|
    ensures forall i :: 0 <= i < |d| ==> r[i] == d[i].0
  {
    seq(|d|, i requires 0 <= i < |d| => d[i].0)
  }

  /** A dictionary holds each key once. */
  predicate WellFormed<V>(d: Dict<V>) {
    NoDuplicates(Keys(d))
  }

  /** `d.get(k)`. */
  function Get<V>(d: Dict<V>, k: string): (r: Option<V>)
    ensures r.Some? <==> k in Keys(d)
    ensures r.Some? ==> (k, r.value) in d
    decreases |d|
  {
    if |d| == 0 then None
    else if d[0].0 == k then Some(d[0].1)
    else
      var r := Get(d[1..], k);
      assert forall x :: x in Keys(d[1..]) ==> x in Keys(d) by {
        forall x | x in Keys(d[1..]) ensures x in Keys(d) {
          var i :| 0 <= i < |d| - 1 && Keys(d[1..])[i] == x;
          assert Keys(d)[i + 1] == x;
        }
      }
      assert k in Keys(d) ==> k in Keys(d[1..]) by {
        if k in Keys(d) {
          var i :| 0 <= i < |d| && Keys(d)[i] == k;
          assert i > 0;
          assert Keys(d[1..])[i - 1] == k;
        }
      }
      r
  }

  lemma GetCons<V>(p: (string, V), rest: Dict<V>, k: string)
    ensures Get([p] + rest, k) == if p.0 == k then Some(p.1) else Get(rest, k)
  {
    assert ([p] + rest)[1..] == rest;
  }

  /** A key of the first dictionary is found there; any other key is
      looked up in the second. */
  lemma {:induction false} GetAppend<V>(a: Dict<V>, b: Dict<V>, k: string)
    ensures Get(a + b, k) == if Get(a, k).Some? then Get(a, k) else Get(b, k)
  {
    if |a| > 0 {
      assert (a + b)[0] == a[0] && (a + b)[1..] == a[1..] + b;
      GetAppend(a[1..], b, k);
    } else {
      assert a + b == b;
    }
  }

  lemma KeysCons<V>(p: (string, V), rest: Dict<V>)
    ensures Keys([p] + rest) == [p.0] + Keys(rest)
  {
  }

  /** `d[k] = v`. */
  function Put<V>(d: Dict<V>, k: string, v: V): (r: Dict<V>)
    ensures Get(r, k) == Some(v)
    ensures forall k' :: k' != k ==> Get(r, k') == Get(d, k')
    ensures |r| == |d| || |r| == |d| + 1
    decreases |d|
  {
    if |d| == 0 then
      [(k, v)]
    else
      assert d == [d[0]] + d[1..];
      if d[0].0 == k then
        assert forall k' :: Get([(k, v)] + d[1..], k') == if k' == k then Some(v) else Get(d[1..], k') by {
          forall k' { GetCons((k, v), d[1..], k'); }
        }
        assert forall k' :: Get(d, k') == if k' == k then Some(d[0].1) else Get(d[1..], k') by {
          forall k' { GetCons(d[0], d[1..], k'); }
        }
        [(k, v)] + d[1..]
      else
        var rest := Put(d[1..], k, v);
        assert forall k' :: Get([d[0]] + rest, k') == if k' == d[0].0 then Some(d[0].1) else Get(rest, k') by {
          forall k' { GetCons(d[0], rest, k'); }
        }
        assert forall k' :: Get(d, k') == if k' == d[0].0 then Some(d[0].1) else Get(d[1..], k') by {
          forall k' { GetCons(d[0], d[1..], k'); }
        }
        [d[0]] + rest
  }

  /** Assigning to a present key keeps the key order; a new key goes last. */
  lemma {:induction false} PutKeys<V>(d: Dict<V>, k: string, v: V)
    ensures k in Keys(d) ==> Keys(Put(d, k, v)) == Keys(d)
    ensures k !in Keys(d) ==> Keys(Put(d, k, v)) == Keys(d) + [k]
    decreases |d|
  {
    if |d| > 0 {
      assert d == [d[0]] + d[1..];
      KeysCons(d[0], d[1..]);
      if d[0].0 == k {
        KeysCons((k, v), d[1..]);
      } else {
        PutKeys(d[1..], k, v);
        KeysCons(d[0], Put(d[1..], k, v));
      }
    }
  }

  lemma PutWellFormed<V>(d: Dict<V>, k: string, v: V)
    requires WellFormed(d)
    ensures WellFormed(Put(d, k, v))
  {
    PutKeys(d, k, v);
    if k !in Keys(d) {
      var r := Put(d, k, v);
      assert Keys(r) == Keys(d) + [k];
    }
  }

  /** `del d[k]`, for a key that is present. */
  function Remove<V>(d: Dict<V>, k: string): (r: Dict<V>)
    ensures Get(r, k) == None
    ensures forall k' :: k' != k ==> Get(r, k') == Get(d, k')
    ensures forall x :: x in Keys(r) <==> x in Keys(d) && x != k
    decreases |d|
  {
    if |d| == 0 then []
    else
      var rest := Remove(d[1..], k);
      assert d == [d[0]] + d[1..];
      KeysCons(d[0], d[1..]);
      forall k' ensures Get(d, k') == if d[0].0 == k' then Some(d[0].1) else Get(d[1..], k') {
        GetCons(d[0], d[1..], k');
      }
      if d[0].0 == k then rest
      else
        KeysCons(d[0], rest);
        forall k' ensures Get([d[0]] + rest, k') == if d[0].0 == k' then Some(d[0].1) else Get(rest, k') {
          GetCons(d[0], rest, k');
        }
        [d[0]] + rest
  }

  lemma {:induction false} RemoveWellFormed<V>(d: Dict<V>, k: string)
    requires WellFormed(d)
    ensures WellFormed(Remove(d, k))
    decreases |d|
  {
    if |d| > 0 {
      var ks := Keys(d);
      assert Keys(d[1..]) == ks[1..];
      assert ks[0] !in ks[1..];
      RemoveWellFormed(d[1..], k);
      if d[0].0 != k {
        KeysCons(d[0], Remove(d[1..], k));
      }
    }
  }

  /** The dictionary holding `a` and then `b`, each only when present. */
  function TwoEntries<V>(ka: string, a: Option<V>, kb: string, b: Option<V>): (r: Dict<V>)
    requires ka != kb
    ensures WellFormed(r)
    ensures forall k :: Get(r, k) == (if k == ka then a else if k == kb then b else None)
  {
    var r1: Dict<V> := if a.Some? then [(ka, a.value)] else [];
    var r2 := if b.Some? then r1 + [(kb, b.value)] else r1;
    forall k ensures Get(r2, k) == (if k == ka then a else if k == kb then b else None) {
      if a.Some? && b.Some? {
        GetCons((ka, a.value), [(kb, b.value)], k);
        GetCons((kb, b.value), [], k);
      } else if a.Some? {
        GetCons((ka, a.value), [], k);
      } else if b.Some? {
        GetCons((kb, b.value), [], k);
      }
    }
    assert WellFormed(r2) by {
      if a.Some? && b.Some? {
        assert Keys(r2) == [ka, kb];
      }
    }
    r2
  }

  /** The dictionary that maps each of the distinct keys `ks`, in order, to
      `g` of it: what a loop of assignments over `ks` builds. */
  function Tabulate<V>(ks: seq<string>, g: string -> V): (r: Dict<V>)
    ensures Keys(r) == ks
  {
    seq(|ks|, i requires 0 <= i < |ks| => (ks[i], g(ks[i])))
  }

  lemma {:induction false} TabulateGet<V>(ks: seq<string>, g: string -> V, k: string)
    requires NoDuplicates(ks)
    ensures WellFormed(Tabulate(ks, g))
    ensures Get(Tabulate(ks, g), k) == if k in ks then Some(g(k)) else None
    decreases |ks|
  {
    var t := Tabulate(ks, g);
    if |ks| > 0 {
      assert t == [(ks[0], g(ks[0]))] + Tabulate(ks[1..], g);
      GetCons((ks[0], g(ks[0])), Tabulate(ks[1..], g), k);
      TabulateGet(ks[1..], g, k);
      assert ks == [ks[0]] + ks[1..];
    }
  }

  /** The value at `k`, or the empty list when it is absent. */
  function GetList<T>(d: Dict<seq<T>>, k: string): (r: seq<T>)
    ensures Get(d, k).Some? ==> r == Get(d, k).value
    ensures Get(d, k).None? ==> r == []
  {
    match Get(d, k)
    case Some(xs) => xs
    case None => []
  }
}

=== FILE: domain_parsers.dfy ===
/** The per-domain parsers that override the base parser: the ASCSA
    parser's title override and extra skipped URL, and the OI parser's
    choice of the primary anchor. */
module DomainParsers {
  import opened Results
  import opened Strings
  import opened Titles
  import opened Domains

  // ---------------------------------------------------------------------
  // www.ascsa.edu.gr

  const AscsaAnchorTitle: string := "newsletter's home page here"
  const AscsaPostTitle: string := "\U{E1}koue News"
  const AscsaSkipUrl: string := "http://www.ascsa.edu.gr/index.php/news/newsDetails/school-newsletter-now-online"

  /** The ASCSA `_reconcile_titles` as written: the newsletter's post keeps
      its own title; every other pair goes to the base method as written,
      which answers a lone anchor title with the function `check_colon`. */
  function AscsaReconcileAsWritten(table: PrefixTable, anchor: Option<string>, article: Option<string>): (r: Option<seq<TitleItem>>)
    ensures anchor == Some(AscsaAnchorTitle) && article == Some(AscsaPostTitle) ==> r == Some([TitleText(AscsaPostTitle)])
    ensures !(anchor == Some(AscsaAnchorTitle) && article == Some(AscsaPostTitle)) ==> r == ReconcileAsWritten(table, anchor, article)
  {
    if anchor == Some(AscsaAnchorTitle) && article == Some(AscsaPostTitle) then Some([TitleText(article.value)])
    else ReconcileAsWritten(table, anchor, article)
  }

  /** As written, a post with only an anchor title gets `check_colon`
      itself as its title here too; the corrected override cleans the
      anchor title instead. */
  lemma AscsaMissingArticle(table: PrefixTable, anchor: string)
    ensures AscsaReconcileAsWritten(table, Some(anchor), None) == Some([CheckColonFunction])
    ensures AscsaReconcile(table, Some(anchor), None) == Some([CheckColon(table, anchor)])
  {
  }

  /** Wherever the post has a title, the written and corrected overrides
      agree. */
  lemma AscsaAgrees(table: PrefixTable, anchor: Option<string>, article: Option<string>)
    requires article.Some?
    ensures AscsaReconcileAsWritten(table, anchor, article) == Some(AsItems(AscsaReconcile(table, anchor, article).value))
  {
    if anchor == Some(AscsaAnchorTitle) && article == Some(AscsaPostTitle) {
      assert AsItems([AscsaPostTitle]) == [TitleText(AscsaPostTitle)];
    } else {
      ReconcileAgrees(table, anchor, article);
    }
  }

  /** The ASCSA `_reconcile_titles` with the base method corrected: the
      newsletter's post keeps its own title; every other pair goes to the
      corrected base rules. */
  function AscsaReconcile(table: PrefixTable, anchor: Option<string>, article: Option<string>): (r: Option<seq<string>>)
    ensures anchor == Some(AscsaAnchorTitle) && article == Some(AscsaPostTitle) ==> r == Some([AscsaPostTitle])
    ensures !(anchor == Some(AscsaAnchorTitle) && article == Some(AscsaPostTitle)) ==> r == ReconcileTitles(table, anchor, article)
  {
    if anchor == Some(AscsaAnchorTitle) && article == Some(AscsaPostTitle) then Some([article.value])
    else ReconcileTitles(table, anchor, article)
  }

  /** The override matters: for that pair the base rules would answer
      with the anchor text, alone or after another title, never with the
      post title alone. */
  lemma AscsaOverrides(table: PrefixTable)
    ensures AscsaReconcile(table, Some(AscsaAnchorTitle), Some(AscsaPostTitle)) !=
              ReconcileTitles(table, Some(AscsaAnchorTitle), Some(AscsaPostTitle))
  {
    var base := ReconcileBoth(table, AscsaAnchorTitle, AscsaPostTitle);
    if |base| == 1 {
      assert |Lower(base[0])| != |Lower(AscsaPostTitle)|;
    }
  }

  /** The ASCSA `reset`: the base reset, then one more skipped URL. */
  function AscsaReset(soup: Option<seq<Anchor>>): (p: ParserState)
    ensures p.skipUrls == Reset(soup).skipUrls + [AscsaSkipUrl]
    ensures p.(skipUrls := Reset(soup).skipUrls) == Reset(soup)
  {
    var base := Reset(soup);
    base.(skipUrls := base.skipUrls + [AscsaSkipUrl])
  }

  /** The ASCSA parser considers exactly the anchors the base parser
      considers, except a link to the newsletter notice. */
  lemma AscsaConsiders(soup: Option<seq<Anchor>>, a: Anchor)
    ensures ConsiderAnchor(AscsaReset(soup), a) <==> ConsiderAnchor(Reset(soup), a) && a.href != Some(AscsaSkipUrl)
  {
  }

  /** The domains are computed before the URL lists are consulted, so the
      ASCSA parser lists the same domains as the base one. */
  lemma AscsaSameDomains(soup: seq<Anchor>)
    ensures ComputeDomains(AscsaReset(Some(soup)), soup) == ComputeDomains(Reset(Some(soup)), soup)
  {
  }

  // ---------------------------------------------------------------------
  // oi.uchicago.edu

  const NeverPrimaryDomains: seq<string> := ["www.oxbowbooks.com"]
  const OiSkipUrls: seq<string> := ["http://oi.uchicago.edu/news/"]

  /** An anchor the OI parser may take as the primary one. */
  predicate OiEligible(url: string) {
    DomainFromUrl(url) !in NeverPrimaryDomains && url !in OiSkipUrls
  }

  /** The loop of the OI `_get_primary_anchor` from position `i` on: it
      stops at the first eligible anchor, and when none is left the loop
      variable still holds the last anchor. An anchor without a link makes
      `domain_from_url` fail with `AttributeError`. */
  function OiScan(anchors: seq<Anchor>, i: nat): (r: Result<nat>)
    requires i < |anchors|
    ensures r.Ok? ==> i <= r.value < |anchors| && anchors[r.value].href.Some?
    ensures r.Ok? ==> forall j :: i <= j < r.value ==> anchors[j].href.Some? && !OiEligible(anchors[j].href.value)
    ensures r.Ok? ==> OiEligible(anchors[r.value].href.value) || r.value == |anchors| - 1
    ensures r.Err? ==> r.error == AttributeError
    decreases |anchors| - i
  {
    match anchors[i].href
    case None => Err(AttributeError)
    case Some(url) =>
      if OiEligible(url) || i == |anchors| - 1 then Ok(i)
      else OiScan(anchors, i + 1)
  }

  /** The OI `_get_primary_anchor` over the anchors of the post. With no
      anchor the loop variable is never bound (`UnboundLocalError`, a
      `NameError`). */
  function OiPrimaryAnchor(anchors: seq<Anchor>): (r: Result<Anchor>)
    ensures |anchors| == 0 <==> r == Err(NameError)
    ensures r.Ok? ==> r.value in anchors
  {
    if |anchors| == 0 then Err(NameError)
    else
      var k :- OiScan(anchors, 0);
      Ok(anchors[k])
  }

  /** The first eligible anchor, as a reference definition. */
  function FirstEligible(anchors: seq<Anchor>): (r: Option<nat>)
    requires forall a :: a in anchors ==> a.href.Some?
    ensures r.Some? ==> r.value < |anchors| && OiEligible(anchors[r.value].href.value)
    ensures r.Some? ==> forall j :: 0 <= j < r.value ==> !OiEligible(anchors[j].href.value)
    ensures r.None? ==> forall j :: 0 <= j < |anchors| ==> !OiEligible(anchors[j].href.value)
  {
    if |anchors| == 0 then None
    else if OiEligible(anchors[0].href.value) then Some(0)
    else
      var rest := FirstEligible(anchors[1..]);
      if rest.Some? then Some(rest.value + 1) else None
  }

  /** On anchors that all carry links, as the base parser's filtered
      anchors do, the OI parser takes the first eligible anchor, or the
      last anchor when none is eligible. */
  lemma {:induction false} OiPrimaryChoice(anchors: seq<Anchor>)
    requires |anchors| > 0 && forall a :: a in anchors ==> a.href.Some?
    ensures OiPrimaryAnchor(anchors) ==
              Ok(if FirstEligible(anchors).Some? then anchors[FirstEligible(anchors).value] else anchors[|anchors| - 1])
  {
    var r := OiScan(anchors, 0);
    if r.Err? {
      OiScanOk(anchors, 0);
      assert false;
    }
  }

  lemma {:induction false} OiScanOk(anchors: seq<Anchor>, i: nat)
    requires i < |anchors| && forall a :: a in anchors ==> a.href.Some?
    ensures OiScan(anchors, i).Ok?
    decreases |anchors| - i
  {
    assert anchors[i] in anchors;
    if !OiEligible(anchors[i].href.value) && i != |anchors| - 1 {
      OiScanOk(anchors, i + 1);
    }
  }

  /** Anchors the base parser keeps all carry links, so on them the OI
      parser fails only when there are none. */
  lemma OiFilteredAnchors(p: ParserState, raw: seq<Anchor>)
    ensures OiPrimaryAnchor(FilterAnchors(p, raw)).Err? <==> |FilterAnchors(p, raw)| == 0
  {
    var anchors := FilterAnchors(p, raw);
    if |anchors| > 0 {
      forall a | a in anchors ensures a.href.Some? {
        assert ConsiderAnchor(p, a);
      }
      OiScanOk(anchors, 0);
    }
  }
}

=== FILE: domains.dfy ===
/** The domains an AWOL post links to: `domain_from_url`, the parser state
    that `reset` builds (skip lists, cached anchors and domains), anchor
    filtering, and `get_domains`.

    The parsed HTML is abstracted to what these functions read from it: the
    `href` of every anchor (absent for an anchor without one) and, for anchor
    filtering, the anchor's text. */
module Domains {
  import opened Results
  import opened Strings

  // ---------------------------------------------------------------------
  // domain_from_url

  /** `url.replace('http://', '').replace('https://', '')`. */
  function StripSchemes(url: string): string {
    Replace(Replace(url, "http://", ""), "https://", "")
  }

  /** `domain_from_url(url)`: the text before the first '/' once every
      `http://` and `https://` has been deleted. */
  function DomainFromUrl(url: string): (r: string)
    ensures '/' !in r
    ensures StartsWith(StripSchemes(url), r)
    ensures |r| == |StripSchemes(url)| || StripSchemes(url)[|r|] == '/'
  {
    SplitHead(StripSchemes(url), '/');
    Split(StripSchemes(url), '/')[0]
  }

  /** The first piece of a split is the text up to the first separator. */
  lemma {:induction false} SplitHead(s: string, c: char)
    ensures StartsWith(s, Split(s, c)[0])
    ensures |Split(s, c)[0]| == |s| || s[|Split(s, c)[0]|] == c
    decreases |s|
  {
    if |s| > 0 && s[0] != c {
      SplitHead(s[1..], c);
    }
  }

  /** A piece free of the separator, followed by the separator or nothing,
      is the first piece of the split. */
  lemma {:induction false} SplitHeadOf(h: string, t: string, c: char)
    requires c !in h && (t == "" || t[0] == c)
    ensures Split(h + t, c)[0] == h
    decreases |h|
  {
    if |h| == 0 {
      assert h + t == t;
    } else {
      assert (h + t)[1..] == h[1..] + t;
      SplitHeadOf(h[1..], t, c);
    }
  }

  /** `replace` copies a prefix in which no occurrence of the pattern starts. */
  lemma {:induction false} ReplaceSkip(h: string, t: string, pat: string, rep: string)
    requires |pat| > 0
    requires forall i :: 0 <= i < |h| ==> !StartsWith((h + t)[i..], pat)
    ensures Replace(h + t, pat, rep) == h + Replace(t, pat, rep)
    decreases |h|
  {
    if |h| == 0 {
      assert h + t == t;
    } else {
      var s := h + t;
      assert s[0..] == s;
      assert s[1..] == h[1..] + t;
      forall i | 0 <= i < |h| - 1
        ensures !StartsWith((h[1..] + t)[i..], pat)
      {
        assert (h[1..] + t)[i..] == s[i + 1..];
      }
      ReplaceSkip(h[1..], t, pat, rep);
    }
  }

  /** `replace` substitutes an occurrence at the very start. */
  lemma ReplaceFront(t: string, pat: string, rep: string)
    requires |pat| > 0
    ensures Replace(pat + t, pat, rep) == rep + Replace(t, pat, rep)
  {
    assert StartsWith(pat + t, pat);
    assert (pat + t)[|pat|..] == t;
  }

  /** Text that starts with '/' still does after a scheme is deleted. */
  lemma ReplaceKeepsSlash(t: string, pat: string)
    requires |pat| > 0 && pat[0] != '/' && |t| > 0 && t[0] == '/'
    ensures |Replace(t, pat, "")| > 0 && Replace(t, pat, "")[0] == '/'
  {
  }

  /** A host without ':' or '/', followed by nothing or a path, holds no
      occurrence of a scheme: each scheme has a ':' preceded only by
      letters. */
  lemma NoSchemeInHost(h: string, t: string, pat: string)
    requires pat == "http://" || pat == "https://"
    requires ':' !in h && '/' !in h && (t == "" || t[0] == '/')
    ensures forall i :: 0 <= i < |h| ==> !StartsWith((h + t)[i..], pat)
  {
    var k := |pat| - 3;
    assert pat[k] == ':' && forall j :: 0 <= j < k ==> pat[j] != '/';
    forall i | 0 <= i < |h|
      ensures !StartsWith((h + t)[i..], pat)
    {
      var s := (h + t)[i..];
      if i + k < |h| {
        assert s[k] == h[i + k];
      } else if t != "" {
        assert s[|h| - i] == t[0];
      }
    }
  }

  /** "https://" holds no occurrence of "http://" except as a prefix of
      itself, and that one differs at the fifth character. */
  lemma NoHttpInHttps(rest: string)
    ensures forall i :: 0 <= i < 8 ==> !StartsWith(("https://" + rest)[i..], "http://")
  {
    var s := "https://" + rest;
    forall i | 0 <= i < 8
      ensures !StartsWith(s[i..], "http://")
    {
      assert s[i..][0] == s[i];
      if i == 0 {
        assert s[i..][4] == 's';
      }
    }
  }

  /** A path keeps its leading '/' when a scheme is deleted from it. */
  lemma PathAfterReplace(tail: string, pat: string)
    requires pat == "http://" || pat == "https://"
    requires tail == "" || tail[0] == '/'
    ensures var t := Replace(tail, pat, ""); t == "" || t[0] == '/'
  {
    if tail != "" {
      ReplaceKeepsSlash(tail, pat);
    }
  }

  /** Deleting a scheme from `host + path` touches only the path. */
  lemma ReplaceInPath(host: string, tail: string, pat: string)
    requires pat == "http://" || pat == "https://"
    requires ':' !in host && '/' !in host
    requires tail == "" || tail[0] == '/'
    ensures Replace(host + tail, pat, "") == host + Replace(tail, pat, "")
  {
    NoSchemeInHost(host, tail, pat);
    ReplaceSkip(host, tail, pat, "");
  }

  /** The first deletion removes a leading "http://" and leaves a leading
      "https://" in place. */
  lemma FirstDeletion(scheme: string, rest: string)
    requires scheme == "http://" || scheme == "https://"
    ensures Replace(scheme + rest, "http://", "") ==
              (if scheme == "http://" then "" else "https://") + Replace(rest, "http://", "")
  {
    if scheme == "http://" {
      ReplaceFront(rest, "http://", "");
    } else {
      NoHttpInHttps(rest);
      ReplaceSkip("https://", rest, "http://", "");
    }
  }

  /** The domain of `scheme://host/path` is the host, for a host without a
      port. */
  lemma DomainOfUrl(scheme: string, host: string, tail: string)
    requires scheme == "http://" || scheme == "https://"
    requires ':' !in host && '/' !in host
    requires tail == "" || tail[0] == '/'
    ensures DomainFromUrl(scheme + host + tail) == host
  {
    var t1 := Replace(tail, "http://", "");
    var t2 := Replace(t1, "https://", "");
    PathAfterReplace(tail, "http://");
    PathAfterReplace(t1, "https://");
    assert scheme + host + tail == scheme + (host + tail);
    FirstDeletion(scheme, host + tail);
    ReplaceInPath(host, tail, "http://");
    var lead := if scheme == "http://" then "" else "https://";
    assert Replace(scheme + host + tail, "http://", "") == lead + (host + t1);
    if scheme == "https://" {
      ReplaceFront(host + t1, "https://", "");
    } else {
      assert lead + (host + t1) == host + t1;
    }
    ReplaceInPath(host, t1, "https://");
    assert StripSchemes(scheme + host + tail) == host + t2;
    SplitHeadOf(host, t2, '/');
  }

  /** The example of the test suite. */
  lemma DomainExample()
    ensures DomainFromUrl("http://isaw.nyu.edu/news/") == "isaw.nyu.edu"
  {
    DomainOfUrl("http://", "isaw.nyu.edu", "/news/");
    assert "http://" + "isaw.nyu.edu" + "/news/" == "http://isaw.nyu.edu/news/";
  }

  // ---------------------------------------------------------------------
  // Parser state: reset() and the skip lists

  const DomainsIgnore: seq<string> :=
    ["draft.blogger.com", "bobcat.library.nyu.edu", "www.addthis.com", "cientworldonline.blogspot.com"]
  const DomainsSelf: seq<string> := ["ancientworldonline.blogspot.com"]
  /** The keys of `BIBLIO_SOURCES`. */
  const DomainsBibliographic: seq<string> := ["zenon.dainst.org"]
  const AnchorTextIgnore: seq<string> := ["contact us"]
  const AnchorUrlsIgnore: seq<string> := []

  /** An anchor of the post: its `href`, if any, and its text. */
  datatype Anchor = Anchor(href: Option<string>, text: string)

  /** `self.content`: the soup (absent when `reset` was given none) and the
      cached domain list. */
  datatype Content = Content(soup: Option<seq<Anchor>>, domains: Option<seq<string>>)

  datatype ParserState = ParserState(
    content: Content,
    skipDomains: seq<string>,
    bibliographicDomains: seq<string>,
    skipText: seq<string>,
    skipUrls: seq<string>)

  /** `AwolBaseParser.reset(content_soup)`. */
  function Reset(soup: Option<seq<Anchor>>): (p: ParserState)
    ensures p.content == Content(soup, None)
    ensures forall d :: d in p.skipDomains <==> d in DomainsIgnore || d in DomainsSelf
    ensures p.bibliographicDomains == DomainsBibliographic
    ensures p.skipText == AnchorTextIgnore && p.skipUrls == AnchorUrlsIgnore
  {
    ParserState(Content(soup, None), DomainsIgnore + DomainsSelf, DomainsBibliographic,
                AnchorTextIgnore, AnchorUrlsIgnore)
  }

  /** `_consider_anchor(a)`: an anchor with a link and some text whose
      domain, URL and text are on none of the skip lists. */
  predicate ConsiderAnchor(p: ParserState, a: Anchor) {
    match a.href
    case None => false
    case Some(url) =>
      |a.text| > 0 &&
      !(DomainFromUrl(url) in p.skipDomains || url in p.skipUrls || a.text in p.skipText)
  }

  /** `_filter_anchors(anchors)`. */
  function FilterAnchors(p: ParserState, anchors: seq<Anchor>): (r: seq<Anchor>)
    ensures forall a :: a in r <==> a in anchors && ConsiderAnchor(p, a)
  {
    Filter(anchors, a => ConsiderAnchor(p, a))
  }

  // ---------------------------------------------------------------------
  // get_domains

  /** The hrefs of the anchors that have one. */
  function Hrefs(anchors: seq<Anchor>): (r: seq<string>)
    ensures forall u :: u in r <==> exists a :: a in anchors && a.href == Some(u)
    decreases |anchors|
  {
    if |anchors| == 0 then []
    else
      var rest := Hrefs(anchors[1..]);
      assert forall a :: a in anchors <==> a == anchors[0] || a in anchors[1..];
      match anchors[0].href
      case Some(u) => [u] + rest
      case None => rest
  }

  /** `domain_from_url` applied to every URL. */
  function DomainsOf(urls: seq<string>): (r: seq<string>)
    ensures |r| == |urls|
    ensures forall i :: 0 <= i < |urls| ==> r[i] == DomainFromUrl(urls[i])
  {
    seq(|urls|, i requires 0 <= i < |urls| => DomainFromUrl(urls[i]))
  }

  /** The domains that survive the skip list, before the bibliographic
      filter. */
  function UnskippedDomains(p: ParserState, anchors: seq<Anchor>): (r: seq<string>)
    ensures NoDuplicates(r)
    ensures forall d :: d in r <==>
              d !in p.skipDomains && exists a :: a in anchors && a.href.Some? && DomainFromUrl(a.href.value) == d
  {
    var urls := Dedup(Hrefs(anchors));
    var domains := Dedup(DomainsOf(urls));
    FilterDistinct(domains, d => d !in p.skipDomains);
    forall d ensures d in domains <==> exists a :: a in anchors && a.href.Some? && DomainFromUrl(a.href.value) == d {
      if d in domains {
        var i :| 0 <= i < |urls| && DomainsOf(urls)[i] == d;
        assert urls[i] in Hrefs(anchors);
      }
      if a :| a in anchors && a.href.Some? && DomainFromUrl(a.href.value) == d {
        assert a.href.value in urls;
        var i :| 0 <= i < |urls| && urls[i] == a.href.value;
        assert DomainsOf(urls)[i] == d;
      }
    }
    Filter(domains, d => d !in p.skipDomains)
  }

  /** The domain list `get_domains` computes: bibliographic domains are
      dropped only when more than one domain remains. */
  function ComputeDomains(p: ParserState, anchors: seq<Anchor>): (r: seq<string>)
    ensures NoDuplicates(r)
  {
    var kept := UnskippedDomains(p, anchors);
    FilterDistinct(kept, d => d !in p.bibliographicDomains);
    if |kept| > 1 then Filter(kept, d => d !in p.bibliographicDomains) else kept
  }

  /** A domain is listed exactly when some anchor links to it, it is not
      skipped, and it is not bibliographic unless it is the only one. */
  lemma ComputeDomainsMembers(p: ParserState, anchors: seq<Anchor>, d: string)
    ensures d in ComputeDomains(p, anchors) <==>
              && d in UnskippedDomains(p, anchors)
              && (d !in p.bibliographicDomains || |UnskippedDomains(p, anchors)| <= 1)
  {
  }

  /** A bibliographic domain survives only as the sole domain. */
  lemma BibliographicAlone(p: ParserState, anchors: seq<Anchor>, d: string)
    requires d in ComputeDomains(p, anchors) && d in p.bibliographicDomains
    ensures ComputeDomains(p, anchors) == [d]
  {
    var kept := UnskippedDomains(p, anchors);
    assert |kept| <= 1;
    assert kept == [kept[0]];
  }

  /** `get_domains(content_soup)`: resets when given a soup, computes the
      domains on the first call and caches them. Reading the soup of a
      parser reset without one raises `KeyError`. */
  function GetDomains(p: ParserState, soupArg: Option<seq<Anchor>>): (r: Result<(ParserState, seq<string>)>)
    ensures r.Ok? ==> r.value.0.content.domains == Some(r.value.1)
    ensures soupArg.None? && p.content.domains.Some? ==> r == Ok((p, p.content.domains.value))
    ensures r.Err? <==> soupArg.None? && p.content.domains.None? && p.content.soup.None?
    ensures r.Err? ==> r.error == KeyError
  {
    var q := if soupArg.Some? then Reset(soupArg) else p;
    match q.content.domains
    case Some(ds) => Ok((q, ds))
    case None =>
      match q.content.soup
      case None => Err(KeyError)
      case Some(anchors) =>
        var ds := ComputeDomains(q, anchors);
        Ok((q.(content := q.content.(domains := Some(ds))), ds))
  }

  /** Asking again returns the cached list and leaves the state alone. */
  lemma GetDomainsCached(p: ParserState, soupArg: Option<seq<Anchor>>)
    requires GetDomains(p, soupArg).Ok?
    ensures var (q, ds) := GetDomains(p, soupArg).value;
            GetDomains(q, None) == Ok((q, ds))
  {
  }

  /** On a freshly reset parser, `get_domains` lists the linked domains
      outside the skip lists. */
  lemma GetDomainsFresh(anchors: seq<Anchor>, d: string)
    ensures GetDomains(Reset(None), Some(anchors)).Ok?
    ensures d in GetDomains(Reset(None), Some(anchors)).value.1 ==>
              && d !in DomainsIgnore && d !in DomainsSelf
              && exists a :: a in anchors && a.href.Some? && DomainFromUrl(a.href.value) == d
  {
    ComputeDomainsMembers(Reset(Some(anchors)), anchors, d);
  }
}

=== FILE: get_resources.dfy ===
/** `_get_resources(article)`: the resources one blog post yields. The
    primary resource, its subordinate resources and its related resources
    come from the page's markup, so they are inputs here; what is modelled
    is the gate on the post title, the parent package with its identifier,
    and how the subordinate and related resources are linked to the
    primary one. */
module PostResources {
  import opened Results
  import opened Dicts
  import opened Titles
  import opened Resources

  /** `primary_resource.identifiers`. */
  function IdsOf(r: Resource): Dict<IdFamily> {
    if Attr(r, Identifiers).Ids? then Attr(r, Identifiers).ids else []
  }

  /** `ids[family][kind][0]`: `Ok(None)` when a lookup raises the
      `KeyError` the handlers catch; an uncaught error otherwise. Indexing
      a flat list with a kind name raises `TypeError`, indexing an empty
      list raises `IndexError`. */
  function FirstOfKind(ids: Dict<IdFamily>, family: string, kind: string): (r: Result<Option<string>>)
    ensures r.Ok? && r.value.Some? ==>
              exists d :: Get(ids, family) == Some(Variants(d)) && Get(d, kind).Some? &&
                |Get(d, kind).value| > 0 && r.value.value == Get(d, kind).value[0]
    ensures r == Ok(None) <==>
              Get(ids, family).None? || (Get(ids, family).value.Variants? && Get(Get(ids, family).value.variants, kind).None?)
    ensures r.Err? ==> r.error in {TypeError, IndexError}
  {
    var fam: Option<IdFamily> := Get(ids, family);
    match fam
    case None => Ok(None)
    case Some(Flat(_)) => Err(TypeError)
    case Some(Variants(d)) =>
      match Get(d, kind)
      case None => Ok(None)
      case Some(vs) => if |vs| == 0 then Err(IndexError) else Ok(Some(vs[0]))
  }

  /** `ids['isbn'][0]` as written: a flat list yields its first value, but
      a dictionary of kinds, the shape `_parse_identifiers` builds, has no
      key `0`, so the `KeyError` is swallowed. */
  function IsbnAsWritten(ids: Dict<IdFamily>): (r: Result<Option<string>>)
    ensures r.Ok? && r.value.Some? ==> exists vs :: Get(ids, "isbn") == Some(Flat(vs)) && |vs| > 0 && r.value.value == vs[0]
    ensures r.Err? <==> Get(ids, "isbn") == Some(Flat([]))
  {
    var fam: Option<IdFamily> := Get(ids, "isbn");
    match fam
    case Some(Flat(vs)) => if |vs| == 0 then Err(IndexError) else Ok(Some(vs[0]))
    case _ => Ok(None)
  }

  /** The key and value the parent package gets, through the three nested
      `try` blocks; `isbn` is the lookup used for the last one. */
  function ParentIdWith(ids: Dict<IdFamily>, isbn: Dict<IdFamily> -> Result<Option<string>>): Result<Option<(string, string)>> {
    if |ids| == 0 then Ok(None)
    else
      var e :- FirstOfKind(ids, "issn", "electronic");
      if e.Some? then Ok(Some(("issn", e.value)))
      else
        var g :- FirstOfKind(ids, "issn", "generic");
        if g.Some? then Ok(Some(("issn", g.value)))
        else
          var b :- isbn(ids);
          if b.Some? then Ok(Some(("isbn", b.value))) else Ok(None)
  }

  function ParentIdAsWritten(ids: Dict<IdFamily>): (r: Result<Option<(string, string)>>)
    ensures r.Ok? && r.value.Some? && r.value.value.0 == "isbn" ==> Get(ids, "isbn").Some? && Get(ids, "isbn").value.Flat?
  {
    ParentIdWith(ids, IsbnAsWritten)
  }

  /** The ISBN lookup the fallback evidently means: the first electronic
      ISBN, else the first generic one, as for ISSNs. */
  function FirstIsbn(ids: Dict<IdFamily>): (r: Result<Option<string>>)
    ensures r.Ok? && r.value.Some? ==>
              exists d, kind :: Get(ids, "isbn") == Some(Variants(d)) && kind in ["electronic", "generic"] &&
                Get(d, kind).Some? && |Get(d, kind).value| > 0 && r.value.value == Get(d, kind).value[0]
  {
    var e :- FirstOfKind(ids, "isbn", "electronic");
    if e.Some? then Ok(e) else FirstOfKind(ids, "isbn", "generic")
  }

  function ParentId(ids: Dict<IdFamily>): (r: Result<Option<(string, string)>>)
    ensures r.Ok? && r.value.Some? ==> r.value.value.0 in ["issn", "isbn"]
  {
    ParentIdWith(ids, FirstIsbn)
  }

  /** Identifiers shaped as `_parse_identifiers` leaves them: every family
      a dictionary of kinds, every list of values non-empty. */
  predicate Shaped(ids: Dict<IdFamily>) {
    forall p :: p in ids ==> p.1.Variants? && forall q :: q in p.1.variants ==> |q.1| > 0
  }

  lemma ShapedGet(ids: Dict<IdFamily>, family: string, kind: string)
    requires Shaped(ids)
    ensures Get(ids, family).Some? ==> Get(ids, family).value.Variants?
    ensures Get(ids, family).Some? && Get(Get(ids, family).value.variants, kind).Some? ==>
              |Get(Get(ids, family).value.variants, kind).value| > 0
  {
    if Get(ids, family).Some? {
      assert (family, Get(ids, family).value) in ids;
    }
  }

  /** The first electronic value of `family`, else its first generic one. */
  function Preferred(ids: Dict<IdFamily>, family: string): Option<string>
    requires Shaped(ids)
  {
    ShapedGet(ids, family, "electronic");
    ShapedGet(ids, family, "generic");
    var fam: Option<IdFamily> := Get(ids, family);
    match fam
    case Some(Variants(d)) =>
      if Get(d, "electronic").Some? then Some(Get(d, "electronic").value[0])
      else if Get(d, "generic").Some? then Some(Get(d, "generic").value[0])
      else None
    case _ => None
  }

  /** On well-shaped identifiers the lookup never fails: the parent gets
      the preferred ISSN when there is one, else the preferred ISBN. */
  lemma ParentIdShaped(ids: Dict<IdFamily>)
    requires Shaped(ids)
    ensures ParentId(ids) == Ok(
              if Preferred(ids, "issn").Some? then Some(("issn", Preferred(ids, "issn").value))
              else if Preferred(ids, "isbn").Some? then Some(("isbn", Preferred(ids, "isbn").value))
              else None)
  {
    ShapedGet(ids, "issn", "electronic");
    ShapedGet(ids, "issn", "generic");
    ShapedGet(ids, "isbn", "electronic");
    ShapedGet(ids, "isbn", "generic");
    if |ids| == 0 {
      assert Get(ids, "issn").None? && Get(ids, "isbn").None?;
    }
  }

  /** As written, well-shaped identifiers never give the parent an
      ISBN. */
  lemma ParentIsbnLost(ids: Dict<IdFamily>)
    requires Shaped(ids)
    ensures ParentIdAsWritten(ids).Ok? ==> ParentIdAsWritten(ids).value.None? || ParentIdAsWritten(ids).value.value.0 == "issn"
  {
    ShapedGet(ids, "isbn", "generic");
  }

  /** Identifiers holding only a generic ISBN `x`. */
  function IsbnOnly(x: string): (ids: Dict<IdFamily>)
    ensures Shaped(ids)
    ensures Get(ids, "issn").None? && Get(ids, "isbn") == Some(Variants([("generic", [x])]))
  {
    [("isbn", Variants([("generic", [x])]))]
  }

  /** With `{'isbn': {'generic': [x]}}` the parent gets nothing as
      written ... */
  lemma IsbnOnlyAsWritten(x: string)
    ensures ParentIdAsWritten(IsbnOnly(x)) == Ok(None)
  {
  }

  /** ... while the intended lookup gives it `x`. */
  lemma IsbnOnlyFound(x: string)
    ensures ParentId(IsbnOnly(x)) == Ok(Some(("isbn", x)))
  {
    var d := [("generic", [x])];
    assert Get(d, "electronic").None? && Get(d, "generic") == Some([x]);
  }

  /** The parent package: the primary resource's package with the
      identifier, if any, stored under its family name. */
  function ParentPackage(reading: PackageReading, primary: Resource, id: Option<(string, string)>): Summary
    requires Valid(primary)
  {
    var p := PackageBy(reading, primary);
    if id.Some? then p[id.value.0 := Some(id.value.1)] else p
  }

  /** `sr.is_part_of = parent`. */
  function WithParent(sr: Resource, parent: Summary): (r: Resource)
    requires Valid(sr)
    ensures Valid(r)
    ensures r.attrs[IsPartOf] == Part(Some(parent))
    ensures forall f :: f != IsPartOf ==> r.attrs[f] == sr.attrs[f]
  {
    CompleteUpdate(sr.attrs, IsPartOf, Part(Some(parent)));
    Resource(sr.attrs[IsPartOf := Part(Some(parent))])
  }

  predicate AllValid(rs: seq<Resource>) {
    forall i :: 0 <= i < |rs| ==> Valid(rs[i])
  }

  function Packages(reading: PackageReading, rs: seq<Resource>): (ps: seq<Summary>)
    requires AllValid(rs)
    ensures |ps| == |rs| && forall i :: 0 <= i < |rs| ==> ps[i] == PackageBy(reading, rs[i])
  {
    seq(|rs|, i requires 0 <= i < |rs| && AllValid(rs) => PackageBy(reading, rs[i]))
  }

  /** A child list with more packages appended. */
  function AppendKids(r: Resource, f: Field, ps: seq<Summary>): (r': Resource)
    requires Valid(r) && PolicyOf(f) == ChildList
    ensures Valid(r')
    ensures KidsAt(r', f) == KidsAt(r, f) + ps
    ensures forall g :: g != f ==> r'.attrs[g] == r.attrs[g]
  {
    CompleteUpdate(r.attrs, f, Kids(KidsAt(r, f) + ps));
    Resource(r.attrs[f := Kids(KidsAt(r, f) + ps)])
  }

  /** The subordinate resources, each made part of `parent`. */
  function Adopt(subs: seq<Resource>, parent: Summary): (r: seq<Resource>)
    requires AllValid(subs)
    ensures |r| == |subs| && AllValid(r)
    ensures forall i :: 0 <= i < |subs| ==> r[i] == WithParent(subs[i], parent)
  {
    seq(|subs|, i requires 0 <= i < |subs| && AllValid(subs) => WithParent(subs[i], parent))
  }

  /** Where the parts of `[x] + s + t` lie. */
  lemma Laid<T>(x: T, s: seq<T>, t: seq<T>)
    ensures |[x] + s + t| == 1 + |s| + |t| && ([x] + s + t)[0] == x
    ensures forall i :: 0 <= i < |s| ==> ([x] + s + t)[1 + i] == s[i]
    ensures ([x] + s + t)[1 + |s|..] == t
  {
  }

  /** What the resources a post yields are, given the parent package and
      the reading of `package()`: the primary resource with the packages
      of its subordinates and related resources appended and nothing else
      changed, then the subordinates, each made part of the parent, then
      the related resources. */
  ghost predicate Linked(reading: PackageReading, primary: Resource, parent: Summary,
                         subs: seq<Resource>, rels: seq<Resource>, rs: seq<Resource>)
    requires Valid(primary) && AllValid(subs) && AllValid(rels)
  {
    && |rs| == 1 + |subs| + |rels|
    && AllValid(rs)
    && (forall i :: 0 <= i < |subs| ==> rs[1 + i] == WithParent(subs[i], parent))
    && rs[1 + |subs|..] == rels
    && KidsAt(rs[0], SubordinateResources) == KidsAt(primary, SubordinateResources) + Packages(reading, subs)
    && KidsAt(rs[0], RelatedResources) == KidsAt(primary, RelatedResources) + Packages(reading, rels)
    && (forall f :: f != SubordinateResources && f != RelatedResources ==> rs[0].attrs[f] == primary.attrs[f])
  }

  /** The primary resource with the packages of the adopted subordinates
      and of the related resources appended, then the adopted
      subordinates, then the related resources. */
  function Assemble(reading: PackageReading, primary: Resource, parent: Summary,
                    subs: seq<Resource>, rels: seq<Resource>): (rs: seq<Resource>)
    requires Valid(primary) && AllValid(subs) && AllValid(rels)
    ensures Linked(reading, primary, parent, subs, rels, rs)
  {
    var adopted := Adopt(subs, parent);
    AdoptedPackages(reading, subs, parent);
    var p1 := AppendKids(primary, SubordinateResources, Packages(reading, adopted));
    var p2 := AppendKids(p1, RelatedResources, Packages(reading, rels));
    var rs := [p2] + adopted + rels;
    Laid(p2, adopted, rels);
    rs
  }

  /** The resources as written: `package()` as written throughout, and no
      related resources, since appending one fails. */
  function AssembleAsWritten(primary: Resource, parent: Summary, subs: seq<Resource>): (rs: seq<Resource>)
    requires Valid(primary) && AllValid(subs)
    ensures Linked(WrittenPackage, primary, parent, subs, [], rs)
  {
    Assemble(WrittenPackage, primary, parent, subs, [])
  }

  /** `_get_resources` as written: `package()` as written, the ISBN lookup
      above, and the related resources loop
      `primary_resource.related_resources(append(...))`, which names a
      function `append` that does not exist. */
  function GetResourcesAsWritten(table: PrefixTable, title: string, primary: Resource,
                                 subs: seq<Resource>, rels: seq<Resource>): (r: Result<Option<seq<Resource>>>)
    requires Valid(primary) && AllValid(subs) && AllValid(rels)
    ensures r == Ok(None) <==> !AllowByTitle(table, title)
    ensures r.Err? <==> AllowByTitle(table, title) && (ParentIdAsWritten(IdsOf(primary)).Err? || |rels| > 0)
    ensures AllowByTitle(table, title) && ParentIdAsWritten(IdsOf(primary)).Ok? && |rels| > 0 ==> r == Err(NameError)
    ensures r.Ok? && r.value.Some? ==>
              && rels == []
              && Linked(WrittenPackage, primary,
                        ParentPackage(WrittenPackage, primary, ParentIdAsWritten(IdsOf(primary)).value),
                        subs, [], r.value.value)
  {
    if !AllowByTitle(table, title) then Ok(None)
    else
      var id :- ParentIdAsWritten(IdsOf(primary));
      var rs := AssembleAsWritten(primary, ParentPackage(WrittenPackage, primary, id), subs);
      if |rels| > 0 then Err(NameError) else Ok(Some(rs))
  }

  /** `_get_resources` as evidently intended: `package()` reads the
      extended title, the related resources' packages are appended to the
      primary's `related_resources`, and the parent's ISBN comes from the
      ISBN kinds. */
  function GetResources(table: PrefixTable, title: string, primary: Resource,
                        subs: seq<Resource>, rels: seq<Resource>): (r: Result<Option<seq<Resource>>>)
    requires Valid(primary) && AllValid(subs) && AllValid(rels)
    ensures r == Ok(None) <==> !AllowByTitle(table, title)
    ensures r.Err? <==> AllowByTitle(table, title) && ParentId(IdsOf(primary)).Err?
    ensures r.Ok? && r.value.Some? ==>
              Linked(IntendedPackage, primary,
                     ParentPackage(IntendedPackage, primary, ParentId(IdsOf(primary)).value),
                     subs, rels, r.value.value)
  {
    if !AllowByTitle(table, title) then Ok(None)
    else
      var id :- ParentId(IdsOf(primary));
      Ok(Some(Assemble(IntendedPackage, primary, ParentPackage(IntendedPackage, primary, id), subs, rels)))
  }

  /** A subordinate's package does not depend on its parent, so the
      packages appended to the primary resource are those of the
      subordinates as they were found. */
  lemma AdoptedPackages(reading: PackageReading, subs: seq<Resource>, parent: Summary)
    requires AllValid(subs)
    ensures Packages(reading, Adopt(subs, parent)) == Packages(reading, subs)
  {
    forall i | 0 <= i < |subs|
      ensures Packages(reading, Adopt(subs, parent))[i] == Packages(reading, subs)[i]
    {
      AdoptedPackage(reading, subs[i], parent);
    }
  }

  lemma AdoptedPackage(reading: PackageReading, sub: Resource, parent: Summary)
    requires Valid(sub)
    ensures PackageBy(reading, WithParent(sub, parent)) == PackageBy(reading, sub)
  {
    var r := WithParent(sub, parent);
    assert TextOf(r, Title) == TextOf(sub, Title);
    assert TextOf(r, TitleExtended) == TextOf(sub, TitleExtended);
    assert TextOf(r, Url) == TextOf(sub, Url);
    PackageSameTexts(r, sub);
  }

  /** A resource whose two `package()` readings coincide: no extended
      title, or one equal to the title. */
  predicate PlainTitle(r: Resource)
    requires Valid(r)
  {
    TextOf(r, TitleExtended).None? || TextOf(r, TitleExtended) == TextOf(r, Title)
  }

  lemma SamePackages(subs: seq<Resource>)
    requires AllValid(subs) && forall i :: 0 <= i < |subs| ==> PlainTitle(subs[i])
    ensures Packages(WrittenPackage, subs) == Packages(IntendedPackage, subs)
  {
    forall i | 0 <= i < |subs|
      ensures Packages(WrittenPackage, subs)[i] == Packages(IntendedPackage, subs)[i]
    {
      PackageAgreement(subs[i]);
    }
  }

  /** With no extended title that differs from the title, both readings
      assemble the same resources. */
  lemma AssembleAgrees(primary: Resource, parent: Summary, subs: seq<Resource>)
    requires Valid(primary) && AllValid(subs)
    requires forall i :: 0 <= i < |subs| ==> PlainTitle(subs[i])
    ensures AssembleAsWritten(primary, parent, subs) == Assemble(IntendedPackage, primary, parent, subs, [])
  {
    var adopted := Adopt(subs, parent);
    AdoptedPackages(WrittenPackage, subs, parent);
    AdoptedPackages(IntendedPackage, subs, parent);
    SamePackages(subs);
    assert Packages(WrittenPackage, adopted) == Packages(IntendedPackage, adopted);
  }

  /** Without related resources, without an ISBN family, and with no
      extended title that differs from the title, the written and intended
      versions agree. */
  lemma GetResourcesAgrees(table: PrefixTable, title: string, primary: Resource, subs: seq<Resource>)
    requires Valid(primary) && AllValid(subs)
    requires Get(IdsOf(primary), "isbn").None?
    requires PlainTitle(primary) && forall i :: 0 <= i < |subs| ==> PlainTitle(subs[i])
    ensures GetResourcesAsWritten(table, title, primary, subs, []) == GetResources(table, title, primary, subs, [])
  {
    var id := ParentIdAsWritten(IdsOf(primary));
    assert id == ParentId(IdsOf(primary));
    if AllowByTitle(table, title) && id.Ok? {
      PackageAgreement(primary);
      var parent := ParentPackage(IntendedPackage, primary, id.value);
      assert ParentPackage(WrittenPackage, primary, id.value) == parent;
      AssembleAgrees(primary, parent, subs);
    }
  }
}

=== FILE: identifiers.dfy ===
/** `_parse_identifiers`: the ISSN and ISBN strings of a post, by family
    (`issn`, `isbn`) and kind (`electronic`, `generic`).

    The regular expressions of `RX_IDENTIFIERS` are abstract: `scan(family,
    kind, text)` is the list of candidate strings their `findall` yields,
    and `extract(family, candidate)` is the identifier the `extract`
    patterns pull out of a candidate, or `None` where `extract` raises. */
module Identifiers {
  import opened Results
  import opened Strings
  import opened Dicts

  /** The values of one family by kind. */
  type Kinds = Dict<seq<string>>

  /** The values of every family found. */
  type Found = Dict<Kinds>

  type Scan = (string, string, string) -> seq<string>
  type Extract = (string, string) -> Option<string>

  const Families: seq<string> := ["issn", "isbn"]
  const KindNames: seq<string> := ["electronic", "generic"]

  /** `k in ' '.join(list(set(text.split())))`. */
  predicate Mentions(text: string, family: string) {
    Contains(Join(Dedup(Words(text)), " "), family)
  }

  /** The family is mentioned exactly when one word of the text holds its
      name, so the arbitrary order of the word set does not matter. */
  lemma MentionsWordwise(text: string, family: string)
    requires family in Families
    ensures Mentions(text, family) <==> exists w :: w in Words(text) && Contains(w, family)
  {
    var ws := Dedup(Words(text));
    JoinContains(ws, family);
    if exists w :: w in Words(text) && Contains(w, family) {
      var w :| w in Words(text) && Contains(w, family);
      var i :| 0 <= i < |ws| && ws[i] == w;
    }
  }

  /** `extract` applied to every candidate; the first failure raises. */
  function ExtractAll(family: string, candidates: seq<string>, extract: Extract): (r: Result<seq<string>>)
    ensures r.Err? <==> exists i :: 0 <= i < |candidates| && extract(family, candidates[i]).None?
    ensures r.Err? ==> r.error == Exception
    ensures r.Ok? ==> (|r.value| == |candidates| &&
              forall i :: 0 <= i < |candidates| ==> extract(family, candidates[i]) == Some(r.value[i]))
    decreases |candidates|
  {
    if |candidates| == 0 then Ok([])
    else
      match extract(family, candidates[0])
      case None => Err(Exception)
      case Some(v) =>
        var rest := ExtractAll(family, candidates[1..], extract);
        assert forall i :: 0 <= i < |candidates| - 1 ==> candidates[1..][i] == candidates[i + 1];
        if rest.Err? then
          Err(Exception)
        else
          Ok([v] + rest.value)
  }

  /** The values of one kind: `None` when no candidate is found, otherwise
      the distinct extracted identifiers. */
  function KindValues(family: string, kind: string, text: string, scan: Scan, extract: Extract): (r: Result<Option<seq<string>>>)
    ensures r.Ok? && r.value.Some? ==> |r.value.value| > 0 && NoDuplicates(r.value.value)
    ensures r == Ok(None) <==> |scan(family, kind, text)| == 0
    ensures r.Ok? && r.value.Some? ==> forall v :: v in r.value.value <==>
              exists c :: c in scan(family, kind, text) && extract(family, c) == Some(v)
  {
    var candidates := Dedup(scan(family, kind, text));
    if |candidates| == 0 then Ok(None)
    else
      var values :- ExtractAll(family, candidates, extract);
      assert forall v :: v in values <==> exists c :: c in scan(family, kind, text) && extract(family, c) == Some(v) by {
        forall v ensures v in values <==> exists c :: c in scan(family, kind, text) && extract(family, c) == Some(v) {
          if v in values {
            var i :| 0 <= i < |values| && values[i] == v;
            assert candidates[i] in scan(family, kind, text);
          }
          if exists c :: c in scan(family, kind, text) && extract(family, c) == Some(v) {
            var c :| c in scan(family, kind, text) && extract(family, c) == Some(v);
            var i :| 0 <= i < |candidates| && candidates[i] == c;
            assert values[i] == v;
          }
        }
      }
      Ok(Some(Dedup(values)))
  }

  /** `issn.replace(' ', '-').upper()`. */
  function RegularIssn(x: string): (r: string)
    ensures ' ' !in r
    ensures Upper(r) == r
    ensures |r| == |x|
    ensures forall i :: 0 <= i < |x| ==> r[i] == UpperChar(if x[i] == ' ' then '-' else x[i])
  {
    ReplaceOneChar(x, ' ', '-');
    var y := Replace(x, " ", "-");
    assert forall i :: 0 <= i < |y| ==> y[i] != ' ';
    var r := Upper(y);
    assert forall i :: 0 <= i < |r| ==> UpperChar(r[i]) == r[i];
    r
  }

  function RegularIssns(xs: seq<string>): (r: seq<string>)
    ensures |r| == |xs| && forall i :: 0 <= i < |xs| ==> r[i] == RegularIssn(xs[i])
  {
    seq(|xs|, i requires 0 <= i < |xs| => RegularIssn(xs[i]))
  }

  /** How generic values that are also electronic are removed. */
  type Prune = (seq<string>, seq<string>) -> seq<string>

  /** The removal loop as written: `generic.remove(ident)` inside
      `for ident in generic`. Python's list iterator walks by position, so
      after a removal the element that moved into the current position is
      never examined. */
  function RemoveWhileIterating(generic: seq<string>, electronic: seq<string>, i: nat): (r: seq<string>)
    ensures |r| <= |generic|
    ensures IsSubseq(r, generic)
    ensures forall x :: x !in electronic ==> multiset(r)[x] == multiset(generic)[x]
    decreases |generic| - i
  {
    if i >= |generic| then
      SubseqRefl(generic);
      generic
    else if generic[i] in electronic then
      var g := RemoveFirst(generic, generic[i]);
      RemoveFirstProps(generic, generic[i]);
      var r := RemoveWhileIterating(g, electronic, i + 1);
      SubseqTrans(r, g, generic);
      r
    else RemoveWhileIterating(generic, electronic, i + 1)
  }

  /** The removal as written: what it leaves is the generic list with some
      electronic values taken out, so every other generic value stays, as
      often as it was there. */
  function PruneAsWritten(generic: seq<string>, electronic: seq<string>): (r: seq<string>)
    ensures |r| <= |generic|
    ensures IsSubseq(r, generic)
    ensures forall x :: x in generic && x !in electronic ==> x in r
  {
    RemoveWhileIterating(generic, electronic, 0)
  }

  /** The removal the loop evidently means: every generic value that is
      also an electronic one goes. */
  function PruneGeneric(generic: seq<string>, electronic: seq<string>): (r: seq<string>)
    ensures forall x :: x in r <==> x in generic && x !in electronic
    ensures NoDuplicates(generic) ==> NoDuplicates(r)
  {
    assert NoDuplicates(generic) ==> NoDuplicates(Filter(generic, x => x !in electronic)) by {
      if NoDuplicates(generic) {
        FilterDistinct(generic, x => x !in electronic);
      }
    }
    Filter(generic, x => x !in electronic)
  }

  /** With the ISSN pair `e-ISSN A, B` / `ISSN A, B`, the loop removes `A`,
      steps past `B`, and leaves `B` as a generic ISSN although it is an
      electronic one. */
  lemma PruneAsWrittenSkips()
    ensures PruneAsWritten(["A", "B"], ["A", "B"]) == ["B"]
    ensures PruneGeneric(["A", "B"], ["A", "B"]) == []
  {
    assert RemoveFirst(["A", "B"], "A") == ["B"];
    assert RemoveWhileIterating(["B"], ["A", "B"], 1) == ["B"];
  }

  /** The presentation form of an ISSN: upper case, no spaces. */
  predicate IssnForm(x: string) {
    ' ' !in x && Upper(x) == x
  }

  /** The ISSN post-processing: regularise both kinds, then prune the
      generic values that are also electronic and drop an emptied generic
      entry. */
  function RegularizeIssns(kinds: Kinds, prune: Prune): (r: Kinds)
    requires WellFormed(kinds)
    ensures WellFormed(r)
    ensures Get(r, "electronic").Some? <==> Get(kinds, "electronic").Some?
    ensures Get(r, "generic").Some? ==> Get(kinds, "generic").Some?
    ensures forall kind :: kind != "electronic" && kind != "generic" ==> Get(r, kind) == Get(kinds, kind)
    ensures Get(kinds, "electronic").Some? ==> Get(r, "electronic") == Some(RegularIssns(Get(kinds, "electronic").value))
    ensures Get(kinds, "electronic").None? && Get(kinds, "generic").Some? ==>
              Get(r, "generic") == Some(RegularIssns(Get(kinds, "generic").value))
    ensures Get(kinds, "electronic").Some? && Get(kinds, "generic").Some? ==>
              var e := RegularIssns(Get(kinds, "electronic").value);
              var p := prune(RegularIssns(Get(kinds, "generic").value), e);
              Get(r, "generic") == if |p| == 0 then None else Some(p)
  {
    var e := Get(kinds, "electronic");
    var k1 := if e.Some? then Put(kinds, "electronic", RegularIssns(e.value)) else kinds;
    PutWellFormedIf(kinds, "electronic", if e.Some? then Some(RegularIssns(e.value)) else None);
    var g := Get(k1, "generic");
    var k2 := if g.Some? then Put(k1, "generic", RegularIssns(g.value)) else k1;
    PutWellFormedIf(k1, "generic", if g.Some? then Some(RegularIssns(g.value)) else None);
    var e2 := Get(k2, "electronic");
    var g2 := Get(k2, "generic");
    if e2.Some? && g2.Some? then
      var pruned := prune(g2.value, e2.value);
      if |pruned| == 0 then RemoveWellFormed(k2, "generic"); Remove(k2, "generic")
      else PutWellFormed(k2, "generic", pruned); Put(k2, "generic", pruned)
    else k2
  }

  lemma PutWellFormedIf<V>(d: Dict<V>, k: string, v: Option<V>)
    requires WellFormed(d)
    ensures v.Some? ==> WellFormed(Put(d, k, v.value))
  {
    if v.Some? {
      PutWellFormed(d, k, v.value);
    }
  }

  lemma RegularIssnsForm(xs: seq<string>, x: string)
    requires x in RegularIssns(xs)
    ensures IssnForm(x)
  {
    var i :| 0 <= i < |RegularIssns(xs)| && RegularIssns(xs)[i] == x;
  }

  /** Every ISSN of the entry in presentation form, no value both generic
      and electronic, and no empty generic list. */
  predicate IssnClean(r: Kinds) {
    && (forall x :: Get(r, "electronic").Some? && x in Get(r, "electronic").value ==> IssnForm(x))
    && (forall x :: Get(r, "generic").Some? && x in Get(r, "generic").value ==> IssnForm(x))
    && (Get(r, "generic").Some? ==> |Get(r, "generic").value| > 0)
    && (Get(r, "generic").Some? && Get(r, "electronic").Some? ==>
          forall x :: x in Get(r, "generic").value ==> x !in Get(r, "electronic").value)
  }

  /** With the intended pruning, every ISSN is in presentation form, no
      value is both generic and electronic, and a generic entry that is left
      is not empty. */
  lemma RegularizeIssnsClean(kinds: Kinds)
    requires WellFormed(kinds)
    requires Get(kinds, "generic").Some? ==> |Get(kinds, "generic").value| > 0
    ensures IssnClean(RegularizeIssns(kinds, PruneGeneric))
  {
    ElectronicClean(kinds);
    GenericClean(kinds);
  }

  lemma ElectronicClean(kinds: Kinds)
    requires WellFormed(kinds)
    ensures var r := RegularizeIssns(kinds, PruneGeneric);
            forall x :: Get(r, "electronic").Some? && x in Get(r, "electronic").value ==> IssnForm(x)
  {
    var r := RegularizeIssns(kinds, PruneGeneric);
    forall x | Get(r, "electronic").Some? && x in Get(r, "electronic").value
      ensures IssnForm(x)
    {
      RegularIssnsForm(Get(kinds, "electronic").value, x);
    }
  }

  lemma GenericClean(kinds: Kinds)
    requires WellFormed(kinds)
    requires Get(kinds, "generic").Some? ==> |Get(kinds, "generic").value| > 0
    ensures var r := RegularizeIssns(kinds, PruneGeneric);
            && (forall x :: Get(r, "generic").Some? && x in Get(r, "generic").value ==> IssnForm(x))
            && (Get(r, "generic").Some? ==> |Get(r, "generic").value| > 0)
            && (Get(r, "generic").Some? && Get(r, "electronic").Some? ==>
                  forall x :: x in Get(r, "generic").value ==> x !in Get(r, "electronic").value)
  {
    var r := RegularizeIssns(kinds, PruneGeneric);
    if Get(r, "generic").Some? {
      var gs := RegularIssns(Get(kinds, "generic").value);
      if Get(kinds, "electronic").Some? {
        var e := RegularIssns(Get(kinds, "electronic").value);
        assert Get(r, "generic") == Some(PruneGeneric(gs, e));
        assert Get(r, "electronic") == Some(e);
      } else {
        assert Get(r, "generic") == Some(gs);
      }
      forall x | x in Get(r, "generic").value
        ensures IssnForm(x)
      {
        assert x in gs;
        RegularIssnsForm(Get(kinds, "generic").value, x);
      }
    }
  }

  /** The kinds found for one family, in the order `electronic`, `generic`. */
  function FamilyKinds(family: string, text: string, scan: Scan, extract: Extract): (r: Result<Kinds>)
    ensures r.Ok? ==> WellFormed(r.value)
    ensures r.Ok? ==> forall kind :: Get(r.value, kind).Some? <==> kind in KindNames && |scan(family, kind, text)| > 0
    ensures r.Ok? ==> forall kind :: Get(r.value, kind).Some? ==> KindValues(family, kind, text, scan, extract) == Ok(Get(r.value, kind))
    ensures r.Err? <==> KindValues(family, "electronic", text, scan, extract).Err? || KindValues(family, "generic", text, scan, extract).Err?
  {
    var e :- KindValues(family, "electronic", text, scan, extract);
    var g :- KindValues(family, "generic", text, scan, extract);
    Ok(TwoEntries("electronic", e, "generic", g))
  }

  /** One family's entry: `None` when the text does not mention it. */
  function FamilyEntry(family: string, text: string, scan: Scan, extract: Extract, prune: Prune): (r: Result<Option<Kinds>>)
    ensures r == Ok(None) <==> !Mentions(text, family)
    ensures r.Ok? && r.value.Some? ==> WellFormed(r.value.value)
  {
    if !Mentions(text, family) then Ok(None)
    else
      var kinds :- FamilyKinds(family, text, scan, extract);
      Ok(Some(if family == "issn" then RegularizeIssns(kinds, prune) else kinds))
  }

  /** `_parse_identifiers(content_text)` with the pruning rule `prune`:
      the ISSN entry, then the ISBN entry, each only when the lower-cased
      text mentions the family. */
  function ParseWith(content: Option<string>, scan: Scan, extract: Extract, prune: Prune): (r: Result<Found>)
    ensures content.None? ==> r == Ok([])
    ensures r.Ok? ==> WellFormed(r.value)
    ensures r.Ok? && content.Some? ==> forall f :: Get(r.value, f).Some? <==> f in Families && Mentions(Lower(content.value), f)
    ensures r.Ok? && content.Some? ==> forall f :: f in Families && Get(r.value, f).Some? ==>
              FamilyEntry(f, Lower(content.value), scan, extract, prune) == Ok(Get(r.value, f))
  {
    match content
    case None => Ok([])
    case Some(raw) =>
      var text := Lower(raw);
      var issn :- FamilyEntry("issn", text, scan, extract, prune);
      var isbn :- FamilyEntry("isbn", text, scan, extract, prune);
      Ok(TwoEntries("issn", issn, "isbn", isbn))
  }

  function ParseIdentifiersAsWritten(content: Option<string>, scan: Scan, extract: Extract): (r: Result<Found>)
    ensures content.None? ==> r == Ok([])
  {
    ParseWith(content, scan, extract, PruneAsWritten)
  }

  /** `_parse_identifiers(content_text)` with the intended pruning. */
  function ParseIdentifiers(content: Option<string>, scan: Scan, extract: Extract): (r: Result<Found>)
    ensures content.None? ==> r == Ok([])
  {
    ParseWith(content, scan, extract, PruneGeneric)
  }

  /** A parsed ISSN entry is clean: the extracted lists are never empty, so
      the intended pruning leaves no value both generic and electronic. */
  lemma ParseIdentifiersClean(content: Option<string>, scan: Scan, extract: Extract)
    requires ParseIdentifiers(content, scan, extract).Ok?
    ensures var r := ParseIdentifiers(content, scan, extract).value;
            Get(r, "issn").Some? ==> IssnClean(Get(r, "issn").value)
  {
    var r := ParseIdentifiers(content, scan, extract).value;
    if content.Some? && Get(r, "issn").Some? {
      var text := Lower(content.value);
      assert "issn" in Families;
      assert FamilyEntry("issn", text, scan, extract, PruneGeneric) == Ok(Get(r, "issn"));
      var kinds := FamilyKinds("issn", text, scan, extract).value;
      RegularizeIssnsClean(kinds);
    }
  }
}

=== FILE: keywords.dfy ===
/** Keyword inference of the base parser: `_mine_keywords`,
    `_parse_keywords` and `_clean_keywords`.

    `TITLE_SUBSTRING_TAGS` is read from a CSV file at import time; here it
    is the parameter `tags`, in its dictionary order. Its keys without a
    space are the single-word terms, the others the phrases. */
module Keywords {
  import opened Results
  import opened Strings
  import opened Dicts
  import opened NormalizeSpace
  import opened CleanString

  type TagTable = Dict<string>

  /** A key of `TITLE_SUBSTRING_TERMS`. */
  predicate IsTerm(k: string) {
    ' ' !in k
  }

  /** The tags of the table entries whose key passes `hit`, in table order. */
  function TableTags(tags: TagTable, hit: string -> bool): (r: seq<string>)
    ensures forall v :: v in r <==> exists i :: 0 <= i < |tags| && hit(tags[i].0) && tags[i].1 == v
    decreases |tags|
  {
    if |tags| == 0 then []
    else
      var rest := TableTags(tags[1..], hit);
      var r := if hit(tags[0].0) then [tags[0].1] + rest else rest;
      assert forall v :: v in r <==> exists i :: 0 <= i < |tags| && hit(tags[i].0) && tags[i].1 == v by {
        forall v ensures v in r <==> exists i :: 0 <= i < |tags| && hit(tags[i].0) && tags[i].1 == v {
          if exists i :: 0 <= i < |tags| && hit(tags[i].0) && tags[i].1 == v {
            var i :| 0 <= i < |tags| && hit(tags[i].0) && tags[i].1 == v;
            if i > 0 {
              assert tags[1..][i - 1] == tags[i];
            }
          }
          if v in rest {
            var i :| 0 <= i < |tags| - 1 && hit(tags[1..][i].0) && tags[1..][i].1 == v;
            assert tags[1..][i] == tags[i + 1];
          }
        }
      }
      r
  }

  /** The open-access rule of `_mine_keywords`, for the lower-cased text and
      its words. */
  function AccessTags(lower: string, words: seq<string>): (r: seq<string>)
    ensures |r| <= 1
    ensures "open access" in r <==>
              "open" in words && "access" in words && "partial" !in words && Contains(lower, "open access")
    ensures "mixed access" in r <==>
              "open" in words && "access" in words && "partial" in words && Contains(lower, "partial open access")
  {
    if "open" in words && "access" in words then
      if "partial" in words then
        (if Contains(lower, "partial open access") then ["mixed access"] else [])
      else if Contains(lower, "open access") then ["open access"] else []
    else []
  }

  /** Text that mentions partial open access is never tagged plain open
      access by the access rule, whatever else it says. */
  lemma PartialIsNotOpen(lower: string, words: seq<string>)
    requires "partial" in words
    ensures "open access" !in AccessTags(lower, words)
  {
  }

  /** The tags `_mine_keywords` finds in one text. */
  function MineOne(tags: TagTable, s: string): (r: seq<string>)
    ensures forall v :: v in r <==>
              || (exists i :: 0 <= i < |tags| && IsTerm(tags[i].0) && tags[i].0 in Words(Lower(s)) && tags[i].1 == v)
              || v in AccessTags(Lower(s), Words(Lower(s)))
              || (v == "series" && "series" in Words(Lower(s)) && "lecture" !in Words(Lower(s)))
              || (exists i :: 0 <= i < |tags| && !IsTerm(tags[i].0) && Contains(Lower(s), tags[i].0) && tags[i].1 == v)
  {
    var lower := Lower(s);
    var words := Words(lower);
    var terms := TableTags(tags, k => IsTerm(k) && k in words);
    var phrases := TableTags(tags, k => !IsTerm(k) && Contains(lower, k));
    var series := if "series" in words && "lecture" !in words then ["series"] else [];
    terms + AccessTags(lower, words) + series + phrases
  }

  /** `_mine_keywords(*args)`: the tags of every text that is present. */
  function Mine(tags: TagTable, args: seq<Option<string>>): (r: seq<string>)
    ensures forall v :: v in r <==> exists j :: 0 <= j < |args| && args[j].Some? && v in MineOne(tags, args[j].value)
    decreases |args|
  {
    if |args| == 0 then []
    else
      var rest := Mine(tags, args[1..]);
      var here := if args[0].Some? then MineOne(tags, args[0].value) else [];
      assert forall v :: v in here + rest <==> exists j :: 0 <= j < |args| && args[j].Some? && v in MineOne(tags, args[j].value) by {
        forall v ensures v in here + rest <==> exists j :: 0 <= j < |args| && args[j].Some? && v in MineOne(tags, args[j].value) {
          MineAt(tags, args, rest, v);
        }
      }
      here + rest
  }

  lemma MineAt(tags: TagTable, args: seq<Option<string>>, rest: seq<string>, v: string)
    requires |args| > 0
    requires v in rest <==> exists j :: 0 <= j < |args| - 1 && args[1..][j].Some? && v in MineOne(tags, args[1..][j].value)
    ensures var here := if args[0].Some? then MineOne(tags, args[0].value) else [];
            v in here + rest <==> exists j :: 0 <= j < |args| && args[j].Some? && v in MineOne(tags, args[j].value)
  {
    if exists j :: 0 <= j < |args| && args[j].Some? && v in MineOne(tags, args[j].value) {
      var j :| 0 <= j < |args| && args[j].Some? && v in MineOne(tags, args[j].value);
      if j > 0 {
        assert args[1..][j - 1] == args[j];
      }
    }
    if v in rest {
      var j :| 0 <= j < |args| - 1 && args[1..][j].Some? && v in MineOne(tags, args[1..][j].value);
      assert args[1..][j] == args[j + 1];
    }
  }

  // ---------------------------------------------------------------------
  // _clean_keywords

  /** What one raw tag contributes before normalisation: nothing for the
      empty tag, its comma-separated pieces, or itself. */
  function Pieces(t: string): (r: seq<string>)
    ensures forall p :: p in r ==> ',' !in p
    ensures t != "" && ',' !in t ==> r == [t]
  {
    if t == "" then []
    else if ',' in t then Split(t, ',')
    else [t]
  }

  /** The pieces of every raw tag, in order. */
  function AllPieces(raw: seq<string>): (r: seq<string>)
    ensures forall p :: p in r <==> exists i :: 0 <= i < |raw| && p in Pieces(raw[i])
    decreases |raw|
  {
    if |raw| == 0 then []
    else
      var rest := AllPieces(raw[1..]);
      assert forall p :: p in Pieces(raw[0]) + rest <==> exists i :: 0 <= i < |raw| && p in Pieces(raw[i]) by {
        forall p ensures p in Pieces(raw[0]) + rest <==> exists i :: 0 <= i < |raw| && p in Pieces(raw[i]) {
          if exists i :: 0 <= i < |raw| && p in Pieces(raw[i]) {
            var i :| 0 <= i < |raw| && p in Pieces(raw[i]);
            if i > 0 {
              assert raw[1..][i - 1] == raw[i];
            }
          }
          if p in rest {
            var i :| 0 <= i < |raw| - 1 && p in Pieces(raw[1..][i]);
            assert raw[1..][i] == raw[i + 1];
          }
        }
      }
      Pieces(raw[0]) + rest
  }

  /** `kw` is the normalised form of a piece of one of the raw tags. */
  ghost predicate FromRaw(raw: seq<string>, kw: string) {
    exists p :: p in AllPieces(raw) && kw == Normalize(p)
  }

  /** A keyword comes from the raw tags exactly when it is the normal form
      of a piece of one of them. */
  lemma FromRawPieces(raw: seq<string>, kw: string)
    ensures FromRaw(raw, kw) <==> exists t, p :: t in raw && p in Pieces(t) && kw == Normalize(p)
  {
    if FromRaw(raw, kw) {
      var p :| p in AllPieces(raw) && kw == Normalize(p);
      var i :| 0 <= i < |raw| && p in Pieces(raw[i]);
      assert raw[i] in raw;
    }
    if exists t, p :: t in raw && p in Pieces(t) && kw == Normalize(p) {
      var t, p :| t in raw && p in Pieces(t) && kw == Normalize(p);
      var i :| 0 <= i < |raw| && raw[i] == t;
      assert p in AllPieces(raw);
    }
  }

  /** A keyword the tag table does not license: mixed or lower case, with
      no entry for its lower-case form, and not itself lower case. */
  predicate Unlicensed(tags: TagTable, kw: string) {
    kw != Upper(kw) && Lower(kw) !in Keys(tags) && kw != Lower(kw)
  }

  /** De-duplicating the raw tags first does not change their pieces. */
  lemma AllPiecesDedup(raw: seq<string>)
    ensures forall p :: p in AllPieces(Dedup(raw)) <==> p in AllPieces(raw)
  {
    forall p ensures p in AllPieces(Dedup(raw)) <==> p in AllPieces(raw) {
      PiecesOfSameTags(Dedup(raw), raw, p);
      PiecesOfSameTags(raw, Dedup(raw), p);
    }
  }

  /** Every tag of `a` is a tag of `b`, so every piece of `a` is one of `b`. */
  lemma PiecesOfSameTags(a: seq<string>, b: seq<string>, p: string)
    requires forall t :: t in a ==> t in b
    ensures p in AllPieces(a) ==> p in AllPieces(b)
  {
    if p in AllPieces(a) {
      var i :| 0 <= i < |a| && p in Pieces(a[i]);
      assert a[i] in b;
      var j :| 0 <= j < |b| && b[j] == a[i];
    }
  }

  /** The normal forms of pieces that have no comma have none either. */
  lemma NormalizeAllMembers(ps: seq<string>)
    requires forall p :: p in ps ==> ',' !in p
    ensures forall kw :: kw in NormalizeAll(ps) <==> exists p :: p in ps && kw == Normalize(p)
    ensures forall kw :: kw in NormalizeAll(ps) ==> ',' !in kw
  {
    forall kw ensures kw in NormalizeAll(ps) <==> exists p :: p in ps && kw == Normalize(p) {
      NormalizeAllAt(ps, kw);
    }
    forall kw | kw in NormalizeAll(ps) ensures ',' !in kw {
      NormalizeAllComma(ps, kw);
    }
  }

  lemma NormalizeAllAt(ps: seq<string>, kw: string)
    ensures kw in NormalizeAll(ps) <==> exists p :: p in ps && kw == Normalize(p)
  {
    var n := NormalizeAll(ps);
    if kw in n {
      var k :| 0 <= k < |ps| && n[k] == kw;
      assert ps[k] in ps;
    }
    if exists p :: p in ps && kw == Normalize(p) {
      var p :| p in ps && kw == Normalize(p);
      var k :| 0 <= k < |ps| && ps[k] == p;
      assert n[k] == kw;
    }
  }

  lemma NormalizeAllComma(ps: seq<string>, kw: string)
    requires forall p :: p in ps ==> ',' !in p
    requires kw in NormalizeAll(ps)
    ensures ',' !in kw
  {
    var k :| 0 <= k < |ps| && NormalizeAll(ps)[k] == kw;
    assert ',' !in ps[k] by {
      assert ps[k] in ps;
    }
    NormalizeAtComma(ps, k);
  }

  lemma NormalizeAtComma(ps: seq<string>, k: nat)
    requires k < |ps| && ',' !in ps[k]
    ensures ',' !in NormalizeAll(ps)[k]
  {
    NormalizeHas(ps[k], ',');
  }

  /** The keywords before the licence check. */
  function KeywordList(raw: seq<string>): (r: seq<string>)
    ensures NoDuplicates(r)
    ensures forall kw :: kw in r <==> FromRaw(raw, kw)
    ensures forall kw :: kw in r ==> Normal(kw) && ',' !in kw
  {
    var pieces := AllPieces(Dedup(raw));
    AllPiecesDedup(raw);
    NormalizeAllMembers(pieces);
    Dedup(NormalizeAll(pieces))
  }

  /** Some piece of a raw tag normalises to an unlicensed keyword. */
  ghost predicate AnyUnlicensed(tags: TagTable, raw: seq<string>) {
    exists p :: p in AllPieces(raw) && Unlicensed(tags, Normalize(p))
  }

  lemma UnlicensedListed(tags: TagTable, raw: seq<string>)
    ensures AnyUnlicensed(tags, raw) <==>
              exists i :: 0 <= i < |KeywordList(raw)| && Unlicensed(tags, KeywordList(raw)[i])
  {
    var kws := KeywordList(raw);
    if AnyUnlicensed(tags, raw) {
      var p :| p in AllPieces(raw) && Unlicensed(tags, Normalize(p));
      assert FromRaw(raw, Normalize(p));
      var i :| 0 <= i < |kws| && kws[i] == Normalize(p);
    }
    if exists i :: 0 <= i < |kws| && Unlicensed(tags, kws[i]) {
      var i :| 0 <= i < |kws| && Unlicensed(tags, kws[i]);
      assert kws[i] in kws;
    }
  }

  /** `_clean_keywords(raw_tags)`: the distinct normalised comma-separated
      pieces of the raw tags; `ValueError` when one of them is unlicensed. */
  function CleanKeywords(tags: TagTable, raw: seq<string>): (r: Result<seq<string>>)
    ensures r.Err? <==> AnyUnlicensed(tags, raw)
    ensures r.Err? ==> r.error == ValueError
    ensures r.Ok? ==> NoDuplicates(r.value)
    ensures r.Ok? ==> forall kw :: kw in r.value <==> FromRaw(raw, kw)
    ensures r.Ok? ==> forall kw :: kw in r.value ==> Normal(kw) && ',' !in kw && !Unlicensed(tags, kw)
  {
    var kws := KeywordList(raw);
    UnlicensedListed(tags, raw);
    if exists i :: 0 <= i < |kws| && Unlicensed(tags, kws[i]) then Err(ValueError)
    else Ok(kws)
  }

  /** The cleaned keywords are exactly the normal forms of the pieces of
      the raw tags. */
  lemma CleanKeywordsFrom(tags: TagTable, raw: seq<string>)
    requires CleanKeywords(tags, raw).Ok?
    ensures forall kw :: kw in CleanKeywords(tags, raw).value <==>
              exists t, p :: t in raw && p in Pieces(t) && kw == Normalize(p)
    ensures forall t, p :: t in raw && p in Pieces(t) ==> Normalize(p) in CleanKeywords(tags, raw).value
  {
    forall kw ensures FromRaw(raw, kw) <==> exists t, p :: t in raw && p in Pieces(t) && kw == Normalize(p) {
      FromRawPieces(raw, kw);
    }
  }

  /** Cleaning cleaned keywords gives them back, unless one of them is the
      empty keyword an empty comma-separated piece leaves behind. */
  lemma CleanKeywordsStable(tags: TagTable, raw: seq<string>)
    requires CleanKeywords(tags, raw).Ok?
    requires "" !in CleanKeywords(tags, raw).value
    ensures CleanKeywords(tags, CleanKeywords(tags, raw).value) == CleanKeywords(tags, raw)
  {
    var kws := CleanKeywords(tags, raw).value;
    DedupOfDistinct(kws);
    PiecesOfKeywords(kws);
    assert NormalizeAll(kws) == kws by {
      forall i | 0 <= i < |kws| ensures NormalizeAll(kws)[i] == kws[i] {
        NormalFixed(kws[i]);
      }
    }
    DedupOfDistinct(NormalizeAll(kws));
  }

  /** Keywords with no comma and no empty one are their own pieces. */
  lemma {:induction false} PiecesOfKeywords(kws: seq<string>)
    requires forall kw :: kw in kws ==> kw != "" && ',' !in kw
    ensures AllPieces(kws) == kws
    decreases |kws|
  {
    if |kws| > 0 {
      assert forall kw :: kw in kws[1..] ==> kw in kws;
      assert kws[0] in kws;
      PiecesOfKeywords(kws[1..]);
      assert [kws[0]] + kws[1..] == kws;
    }
  }

  /** A tag with an empty comma-separated piece yields the empty keyword:
      the empty tag is dropped only before the split. */
  lemma EmptyPieceKept(tags: TagTable, t: string)
    requires t != "" && ',' !in t
    requires CleanKeywords(tags, [t + ","]).Ok?
    ensures "" in CleanKeywords(tags, [t + ","]).value
  {
    SplitAtFirst(t, "", ',');
    assert t + [','] + "" == t + ",";
    assert "" in Pieces(t + ",");
    assert "" in AllPieces([t + ","]);
    assert Normalize("") == "";
  }

  // ---------------------------------------------------------------------
  // _parse_keywords

  /** The tags of the post categories: lower-cased, skipping the
      `kind#post` category; a category with no table entry raises. */
  function CategoryTags(tags: TagTable, categories: seq<string>): (r: Result<seq<string>>)
    ensures r.Err? <==> exists i :: 0 <= i < |categories| && Unknown(tags, categories[i])
    ensures r.Err? ==> r.error == Exception
    ensures r.Ok? ==> forall i :: 0 <= i < |categories| && !Contains(Lower(categories[i]), "kind#post") ==>
                        Get(tags, Lower(categories[i])).Some? && Get(tags, Lower(categories[i])).value in r.value
    decreases |categories|
  {
    if |categories| == 0 then Ok([])
    else
      var tag := Lower(categories[0]);
      var rest := CategoryTags(tags, categories[1..]);
      assert forall i :: 0 <= i < |categories| - 1 ==> categories[1..][i] == categories[i + 1];
      assert (exists i :: 0 <= i < |categories| && Unknown(tags, categories[i])) <==>
             Unknown(tags, categories[0]) || (exists i :: 0 <= i < |categories| - 1 && Unknown(tags, categories[1..][i])) by {
        if exists i :: 0 <= i < |categories| && Unknown(tags, categories[i]) {
          var i :| 0 <= i < |categories| && Unknown(tags, categories[i]);
          if i > 0 {
            assert categories[1..][i - 1] == categories[i];
          }
        }
      }
      if Contains(tag, "kind#post") then rest
      else match Get(tags, tag)
        case None => Err(Exception)
        case Some(v) =>
          match rest
          case Err(e) => Err(e)
          case Ok(vs) => Ok([v] + vs)
  }

  /** A category that is not the post-kind category and has no entry. */
  predicate Unknown(tags: TagTable, c: string) {
    !Contains(Lower(c), "kind#post") && Lower(c) !in Keys(tags)
  }

  /** `_parse_keywords(post_title, resource_title, post_categories)`. */
  function ParseKeywords(tags: TagTable, postTitle: Option<string>, resourceTitle: Option<string>, categories: seq<string>): (r: Result<seq<string>>)
    ensures r == Err(Exception) <==> exists i :: 0 <= i < |categories| && Unknown(tags, categories[i])
    ensures r.Ok? ==> forall kw :: kw in r.value ==> Normal(kw) && ',' !in kw
    ensures r.Ok? ==> forall i :: 0 <= i < |categories| && !Contains(Lower(categories[i]), "kind#post") ==>
                        forall p :: p in Pieces(Get(tags, Lower(categories[i])).value) ==> Normalize(p) in r.value
    ensures r.Ok? ==> forall t, p :: t in Mine(tags, [postTitle, resourceTitle]) && p in Pieces(t) ==> Normalize(p) in r.value
    ensures r.Ok? ==> CategoryTags(tags, categories).Ok? &&
                      forall kw :: kw in r.value <==>
                        exists t, p :: t in Mine(tags, [postTitle, resourceTitle]) + CategoryTags(tags, categories).value &&
                                       p in Pieces(t) && kw == Normalize(p)
    ensures r.Err? ==> r.error in {Exception, ValueError}
    ensures r == Err(ValueError) <==>
              CategoryTags(tags, categories).Ok? &&
              AnyUnlicensed(tags, Mine(tags, [postTitle, resourceTitle]) + CategoryTags(tags, categories).value)
  {
    var mined := Mine(tags, [postTitle, resourceTitle]);
    match CategoryTags(tags, categories)
    case Err(e) => Err(e)
    case Ok(cats) =>
      var r := CleanKeywords(tags, mined + cats);
      if r.Ok? then CleanKeywordsFrom(tags, mined + cats); r else r
  }
}

=== FILE: marc.dfy ===
/** `COACS_json_to_marc`: a post's JSON record turned into a MARC record for
    the journal, and one MARC record for each issue or volume listed under
    it. The JSON arrives parsed; `pymarc` records are sequences of fields,
    and writing them to files is not modelled. */
module Marc {
  import opened Results
  import opened Strings
  import opened Dicts

  // ---------------------------------------------------------------------
  // the 008 field

  /** A MARC language code. */
  type Code = s: string | |s| == 3 witness "   "

  /** `lang_map`: two-letter IANA language codes to the three-letter
      ISO 639-2 codes MARC uses, in the order written, in four parts. */
  const LangMap: Dict<Code> := LangMap1 + (LangMap2 + (LangMap3 + LangMap4))

  const LangMap1: Dict<Code> := [
    ("af", "afr"), ("an", "arg"), ("ar", "ara"), ("az", "aze"), ("be", "bel"), ("bg", "bul"),
    ("br", "bre"), ("bs", "bos"), ("ca", "cat"), ("cs", "cze"), ("cy", "wel"), ("da", "dan"),
    ("de", "ger"), ("el", "gre"), ("en", "eng"), ("eo", "epo")
  ]

  const LangMap2: Dict<Code> := [
    ("es", "spa"), ("et", "est"), ("eu", "baq"), ("fa", "per"), ("fi", "fin"), ("fo", "fao"),
    ("fr", "fre"), ("gl", "glg"), ("he", "heb"), ("hr", "hrv"), ("hu", "hun"), ("id", "ind"),
    ("it", "ita"), ("ja", "jpn"), ("jv", "jav"), ("ka", "geo")
  ]

  const LangMap3: Dict<Code> := [
    ("ko", "kor"), ("ku", "kur"), ("ky", "kir"), ("la", "lat"), ("lb", "ltz"), ("lo", "lao"),
    ("lt", "lit"), ("lv", "lav"), ("mg", "mlg"), ("mk", "mac"), ("mr", "mar"), ("mt", "mlt"),
    ("nl", "dut"), ("no", "nno"), ("oc", "oci"), ("pl", "pol")
  ]

  const LangMap4: Dict<Code> := [
    ("pt", "por"), ("ro", "rum"), ("ru", "rus"), ("sk", "slo"), ("sl", "slv"), ("sr", "srp"),
    ("sv", "swe"), ("sw", "swa"), ("tl", "tgl"), ("tr", "tur"), ("uk", "ukr"), ("ur", "urd"),
    ("vi", "vie"), ("wa", "wln"), ("zh", "chi")
  ]

  const Blank3: Code := "   "

  /** The 008 value every record starts from, English at positions 21 to
      23. */
  const Default008: string := "            o       0eng d"

  /** Subfield values are cut to this length (a MARC 21 variable field
      holds at most 9,999 bytes). */
  const MaxValue: nat := 9000

  lemma Default008Facts()
    ensures |Default008| == 26 && Default008[21..24] == "eng"
  {
  }

  /** The language an 008 value carries. */
  function Language008(s: string): string
    requires |s| >= 24
  {
    s[21..24]
  }

  /** `field008val[0:21] + code + field008val[24:]`. */
  function Splice008(code: string): (r: string)
    requires |code| == 3
    ensures |r| == |Default008|
    ensures r[..21] == Default008[..21] && r[24..] == Default008[24..]
    ensures Language008(r) == code
  {
    Default008Facts();
    Default008[..21] + code + Default008[24..]
  }

  /** `table.get(lang, "   ")`. */
  function LookupCode(table: Dict<Code>, lang: string): (r: Code)
    ensures lang in Keys(table) ==> (lang, r) in table
    ensures lang !in Keys(table) ==> r == Blank3
  {
    match Get(table, lang)
    case Some(code) => code
    case None => Blank3
  }

  /** `lang_map.get(lang, "   ")`. */
  function LangCode(lang: string): Code {
    LookupCode(LangMap, lang)
  }

  lemma LookupFound(table: Dict<Code>, k: string)
    requires Get<Code>(table, k).Some?
    ensures LookupCode(table, k) == Get<Code>(table, k).value
  {
  }

  /** A code found in the first part of a table is the one looked up in
      the whole table. */
  lemma LookupFirstPart(a: Dict<Code>, rest: Dict<Code>, k: string)
    requires Get<Code>(a, k).Some?
    ensures LookupCode(a + rest, k) == Get<Code>(a, k).value
  {
    GetAppend<Code>(a, rest, k);
    LookupFound(a + rest, k);
  }

  /** Arabic (`ar`) is written `ara` in MARC. */
  lemma ArabicCode()
    ensures LangCode("ar") == "ara"
  {
    var d := LangMap1;
    assert d[0].0 == "af";
    assert Get<Code>(d, "ar") == Get<Code>(d[1..], "ar");
    LookupFirstPart(LangMap1, LangMap2 + (LangMap3 + LangMap4), "ar");
  }

  /** The `languages` entry of a post: absent, `null`, or a list whose
      elements may be `null`. */
  datatype Languages = NoLanguages | NullLanguages | LanguageList(codes: seq<Option<string>>)

  /** The code the first language of a post stands for: English when
      there is no list or its first entry is `null`, blanks for an empty
      list. */
  function FirstLanguage(langs: Languages): Code {
    match langs
    case LanguageList(ls) =>
      if |ls| == 0 then Blank3
      else if ls[0].None? then "eng"
      else LangCode(ls[0].value)
    case _ => "eng"
  }

  /** The journal's 008 value. English stays when the post names no
      language or its first language is `null`; an empty list raises the
      `IndexError` that is caught and blanks the language; a `null` list
      cannot be indexed. Only the language positions ever change. */
  function Field008(langs: Languages): (r: Result<string>)
    ensures r.Err? <==> langs.NullLanguages?
    ensures r.Err? ==> r.error == TypeError
    ensures r.Ok? ==> (|r.value| == |Default008| &&
                       r.value[..21] == Default008[..21] && r.value[24..] == Default008[24..])
    ensures r.Ok? ==> Language008(r.value) == FirstLanguage(langs)
  {
    Default008Facts();
    match langs
    case NoLanguages => Ok(Default008)
    case NullLanguages => Err(TypeError)
    case LanguageList(ls) =>
      if |ls| == 0 then Ok(Splice008(Blank3))
      else if ls[0].None? then Ok(Default008)
      else Ok(Splice008(LangCode(ls[0].value)))
  }

  /** A post whose first language maps to English (`en`) gets exactly
      the default value. */
  lemma Field008English(lang: string)
    requires LangCode(lang) == "eng"
    ensures Field008(LanguageList([Some(lang)])) == Ok(Default008)
  {
    Default008Facts();
    assert Default008 == Default008[..21] + Default008[21..24] + Default008[24..];
  }

  // ---------------------------------------------------------------------
  // records

  datatype Subfield = Subfield(code: string, value: Option<string>)

  datatype MarcField =
    | Control(tag: string, data: string)
    | Data(tag: string, ind1: string, ind2: string, subfields: seq<Subfield>)

  type MarcRecord = seq<MarcField>

  /** A package in the JSON record (`title_full`, `url`, ...), with `None`
      for `null`. */
  type Package = map<string, Option<string>>

  /** The parts of a post's JSON record the exporter reads. `issn` is the
      `identifiers.issn` dictionary, `None` when there is none; `None`
      stands for `null` in the other entries. */
  datatype Post = Post(
    languages: Languages,
    issn: Option<Dict<seq<string>>>,
    isPartOf: Option<Package>,
    title: Option<string>,
    year: Option<string>,
    description: Option<string>,
    url: Option<string>,
    domain: Option<string>,
    volume: Option<string>,
    subordinates: Option<seq<Package>>)

  /** Python truth of a JSON string: present and not empty. */
  predicate Truthy(s: Option<string>) {
    s.Some? && s.value != ""
  }

  /** `package[key]`. */
  function PackageGet(p: Package, key: string): (r: Result<Option<string>>)
    ensures r.Ok? <==> key in p
    ensures r.Ok? ==> r.value == p[key]
    ensures r.Err? ==> r.error == KeyError
  {
    if key in p then Ok(p[key]) else Err(KeyError)
  }

  /** The first field with the tag. */
  function FirstTagged(rec: MarcRecord, tag: string): (r: Option<MarcField>)
    ensures r.Some? ==> r.value in rec && r.value.tag == tag
    ensures r.None? ==> forall f :: f in rec ==> f.tag != tag
  {
    if |rec| == 0 then None
    else if rec[0].tag == tag then Some(rec[0])
    else FirstTagged(rec[1..], tag)
  }

  /** `field[code]`: the value of the subfield with the code, `None` when
      the field has none. */
  function SubValue(subs: seq<Subfield>, code: string): (r: Option<string>)
    ensures r.Some? ==> Subfield(code, r) in subs
    ensures (forall s :: s in subs ==> s.code != code) ==> r.None?
  {
    if |subs| == 0 then None
    else if subs[0].code == code then subs[0].value
    else SubValue(subs[1..], code)
  }

  /** Subfields with other codes in front do not change the lookup. */
  lemma {:induction false} SubValueSkip(p: seq<Subfield>, q: seq<Subfield>, code: string)
    requires forall s :: s in p ==> s.code != code
    ensures SubValue(p + q, code) == SubValue(q, code)
  {
    if |p| > 0 {
      assert p[0] in p;
      assert (p + q)[0] == p[0] && (p + q)[1..] == p[1..] + q;
      assert forall s :: s in p[1..] ==> s in p;
      SubValueSkip(p[1..], q, code);
    } else {
      assert p + q == q;
    }
  }

  /** `record[tag][code]`: `KeyError` when no field has the tag, `None`
      for a control field or a missing code. */
  function RecordSub(rec: MarcRecord, tag: string, code: string): (r: Result<Option<string>>)
    ensures r.Err? <==> FirstTagged(rec, tag).None?
    ensures r.Err? ==> r.error == KeyError
    ensures r.Ok? && r.value.Some? ==> exists f :: f in rec && f.tag == tag && f.Data? && Subfield(code, r.value) in f.subfields
  {
    match FirstTagged(rec, tag)
    case None => Err(KeyError)
    case Some(f) => Ok(if f.Data? then SubValue(f.subfields, code) else None)
  }

  /** A field with one subfield `a` holding the value cut to `MaxValue`. */
  function Truncated(tag: string, ind1: string, ind2: string, s: string): (f: MarcField)
    ensures f.Data? && f.tag == tag && |f.subfields| == 1 && f.subfields[0].code == "a"
    ensures var v := f.subfields[0].value;
            v.Some? && |v.value| == (if |s| <= MaxValue then |s| else MaxValue) && v.value <= s
    ensures SubValue(f.subfields, "a") == f.subfields[0].value
  {
    Data(tag, ind1, ind2, [Subfield("a", Some(Take(s, MaxValue)))])
  }

  /** A subfield present when the value is truthy. */
  function SubIf(code: string, v: Option<string>): (r: seq<Subfield>)
    ensures |r| <= 1 && (|r| == 1 <==> Truthy(v))
    ensures forall s :: s in r ==> s == Subfield(code, v)
  {
    if Truthy(v) then [Subfield(code, v)] else []
  }

  /** A field with one subfield, present when the value is truthy. */
  function FieldIf(tag: string, ind1: string, ind2: string, code: string, v: Option<string>): (r: seq<MarcField>)
    ensures |r| <= 1 && (|r| == 1 <==> Truthy(v))
    ensures forall f :: f in r ==> f == Data(tag, ind1, ind2, [Subfield(code, v)])
  {
    if Truthy(v) then [Data(tag, ind1, ind2, [Subfield(code, v)])] else []
  }

  const OpenAccess: MarcField := Data("506", "0", "#", [Subfield("a", Some("Open access"))])

  // ---------------------------------------------------------------------
  // the journal record

  /** The 022 field: subfield `a` holds the first generic ISSN and `l` the
      first electronic one; an empty list raises `IndexError`. Read back
      through `pymarc`, the subfields give those ISSNs. */
  function Field022(issn: Dict<seq<string>>): (r: Result<MarcField>)
    ensures r.Err? <==> Get(issn, "generic") == Some([]) || Get(issn, "electronic") == Some([])
    ensures r.Err? ==> r.error == IndexError
    ensures r.Ok? ==> r.value.Data? && r.value.tag == "022"
    ensures r.Ok? ==> (SubValue(r.value.subfields, "a") ==
                       if Get(issn, "generic").Some? then Some(Get(issn, "generic").value[0]) else None)
    ensures r.Ok? ==> (SubValue(r.value.subfields, "l") ==
                       if Get(issn, "electronic").Some? then Some(Get(issn, "electronic").value[0]) else None)
  {
    var g := Get(issn, "generic");
    var e := Get(issn, "electronic");
    if g == Some([]) || e == Some([]) then Err(IndexError)
    else
      var a := if g.Some? then [Subfield("a", Some(g.value[0]))] else [];
      var l := if e.Some? then [Subfield("l", Some(e.value[0]))] else [];
      SubValueSkip(a, l, "l");
      Ok(Data("022", "0", "#", a + l))
  }

  /** The 245 field from the parent's full title; a parent without one
      raises `KeyError`. */
  function Field245(isPartOf: Option<Package>): (r: Result<seq<MarcField>>)
    ensures r.Err? <==> isPartOf.Some? && "title_full" !in isPartOf.value
    ensures r.Ok? ==> (|r.value| == 1 <==> isPartOf.Some? && Truthy(isPartOf.value["title_full"]))
    ensures r.Ok? ==> |r.value| <= 1 && forall f :: f in r.value ==>
              f == Truncated("245", "0", "0", isPartOf.value["title_full"].value)
  {
    if isPartOf.None? then Ok([])
    else
      var tf :- PackageGet(isPartOf.value, "title_full");
      Ok(if Truthy(tf) then [Truncated("245", "0", "0", tf.value)] else [])
  }

  /** The 022 field when the post has an ISSN dictionary. */
  function Fields022(issn: Option<Dict<seq<string>>>): (r: Result<seq<MarcField>>)
    ensures r.Err? <==> issn.Some? && Field022(issn.value).Err?
    ensures r.Ok? ==> (|r.value| == 1 <==> issn.Some?) && |r.value| <= 1
    ensures r.Ok? ==> forall f :: f in r.value ==> f == Field022(issn.value).value
  {
    if issn.None? then Ok([])
    else
      var f :- Field022(issn.value);
      Ok([f])
  }

  /** The 246, 260, 506 and 520 fields: the post's title, year, the open
      access note and the description, each but the note when the data is
      there. */
  function Describing(post: Post): (r: MarcRecord)
    ensures OpenAccess in r
    ensures Truthy(post.title) ==> Truncated("246", "0", "0", post.title.value) in r
    ensures Truthy(post.description) ==> Truncated("520", "2", "#", post.description.value) in r
    ensures forall f :: f in r ==>
              (f.tag in {"246", "260", "506", "520"} &&
               (f.tag == "246" ==> Truthy(post.title) && f == Truncated("246", "0", "0", post.title.value)))
    ensures Truthy(post.year) <==> Data("260", "#", "#", [Subfield("c", post.year)]) in r
    ensures forall f :: f in r && f.tag == "260" ==> Truthy(post.year) && f == Data("260", "#", "#", [Subfield("c", post.year)])
    ensures forall f :: f in r && f.tag == "520" ==>
              Truthy(post.description) && f == Truncated("520", "2", "#", post.description.value)
  {
    var f246 := if Truthy(post.title) then [Truncated("246", "0", "0", post.title.value)] else [];
    var f260 := FieldIf("260", "#", "#", "c", post.year);
    var f520 := if Truthy(post.description) then [Truncated("520", "2", "#", post.description.value)] else [];
    f246 + f260 + [OpenAccess] + f520
  }

  /** The fields after the 008 field and before the 856 field: 022, 245,
      then the describing ones. */
  function Middle(post: Post): (r: Result<MarcRecord>)
    ensures r.Err? <==> (post.issn.Some? && Field022(post.issn.value).Err?) ||
                        (post.isPartOf.Some? && "title_full" !in post.isPartOf.value)
    ensures r.Ok? && post.issn.Some? ==> Field022(post.issn.value).value in r.value
    ensures r.Ok? ==> (Field245(post.isPartOf).Ok? &&
                       forall f :: f in Field245(post.isPartOf).value ==> f in r.value)
    ensures r.Ok? ==> forall f :: f in Describing(post) ==> f in r.value
    ensures r.Ok? ==> forall f :: f in r.value ==>
              (f.tag !in {"006", "007", "008", "856", "866"} &&
               (f.tag == "246" ==> Truthy(post.title) && f == Truncated("246", "0", "0", post.title.value)))
  {
    var f022 :- Fields022(post.issn);
    var f245 :- Field245(post.isPartOf);
    assert post.issn.Some? ==> f022[0] in f022;
    Ok(f022 + f245 + Describing(post))
  }

  /** The fields before the 856 field: 006, 007 and 008, then the middle
      ones. */
  function Leading(post: Post): (r: Result<MarcRecord>)
    ensures r.Err? <==> post.languages.NullLanguages? || Middle(post).Err?
    ensures r.Ok? ==> (|r.value| >= 4 &&
              r.value[..3] == [Control("006", "m"), Control("007", "cr"), Control("008", Field008(post.languages).value)])
    ensures r.Ok? ==> forall f :: f in Middle(post).value ==> f in r.value
    ensures r.Ok? ==> forall f :: f in r.value ==>
              (f.tag != "856" && f.tag != "866" &&
               (f.tag == "008" ==> f == Control("008", Field008(post.languages).value)) &&
               (f.tag == "246" ==> Truthy(post.title) && f == Truncated("246", "0", "0", post.title.value)))
  {
    var f008 :- Field008(post.languages);
    var middle :- Middle(post);
    var head := [Control("006", "m"), Control("007", "cr"), Control("008", f008)];
    assert (head + middle)[..3] == head;
    Ok(head + middle)
  }

  /** The 856 field: the domain, the parent's URL and the post's URL,
      each when truthy. */
  function Field856(post: Post, parentUrl: Option<string>): (f: MarcField)
    ensures f.Data? && f.tag == "856"
    ensures SubValue(f.subfields, "a") == (if Truthy(post.domain) then post.domain else None)
    ensures SubValue(f.subfields, "d") == (if Truthy(parentUrl) then parentUrl else None)
    ensures SubValue(f.subfields, "u") == (if Truthy(post.url) then post.url else None)
  {
    var a := SubIf("a", post.domain);
    var d := SubIf("d", parentUrl);
    var u := SubIf("u", post.url);
    assert a + d + u == a + (d + u);
    SubIfFront("a", post.domain, d + u);
    SubValueSkip(a, d + u, "d");
    SubIfFront("d", parentUrl, u);
    SubValueSkip(a, d + u, "u");
    SubValueSkip(d, u, "u");
    SubIfFront("u", post.url, []);
    assert u + [] == u;
    Data("856", "0", "0", a + d + u)
  }

  /** A subfield given by `SubIf` in front of others with different codes
      is the one a lookup of its code finds. */
  lemma SubIfFront(code: string, v: Option<string>, rest: seq<Subfield>)
    requires forall s :: s in rest ==> s.code != code
    ensures SubValue(SubIf(code, v) + rest, code) == if Truthy(v) then v else None
  {
    if !Truthy(v) {
      assert SubIf(code, v) + rest == rest;
    }
  }

  /** The parent's `url`, looked up only when there is a parent. */
  function ParentUrl(post: Post): (r: Result<Option<string>>)
    ensures r.Err? <==> post.isPartOf.Some? && "url" !in post.isPartOf.value
    ensures r.Ok? ==> r.value == if post.isPartOf.Some? then post.isPartOf.value["url"] else None
  {
    if post.isPartOf.Some? then PackageGet(post.isPartOf.value, "url") else Ok(None)
  }

  // ---------------------------------------------------------------------
  // subordinate records

  /** One record of `create_subordinate_records`, with `f008` as its 008
      value. A `null` full title cannot be sliced; a parent record without
      a 246 or 856 field makes the lookup raise `KeyError`. */
  function SubRecord(parent: MarcRecord, sub: Package, f008: string): (r: Result<MarcRecord>)
    ensures r.Err? <==> ("title_full" in sub && sub["title_full"].None?) ||
                        FirstTagged(parent, "246").None? ||
                        ("url" in sub && FirstTagged(parent, "856").None?)
    ensures r.Ok? && "title_full" in sub ==>
              |r.value| >= 5 && r.value[2] == Control("008", f008) &&
              Truncated("245", "0", "0", sub["title_full"].value) in r.value
    ensures r.Ok? && Truthy(RecordSub(parent, "246", "a").value) ==>
              Data("490", "0", "0", [Subfield("a", RecordSub(parent, "246", "a").value)]) in r.value
    ensures r.Ok? && "url" in sub ==>
              Data("856", "0", "0", [Subfield("u", sub["url"])] +
                                    SubIf("a", RecordSub(parent, "856", "a").value) +
                                    SubIf("d", RecordSub(parent, "856", "u").value)) in r.value
  {
    var head :- SubHead(sub, f008);
    var series :- RecordSub(parent, "246", "a");
    var f490 := FieldIf("490", "0", "0", "a", series);
    var f856 :- Sub856(parent, sub);
    assert "title_full" in sub ==> (head + f490 + f856)[..5] == head;
    Ok(head + f490 + f856)
  }

  /** The control fields, 245 and the open access note of an issue record;
      nothing when the issue has no full title, and a `null` one cannot be
      sliced. */
  function SubHead(sub: Package, f008: string): (r: Result<MarcRecord>)
    ensures r.Err? <==> "title_full" in sub && sub["title_full"].None?
    ensures r.Ok? && "title_full" !in sub ==> r.value == []
    ensures r.Ok? && "title_full" in sub ==>
              |r.value| == 5 &&
              r.value[..2] == [Control("006", "m"), Control("007", "cr")] &&
              r.value[2] == Control("008", f008) &&
              r.value[3] == Truncated("245", "0", "0", sub["title_full"].value) &&
              r.value[4] == OpenAccess
  {
    if "title_full" in sub then
      if sub["title_full"].None? then Err(TypeError)
      else Ok([Control("006", "m"), Control("007", "cr"), Control("008", f008),
               Truncated("245", "0", "0", sub["title_full"].value), OpenAccess])
    else Ok([])
  }

  /** The 856 of an issue record: the issue's URL, then the journal's
      domain and URL read from the journal's 856. */
  function Sub856(parent: MarcRecord, sub: Package): (r: Result<seq<MarcField>>)
    ensures r.Err? <==> "url" in sub && FirstTagged(parent, "856").None?
    ensures r.Ok? && "url" !in sub ==> r.value == []
    ensures r.Ok? && "url" in sub ==>
              r.value == [Data("856", "0", "0", [Subfield("u", sub["url"])] +
                                                SubIf("a", RecordSub(parent, "856", "a").value) +
                                                SubIf("d", RecordSub(parent, "856", "u").value))]
  {
    if "url" in sub then
      var pa :- RecordSub(parent, "856", "a");
      var pu := RecordSub(parent, "856", "u").value;
      Ok([Data("856", "0", "0", [Subfield("u", sub["url"])] + SubIf("a", pa) + SubIf("d", pu))])
    else Ok([])
  }

  /** The records for the whole list, in order; the first failure
      propagates. */
  function SubRecords(parent: MarcRecord, subs: seq<Package>, f008: string): (r: Result<seq<MarcRecord>>)
    ensures r.Ok? ==> |r.value| == |subs|
    ensures r.Ok? ==> forall i :: 0 <= i < |subs| ==> SubRecord(parent, subs[i], f008) == Ok(r.value[i])
    ensures r.Err? <==> exists i :: 0 <= i < |subs| && SubRecord(parent, subs[i], f008).Err?
  {
    if |subs| == 0 then Ok([])
    else
      var first := SubRecord(parent, subs[0], f008);
      if first.Err? then Err(first.error)
      else
        var rest := SubRecords(parent, subs[1..], f008);
        assert forall i :: 0 < i < |subs| ==> subs[i] == subs[1..][i - 1];
        if rest.Err? then Err(rest.error)
        else Ok([first.value] + rest.value)
  }

  // ---------------------------------------------------------------------
  // json_to_marc

  /** What `json_to_marc` writes for a post: the journal record, then the
      subordinate records, or the exception raised while building them
      (the journal record is already written by then). */
  datatype Written = Written(record: MarcRecord, subordinates: Result<seq<MarcRecord>>)

  /** The subordinate 008 value as written: `'languages' in parent_record`
      asks a `pymarc` record for a field tagged `languages`, which it never
      holds, so the default is always used. */
  function Sub008AsWritten(parent: MarcRecord): (r: string)
    ensures |r| == |Default008| && Language008(r) == "eng"
  {
    Default008Facts();
    Default008
  }

  /** The subordinate 008 value as the comment beside it describes: the
      parent record's own 008 value. */
  function Sub008(parent: MarcRecord): (r: string)
    ensures FirstTagged(parent, "008").Some? && FirstTagged(parent, "008").value.Control? ==>
              r == FirstTagged(parent, "008").value.data
  {
    match FirstTagged(parent, "008")
    case Some(Control(_, data)) => data
    case _ => Default008
  }

  /** The journal record once the URL check has passed: the leading
      fields, 856, and 866 for a truthy volume. */
  function JournalRecord(post: Post): (r: Result<MarcRecord>)
    ensures r.Err? <==> Leading(post).Err? || (post.isPartOf.Some? && "url" !in post.isPartOf.value)
    ensures r.Ok? ==> Leading(post).value <= r.value
    ensures r.Ok? ==> Field856(post, ParentUrl(post).value) in r.value
    ensures r.Ok? && Truthy(post.volume) ==> Data("866", "0", "0", [Subfield("a", post.volume)]) in r.value
    ensures r.Ok? ==> forall f :: f in r.value && f.tag == "856" ==> f == Field856(post, ParentUrl(post).value)
    ensures r.Ok? ==> forall f :: f in r.value && f.tag == "246" ==>
              (Truthy(post.title) && f == Truncated("246", "0", "0", post.title.value))
    ensures r.Ok? && Truthy(post.title) ==> Truncated("246", "0", "0", post.title.value) in r.value
  {
    var leading :- Leading(post);
    var pu :- ParentUrl(post);
    var record := leading + [Field856(post, pu)] + FieldIf("866", "0", "0", "a", post.volume);
    assert record[|leading|] == Field856(post, pu);
    Ok(record)
  }

  /** When every field with the tag is `g`, `pymarc` finds `g` if the
      record holds it and nothing otherwise. */
  lemma OnlyTagged(rec: MarcRecord, tag: string, g: MarcField)
    requires forall f :: f in rec && f.tag == tag ==> f == g
    requires g in rec ==> g.tag == tag
    ensures FirstTagged(rec, tag) == if g in rec then Some(g) else None
  {
  }

  /** The journal record's only 856 field is the one built for it. */
  lemma Journal856(post: Post)
    requires JournalRecord(post).Ok?
    ensures FirstTagged(JournalRecord(post).value, "856") == Some(Field856(post, ParentUrl(post).value))
  {
    OnlyTagged(JournalRecord(post).value, "856", Field856(post, ParentUrl(post).value));
  }

  /** The journal record has a 246 field exactly when the post's title is
      truthy, and it holds that title. */
  lemma Journal246(post: Post)
    requires JournalRecord(post).Ok?
    ensures FirstTagged(JournalRecord(post).value, "246") ==
              if Truthy(post.title) then Some(Truncated("246", "0", "0", post.title.value)) else None
  {
    if Truthy(post.title) {
      OnlyTagged(JournalRecord(post).value, "246", Truncated("246", "0", "0", post.title.value));
    }
  }

  /** The journal record starts with its 006, 007 and 008 fields. */
  lemma Journal008At(post: Post)
    requires JournalRecord(post).Ok?
    ensures |JournalRecord(post).value| > 2
    ensures JournalRecord(post).value[..3] ==
              [Control("006", "m"), Control("007", "cr"), Control("008", Field008(post.languages).value)]
  {
    var leading := Leading(post).value;
    assert JournalRecord(post).value[..3] == leading[..3];
  }

  /** The first field with a tag is the first position holding it. */
  lemma {:induction false} FirstTaggedAt(rec: MarcRecord, tag: string, k: nat)
    requires k < |rec| && rec[k].tag == tag && forall j :: 0 <= j < k ==> rec[j].tag != tag
    ensures FirstTagged(rec, tag) == Some(rec[k])
  {
    if k > 0 {
      FirstTaggedAt(rec[1..], tag, k - 1);
    }
  }

  /** The journal record's 008 field is the one `pymarc` finds. */
  lemma Journal008(post: Post)
    requires JournalRecord(post).Ok?
    ensures FirstTagged(JournalRecord(post).value, "008") == Some(Control("008", Field008(post.languages).value))
  {
    Journal008At(post);
    Head008(JournalRecord(post).value, Field008(post.languages).value);
  }

  lemma Head008(rec: MarcRecord, v: string)
    requires |rec| > 2 && rec[..3] == [Control("006", "m"), Control("007", "cr"), Control("008", v)]
    ensures FirstTagged(rec, "008") == Some(Control("008", v))
  {
    assert rec[0] == rec[..3][0] && rec[1] == rec[..3][1] && rec[2] == rec[..3][2];
    FirstTaggedAt(rec, "008", 2);
  }

  /** Read back through `pymarc`, the journal record gives the post's
      URL, domain and parent URL in 856, its title (cut) in 246, and the
      language of its first language in 008. */
  lemma JournalLookups(post: Post)
    requires JournalRecord(post).Ok?
    ensures RecordSub(JournalRecord(post).value, "856", "u") == Ok(if Truthy(post.url) then post.url else None)
    ensures RecordSub(JournalRecord(post).value, "856", "a") == Ok(if Truthy(post.domain) then post.domain else None)
    ensures RecordSub(JournalRecord(post).value, "856", "d") ==
              Ok(if post.isPartOf.Some? && Truthy(post.isPartOf.value["url"]) then post.isPartOf.value["url"] else None)
    ensures RecordSub(JournalRecord(post).value, "246", "a") ==
              if Truthy(post.title) then Ok(Some(Take(post.title.value, MaxValue))) else Err(KeyError)
    ensures Sub008(JournalRecord(post).value) == Field008(post.languages).value
  {
    Journal856(post);
    Journal246(post);
    Journal008(post);
  }

  /** `json_to_marc`, the subordinate 008 value as written or corrected.
      Nothing is written when neither the post nor its parent has a URL;
      with a `null` subordinate list the loop reads a variable never
      bound. */
  function JsonToMarcWith(post: Post, asWritten: bool): (r: Result<Option<Written>>)
    ensures r.Err? <==> JournalRecord(post).Err?
    ensures r.Ok? ==> (r.value.Some? <==> Truthy(post.url) || (post.isPartOf.Some? && Truthy(post.isPartOf.value["url"])))
    ensures r.Ok? && r.value.Some? ==> r.value.value.record == JournalRecord(post).value
    ensures r.Ok? && r.value.Some? && post.subordinates.None? ==> r.value.value.subordinates == Err(NameError)
    ensures r.Ok? && r.value.Some? && post.subordinates.Some? ==>
              r.value.value.subordinates ==
                SubRecords(r.value.value.record, post.subordinates.value,
                           if asWritten then Sub008AsWritten(r.value.value.record) else Sub008(r.value.value.record))
  {
    var leading :- Leading(post);
    var parentUrl :- if Truthy(post.url) then Ok(None) else ParentUrl(post);
    if !Truthy(post.url) && !Truthy(parentUrl) then Ok(None)
    else
      var record :- JournalRecord(post);
      var f008 := if asWritten then Sub008AsWritten(record) else Sub008(record);
      var subs := if post.subordinates.None? then Err(NameError)
                  else SubRecords(record, post.subordinates.value, f008);
      Ok(Some(Written(record, subs)))
  }

  function JsonToMarcAsWritten(post: Post): Result<Option<Written>> {
    JsonToMarcWith(post, true)
  }

  function JsonToMarc(post: Post): Result<Option<Written>> {
    JsonToMarcWith(post, false)
  }

  /** A run that wrote the journal record and all its subordinate
      records. */
  predicate WroteAll(post: Post, asWritten: bool) {
    var r := JsonToMarcWith(post, asWritten);
    r.Ok? && r.value.Some? && r.value.value.subordinates.Ok? && post.subordinates.Some?
  }

  /** Each subordinate record links back to the journal: 490 carries the
      journal's title, 856 the issue's URL with the journal's domain and
      URL, and 008 the value chosen for subordinate records. */
  lemma {:induction false} SubordinateLinks(post: Post, asWritten: bool, i: nat)
    requires WroteAll(post, asWritten) && i < |post.subordinates.value|
    ensures var rec := JsonToMarcWith(post, asWritten).value.value.subordinates.value[i];
            var sub := post.subordinates.value[i];
            Truthy(post.title) &&
            Data("490", "0", "0", [Subfield("a", Some(Take(post.title.value, MaxValue)))]) in rec &&
            ("url" in sub ==>
               Data("856", "0", "0", [Subfield("u", sub["url"])] + SubIf("a", post.domain) + SubIf("d", post.url)) in rec) &&
            ("title_full" in sub ==>
               |rec| > 2 && rec[2] == Control("008", if asWritten then Default008 else Field008(post.languages).value))
  {
    var w := JsonToMarcWith(post, asWritten).value.value;
    assert w.record == JournalRecord(post).value;
    var f008 := if asWritten then Sub008AsWritten(w.record) else Sub008(w.record);
    JournalLookups(post);
    assert f008 == if asWritten then Default008 else Field008(post.languages).value;
    assert SubRecord(w.record, post.subordinates.value[i], f008) == Ok(w.subordinates.value[i]);
    SubRecordLinks(post, post.subordinates.value[i], f008);
  }

  /** One issue record built from the journal record links back to it. */
  lemma SubRecordLinks(post: Post, sub: Package, f008: string)
    requires JournalRecord(post).Ok? && SubRecord(JournalRecord(post).value, sub, f008).Ok?
    ensures var rec := SubRecord(JournalRecord(post).value, sub, f008).value;
            Truthy(post.title) &&
            Data("490", "0", "0", [Subfield("a", Some(Take(post.title.value, MaxValue)))]) in rec &&
            ("url" in sub ==>
               Data("856", "0", "0", [Subfield("u", sub["url"])] + SubIf("a", post.domain) + SubIf("d", post.url)) in rec) &&
            ("title_full" in sub ==> |rec| > 2 && rec[2] == Control("008", f008))
  {
    var parent := JournalRecord(post).value;
    JournalLookups(post);
    assert Truthy(post.title);
    var series := Some(Take(post.title.value, MaxValue));
    assert RecordSub(parent, "246", "a") == Ok(series);
    assert |series.value| > 0;
    SubIfTruthy("a", post.domain);
    SubIfTruthy("d", post.url);
  }

  /** Only truthy values give a subfield, so blanking the others changes nothing. */
  lemma SubIfTruthy(code: string, v: Option<string>)
    ensures SubIf(code, if Truthy(v) then v else None) == SubIf(code, v)
  {
  }

  /** With a subordinate list, the subordinate records fail exactly when
      the journal has no truthy title (its record then lacks the 246 field
      they read) or some entry's full title is `null`. */
  lemma SubordinatesFail(post: Post, asWritten: bool)
    requires JsonToMarcWith(post, asWritten).Ok? && JsonToMarcWith(post, asWritten).value.Some?
    requires post.subordinates.Some?
    ensures var subs := post.subordinates.value;
            JsonToMarcWith(post, asWritten).value.value.subordinates.Err? <==>
              |subs| > 0 && (!Truthy(post.title) ||
                             exists i :: 0 <= i < |subs| && "title_full" in subs[i] && subs[i]["title_full"].None?)
  {
    Journal246(post);
    Journal856(post);
  }

  /** As written, a subordinate record of a journal in any language other
      than English still says English in 008. */
  lemma SubordinateLanguageAsWritten(post: Post, i: nat)
    requires WroteAll(post, true) && i < |post.subordinates.value|
    requires "title_full" in post.subordinates.value[i] && FirstLanguage(post.languages) != "eng"
    ensures var w := JsonToMarcAsWritten(post).value.value;
            w.subordinates.value[i][2] != w.record[2]
  {
    SubordinateLinks(post, true, i);
    Journal008At(post);
    Default008Facts();
  }

  /** Corrected, every subordinate record carries the journal's 008
      value. */
  lemma SubordinateLanguage(post: Post, i: nat)
    requires WroteAll(post, false) && i < |post.subordinates.value|
    requires "title_full" in post.subordinates.value[i]
    ensures var w := JsonToMarc(post).value.value;
            w.subordinates.value[i][2] == w.record[2]
  {
    SubordinateLinks(post, false, i);
    Journal008At(post);
  }

  /** A journal in Arabic: its record says `ara` in 008, while, as
      written, each of its issues says `eng`. */
  lemma ArabicSubordinateAsWritten(post: Post, i: nat)
    requires WroteAll(post, true) && i < |post.subordinates.value|
    requires "title_full" in post.subordinates.value[i] && post.languages == LanguageList([Some("ar")])
    ensures var w := JsonToMarcAsWritten(post).value.value;
            Control("008", Splice008("ara")) in w.record && Control("008", Default008) in w.subordinates.value[i] &&
            Splice008("ara") != Default008
  {
    ArabicCode();
    SubordinateLinks(post, true, i);
    Journal008At(post);
    Default008Facts();
    assert Language008(Splice008("ara")) != Language008(Default008);
  }
}

=== FILE: mods.dfy ===
/** The MODS reader: a walk over the element tree that dispatches on each
    element's local name to a handler appending what it reads to a record.
    The XML parsing is not modelled; the tree is given. */
module Mods {
  import opened Results
  import opened Strings
  import opened Dicts

  /** An element: its tag (possibly `{namespace}name`), its attributes,
      its text and its children. */
  datatype Node = Node(tag: string, attrs: map<string, string>, text: Option<string>, children: seq<Node>)

  /** A value the handlers record: a text, or a coded text with its
      authority. */
  datatype Item = Text(text: Option<string>) | Coded(code: Option<string>, authority: Option<string>)

  /** The dictionary `extract` fills: for each key, the values in the
      order they were read. */
  type Record = Dict<seq<Item>>

  /** `node.get(name)`. */
  function AttrOf(n: Node, name: string): Option<string> {
    if name in n.attrs then Some(n.attrs[name]) else None
  }

  /** `node.tag.split('}')[-1]`. */
  function LocalName(tag: string): (r: string)
    ensures '}' !in r
  {
    var parts := Split(tag, '}');
    parts[|parts| - 1]
  }

  lemma {:induction false} SplitLast(pre: string, c: char, local: string)
    requires c !in local
    ensures var parts := Split(pre + [c] + local, c);
            |parts| >= 2 && parts[|parts| - 1] == local
    decreases |pre|
  {
    var s := pre + [c] + local;
    if |pre| == 0 {
      assert s == [c] + local && s[1..] == local;
      SplitAbsent(local, c);
    } else {
      assert s[1..] == pre[1..] + [c] + local;
      SplitLast(pre[1..], c, local);
    }
  }

  /** The local name is what follows the last `}`, or the whole tag when
      it has none. */
  lemma LocalNameOf(pre: string, local: string)
    requires '}' !in local
    ensures LocalName(pre + "}" + local) == local
    ensures LocalName(local) == local
  {
    SplitLast(pre, '}', local);
    SplitAbsent(local, '}');
  }

  // ---------------------------------------------------------------------
  // append

  /** `append(d, k, v)`: the first value under a key starts its list. */
  function Append(d: Record, k: string, v: Item): (r: Record)
    ensures Get(r, k) == Some(GetList(d, k) + [v])
    ensures GetList(r, k) == GetList(d, k) + [v]
    ensures forall k' :: k' != k ==> Get(r, k') == Get(d, k')
    ensures WellFormed(d) ==> WellFormed(r)
  {
    PutKeepsWellFormed(d, k, GetList(d, k) + [v]);
    Put(d, k, GetList(d, k) + [v])
  }

  lemma PutKeepsWellFormed(d: Record, k: string, v: seq<Item>)
    ensures WellFormed(d) ==> WellFormed(Put(d, k, v))
  {
    if WellFormed(d) {
      PutWellFormed(d, k, v);
    }
  }

  /** The first call for a key creates a one-element list; later calls
      extend it in order. */
  lemma AppendInOrder(d: Record, k: string, v: Item, w: Item)
    requires Get(d, k).None?
    ensures Get(Append(d, k, v), k) == Some([v])
    ensures Get(Append(Append(d, k, v), k, w), k) == Some([v, w])
  {
    assert GetList(d, k) == [];
    assert GetList(Append(d, k, v), k) == [v];
    assert [v] + [w] == [v, w];
  }

  /** Every list of `d` is a prefix of the same key's list in `e`. */
  ghost predicate Extends(d: Record, e: Record) {
    forall k :: GetList(d, k) <= GetList(e, k)
  }

  lemma ExtendsTrans(a: Record, b: Record, c: Record)
    requires Extends(a, b) && Extends(b, c)
    ensures Extends(a, c)
  {
    forall k ensures GetList(a, k) <= GetList(c, k) {
      assert GetList(a, k) <= GetList(b, k);
      assert GetList(b, k) <= GetList(c, k);
    }
  }

  lemma AppendExtends(d: Record, k: string, v: Item)
    ensures Extends(d, Append(d, k, v))
  {
    forall k' ensures GetList(d, k') <= GetList(Append(d, k, v), k') {
      if k' != k {
        assert Get(Append(d, k, v), k') == Get(d, k');
      }
    }
  }

  // ---------------------------------------------------------------------
  // the handlers

  /** `node.text.lower()`: `AttributeError` when the element has no text. */
  function LowerText(n: Node): (r: Result<Item>)
    ensures r.Err? <==> n.text.None?
    ensures r.Ok? ==> r == Ok(Text(Some(Lower(n.text.value))))
  {
    if n.text.None? then Err(AttributeError) else Ok(Text(Some(Lower(n.text.value))))
  }

  /** The key `dateIssued` files a date under, or none for an open end. */
  function DateKey(n: Node): (key: Option<string>)
    ensures key.None? <==> AttrOf(n, "point") == Some("end") && n.text == Some("9999")
    ensures AttrOf(n, "point").None? ==> key == Some("issued_date")
    ensures key.Some? && AttrOf(n, "point").Some? ==> key == Some(AttrOf(n, "point").value + "_date")
  {
    var point := AttrOf(n, "point");
    if point.None? then Some("issued_date")
    else if point.value == "end" && n.text == Some("9999") then None
    else Some(point.value + "_date")
  }

  /** An open-ended date (`point="end"`, `9999`) is the only one dropped;
      every other date is recorded under `issued_date` or `<point>_date`. */
  lemma DateIssuedRecords(d: Record, n: Node)
    requires WellFormed(d)
    ensures Handle(d, "dateIssued", n) == Ok(d) <==> AttrOf(n, "point") == Some("end") && n.text == Some("9999")
  {
    var key := DateKey(n);
    EntryDate(n);
    if key.Some? {
      assert Handle(d, "dateIssued", n) == Ok(Append(d, key.value, Text(n.text)));
      assert |GetList(Handle(d, "dateIssued", n).value, key.value)| == |GetList(d, key.value)| + 1;
    }
  }

  /** `languageTerm`: a coded term keeps its authority. */
  function LanguageItem(n: Node): (v: Item)
    ensures v.Coded? <==> AttrOf(n, "type") == Some("code")
    ensures v.Coded? ==> v.code == n.text && v.authority == AttrOf(n, "authority")
    ensures v.Text? ==> v.text == n.text
  {
    if AttrOf(n, "type") == Some("code") then Coded(n.text, AttrOf(n, "authority")) else Text(n.text)
  }

  /** The key `note` files under: the note type with spaces turned into
      underscores, or `note`. */
  function NoteKey(n: Node): (key: string)
    ensures ' ' !in key
    ensures AttrOf(n, "type").None? ==> key == "note"
    ensures AttrOf(n, "type").Some? ==> |key| == |AttrOf(n, "type").value|
    ensures AttrOf(n, "type").Some? ==>
              var t := AttrOf(n, "type").value;
              forall i :: 0 <= i < |t| ==> key[i] == if t[i] == ' ' then '_' else t[i]
  {
    match AttrOf(n, "type")
    case None => "note"
    case Some(t) =>
      ReplaceOneChar(t, ' ', '_');
      ReplaceRemovesChar(t, ' ', "_");
      Replace(t, " ", "_")
  }

  /** The key `identifier` files under: the identifier type, or
      `identifier`. */
  function IdentifierKey(n: Node): (key: string)
    ensures AttrOf(n, "type").Some? ==> key == AttrOf(n, "type").value
    ensures AttrOf(n, "type").None? ==> key == "identifier"
  {
    match AttrOf(n, "type")
    case None => "identifier"
    case Some(t) => t
  }

  /** The local names with a handler. */
  const Handlers: set<string> := {
    "title", "name", "typeOfResource", "publisher", "frequency", "issuance", "form",
    "extent", "originInfo", "recordCreationDate", "recordChangeDate", "dateIssued",
    "languageTerm", "note", "identifier", "url"}

  /** The module's other names: `getattr` finds them too. They are the
      module's own globals and the attributes a Python 2.7 module object
      has. Calling `__subclasshook__` with any arguments returns
      `NotImplemented`; calling any other of them with `(d, node)` raises
      `TypeError`. */
  const OtherNames: set<string> := ModuleGlobals + ModuleAttributes

  /** The module's functions other than the handlers, and its imports. */
  const ModuleGlobals: set<string> := {
    "extract", "walk", "append", "inspect", "sys", "etree", "objectify"}

  const ModuleAttributes: set<string> := {
    "__name__", "__doc__", "__package__", "__file__", "__builtins__",
    "__class__", "__dict__", "__init__", "__new__", "__repr__", "__str__",
    "__hash__", "__setattr__", "__getattribute__", "__delattr__", "__format__",
    "__reduce__", "__reduce_ex__", "__sizeof__", "__subclasshook__"}

  /** No handler is one of the module's other names. */
  lemma HandlersApart(x: string)
    requires x in OtherNames
    ensures x !in Handlers
  {
    if x in ModuleAttributes {
      AttributesApart(x);
    } else {
      GlobalsApart(x);
    }
  }

  lemma AttributesApart(x: string)
    requires x in ModuleAttributes
    ensures x !in Handlers
  {
    assert x[0] == '_';
  }

  lemma GlobalsApart(x: string)
    requires x in ModuleGlobals
    ensures x !in Handlers
  {
  }

  /** What the handler for `local` files: a key and a value, nothing (an
      open-ended date), or the error it raises. Every handler ends in one
      `append(d, key, value)`. */
  function Entry(local: string, n: Node): (r: Result<Option<(string, Item)>>)
    requires local in Handlers
    ensures r.Err? ==> r.error == Unmodelled || (r.error == AttributeError && n.text.None?)
    ensures r == Ok(None) ==> local == "dateIssued"
  {
    match local
    case "title" => Ok(Some(("title", Text(n.text))))
    case "publisher" => Ok(Some(("publisher", Text(n.text))))
    case "issuance" => Ok(Some(("issuance", Text(n.text))))
    case "url" => Ok(Some(("url", Text(n.text))))
    case "recordCreationDate" => Ok(Some(("record_creation_date", Text(n.text))))
    case "recordChangeDate" => Ok(Some(("record_change_date", Text(n.text))))
    case "typeOfResource" => var v :- LowerText(n); Ok(Some(("type", v)))
    case "frequency" => var v :- LowerText(n); Ok(Some(("frequency", v)))
    case "form" => var v :- LowerText(n); Ok(Some(("form", v)))
    case "extent" => var v :- LowerText(n); Ok(Some(("extent", v)))
    case "dateIssued" =>
      var key := DateKey(n);
      Ok(if key.Some? then Some((key.value, Text(n.text))) else None)
    case "languageTerm" => Ok(Some(("language", LanguageItem(n))))
    case "note" => Ok(Some((NoteKey(n), Text(n.text))))
    case "identifier" => Ok(Some((IdentifierKey(n), Text(n.text))))
    case _ => Err(Unmodelled)
  }

  lemma EntryDate(n: Node)
    ensures "dateIssued" in Handlers
    ensures Entry("dateIssued", n) ==
              Ok(if DateKey(n).Some? then Some((DateKey(n).value, Text(n.text))) else None)
  {
  }

  /** The handler for `local`, applied to `n`. */
  function Handle(d: Record, local: string, n: Node): (r: Result<Record>)
    requires local in Handlers
    ensures r.Ok? ==> r.value == d || exists k, v :: r.value == Append(d, k, v)
    ensures r.Err? ==> r.error == Unmodelled || (r.error == AttributeError && n.text.None?)
  {
    var e :- Entry(local, n);
    if e.Some? then Ok(Append(d, e.value.0, e.value.1)) else Ok(d)
  }

  lemma HandleExtends(d: Record, local: string, n: Node)
    requires local in Handlers
    ensures Handle(d, local, n).Ok? ==> Extends(d, Handle(d, local, n).value)
    ensures Handle(d, local, n).Ok? && WellFormed(d) ==> WellFormed(Handle(d, local, n).value)
  {
    var r := Handle(d, local, n);
    if r.Ok? && r.value != d {
      var k, v :| r.value == Append(d, k, v);
      AppendExtends(d, k, v);
    } else if r.Ok? {
      assert Extends(d, d);
    }
  }

  // ---------------------------------------------------------------------
  // walk

  /** `walk(d, node)`: the handler named by the local name, or else the
      walk over the children. A local name that is another name of the
      module is called as well: `walk` calls itself on the same element
      until the recursion limit, `__subclasshook__` returns without
      walking the children, and the rest raise `TypeError`. */
  function Walk(d: Record, n: Node): (r: Result<Record>)
    ensures r.Ok? ==> Extends(d, r.value)
    ensures r.Ok? && WellFormed(d) ==> WellFormed(r.value)
    decreases n
  {
    var local := LocalName(n.tag);
    if local in Handlers then
      var r := Handle(d, local, n);
      if r.Ok? then HandleExtends(d, local, n); r else r
    else if local == "walk" then Err(RecursionError)
    else if local == "__subclasshook__" then Ok(d)
    else if local in OtherNames then Err(TypeError)
    else WalkAll(d, n.children)
  }

  /** The children walked in order. */
  function WalkAll(d: Record, ns: seq<Node>): (r: Result<Record>)
    ensures r.Ok? ==> Extends(d, r.value)
    ensures r.Ok? && WellFormed(d) ==> WellFormed(r.value)
    decreases ns
  {
    if |ns| == 0 then
      assert Extends(d, d);
      Ok(d)
    else
      var d1 :- Walk(d, ns[0]);
      var r := WalkAll(d1, ns[1..]);
      if r.Ok? then ExtendsTrans(d, d1, r.value); r else r
  }

  /** `extract(mods)` on the parsed tree. */
  function Extract(root: Node): (r: Result<Record>)
    ensures r.Ok? ==> WellFormed(r.value)
  {
    Walk([], root)
  }

  /** An element without a handler is walked through: what it yields is
      what its children yield in order. */
  lemma WalkThrough(d: Record, n: Node)
    requires LocalName(n.tag) !in Handlers && LocalName(n.tag) !in OtherNames
    ensures Walk(d, n) == WalkAll(d, n.children)
  {
  }

  /** An element named like another name of the module records nothing,
      and only `__subclasshook__` lets the walk go on. */
  lemma WalkOtherName(d: Record, n: Node)
    requires LocalName(n.tag) in OtherNames
    ensures Walk(d, n).Ok? <==> LocalName(n.tag) == "__subclasshook__"
    ensures Walk(d, n).Ok? ==> Walk(d, n).value == d
    ensures LocalName(n.tag) == "walk" ==> Walk(d, n) == Err(RecursionError)
  {
    HandlersApart(LocalName(n.tag));
  }

  /** An element with a handler is handed to it. */
  lemma WalkHandled(d: Record, n: Node)
    requires LocalName(n.tag) in Handlers
    ensures Walk(d, n) == Handle(d, LocalName(n.tag), n)
  {
  }

  /** A `languageTerm` element appends its term, coded or plain, to the
      `language` list, and no other key changes. */
  lemma WalkLanguage(d: Record, n: Node)
    requires LocalName(n.tag) == "languageTerm"
    ensures Walk(d, n).Ok?
    ensures Get(Walk(d, n).value, "language") == Some(GetList(d, "language") + [LanguageItem(n)])
    ensures forall k :: k != "language" ==> Get(Walk(d, n).value, k) == Get(d, k)
  {
    EntryLanguage(n);
    WalkHandled(d, n);
  }

  lemma EntryLanguage(n: Node)
    ensures "languageTerm" in Handlers
    ensures Entry("languageTerm", n) == Ok(Some(("language", LanguageItem(n))))
  {
  }

  /** A `dateIssued` element appends its text under its date key, and no
      other key changes; an open end records nothing. */
  lemma WalkDate(d: Record, n: Node)
    requires LocalName(n.tag) == "dateIssued"
    ensures Walk(d, n).Ok?
    ensures DateKey(n).None? ==> Walk(d, n).value == d
    ensures DateKey(n).Some? ==>
              var key := DateKey(n).value;
              && Get(Walk(d, n).value, key) == Some(GetList(d, key) + [Text(n.text)])
              && forall k :: k != key ==> Get(Walk(d, n).value, k) == Get(d, k)
  {
    EntryDate(n);
    WalkHandled(d, n);
  }

  /** A `note` element appends its text under its note key, and no other
      key changes. */
  lemma WalkNote(d: Record, n: Node)
    requires LocalName(n.tag) == "note"
    ensures Walk(d, n).Ok?
    ensures Get(Walk(d, n).value, NoteKey(n)) == Some(GetList(d, NoteKey(n)) + [Text(n.text)])
    ensures forall k :: k != NoteKey(n) ==> Get(Walk(d, n).value, k) == Get(d, k)
  {
    EntryNote(n);
    WalkHandled(d, n);
  }

  lemma EntryNote(n: Node)
    ensures "note" in Handlers
    ensures Entry("note", n) == Ok(Some((NoteKey(n), Text(n.text))))
  {
  }

  /** An `identifier` element appends its text under its identifier type,
      and no other key changes. */
  lemma WalkIdentifier(d: Record, n: Node)
    requires LocalName(n.tag) == "identifier"
    ensures Walk(d, n).Ok?
    ensures Get(Walk(d, n).value, IdentifierKey(n)) == Some(GetList(d, IdentifierKey(n)) + [Text(n.text)])
    ensures forall k :: k != IdentifierKey(n) ==> Get(Walk(d, n).value, k) == Get(d, k)
  {
    EntryIdentifier(n);
    WalkHandled(d, n);
  }

  lemma EntryIdentifier(n: Node)
    ensures "identifier" in Handlers
    ensures Entry("identifier", n) == Ok(Some((IdentifierKey(n), Text(n.text))))
  {
  }

  /** A tree in which no element has a handler or another module name. */
  predicate Plain(n: Node)
    decreases n
  {
    && LocalName(n.tag) !in Handlers && LocalName(n.tag) !in OtherNames
    && forall i :: 0 <= i < |n.children| ==> Plain(n.children[i])
  }

  /** Walking a plain tree records nothing. */
  lemma {:induction false} WalkPlain(d: Record, n: Node)
    requires Plain(n)
    ensures Walk(d, n) == Ok(d)
    decreases n, 1
  {
    WalkAllPlain(d, n.children);
  }

  lemma {:induction false} WalkAllPlain(d: Record, ns: seq<Node>)
    requires forall i :: 0 <= i < |ns| ==> Plain(ns[i])
    ensures WalkAll(d, ns) == Ok(d)
    decreases ns, 0
  {
    if |ns| > 0 {
      WalkPlain(d, ns[0]);
      WalkAllPlain(d, ns[1..]);
    }
  }

  /** A namespaced title element inside a plain wrapper: its text is the
      one value recorded. */
  lemma ExtractTitle(ns: string, wrapper: Node, title: string)
    requires Plain(wrapper.(children := []))
    ensures Extract(wrapper.(children := [Node(ns + "}" + "title", map[], Some(title), [])])) ==
              Ok([("title", [Text(Some(title))])])
  {
    LocalNameOf(ns, "title");
    var t := Node(ns + "}" + "title", map[], Some(title), []);
    var w := wrapper.(children := [t]);
    var empty: Record := [];
    var d1 := Append(empty, "title", Text(Some(title)));
    assert Walk([], t) == Ok(d1);
    assert [t][1..] == [];
    assert WalkAll(d1, []) == Ok(d1);
    assert WalkAll([], [t]) == Ok(d1);
    assert Walk([], w) == WalkAll([], [t]);
    assert Get(empty, "title") == None;
    assert GetList(empty, "title") + [Text(Some(title))] == [Text(Some(title))];
    assert d1 == Put(empty, "title", [Text(Some(title))]);
  }
}

=== FILE: normalize_space.dfy ===
/** `normalize_space`: every run of whitespace becomes one plain space and the
    ends are stripped. */
module NormalizeSpace {
  import opened Results
  import opened Strings

  /** No two whitespace characters stand next to each other. */
  predicate NoDoubleSpace(s: string) {
    forall i :: 0 <= i < |s| - 1 ==> !(IsSpace(s[i]) && IsSpace(s[i + 1]))
  }

  /** The only whitespace character present is the plain space. */
  predicate OnlyPlainSpace(s: string) {
    forall i :: 0 <= i < |s| && IsSpace(s[i]) ==> s[i] == ' '
  }

  /** The text in normal form: what `normalize_space` returns. */
  predicate Normal(s: string) {
    NoEdgeSpace(s) && NoDoubleSpace(s) && OnlyPlainSpace(s)
  }

  /** The non-whitespace characters of `s`, in order. */
  function Visible(s: string): string
    decreases |s|
  {
    if |s| == 0 then ""
    else (if IsSpace(s[0]) then "" else [s[0]]) + Visible(s[1..])
  }

  lemma {:induction false} VisibleAppend(a: string, b: string)
    ensures Visible(a + b) == Visible(a) + Visible(b)
    decreases |a|
  {
    if |a| > 0 {
      assert (a + b)[0] == a[0];
      assert (a + b)[1..] == a[1..] + b;
      VisibleAppend(a[1..], b);
    } else {
      assert a + b == b;
    }
  }

  /** A character that is not whitespace is in the visible text exactly
      when it is in the text. */
  lemma {:induction false} VisibleHas(s: string, c: char)
    requires !IsSpace(c)
    ensures c in Visible(s) <==> c in s
    decreases |s|
  {
    if |s| > 0 {
      VisibleHas(s[1..], c);
      assert s == [s[0]] + s[1..];
    }
  }

  /** Normalising neither adds nor removes a non-whitespace character. */
  lemma NormalizeHas(s: string, c: char)
    requires !IsSpace(c)
    ensures c in Normalize(s) <==> c in s
  {
    VisibleHas(s, c);
    VisibleHas(Normalize(s), c);
  }

  lemma {:induction false} VisibleAllSpace(s: string)
    requires forall i :: 0 <= i < |s| ==> IsSpace(s[i])
    ensures Visible(s) == ""
    decreases |s|
  {
    if |s| > 0 {
      VisibleAllSpace(s[1..]);
    }
  }

  /** The model of `RX.sub(' ', raw)` with `RX = \s+`. */
  function Collapse(s: string): (r: string)
    ensures (|r| > 0 && IsSpace(r[0])) <==> (|s| > 0 && IsSpace(s[0]))
    ensures |r| == 0 <==> |s| == 0
    decreases |s|
  {
    if |s| == 0 then ""
    else if IsSpace(s[0]) then [' '] + Collapse(TrimStart(s[1..]))
    else [s[0]] + Collapse(s[1..])
  }

  /** `s` is a run of whitespace followed by `TrimStart(s)`, so both show the
      same characters. */
  lemma TrimStartVisible(s: string)
    ensures Visible(TrimStart(s)) == Visible(s)
  {
    var t := TrimStart(s);
    var lead := s[..|s| - |t|];
    VisibleAllSpace(lead);
    assert s == lead + t;
    VisibleAppend(lead, t);
  }

  /** Collapsing leaves single plain spaces and keeps every other character. */
  lemma {:induction false} CollapseProps(s: string)
    ensures OnlyPlainSpace(Collapse(s)) && NoDoubleSpace(Collapse(s))
    ensures Visible(Collapse(s)) == Visible(s)
    ensures Words(Collapse(s)) == Words(s)
    decreases |s|
  {
    CollapseWords(s);
    if |s| > 0 {
      VisibleCons(s[0], s[1..]);
      assert s == [s[0]] + s[1..];
      if IsSpace(s[0]) {
        var rest := TrimStart(s[1..]);
        CollapseProps(rest);
        TrimStartVisible(s[1..]);
        ConsSpacing(' ', Collapse(rest));
        VisibleCons(' ', Collapse(rest));
      } else {
        CollapseProps(s[1..]);
        ConsSpacing(s[0], Collapse(s[1..]));
        VisibleCons(s[0], Collapse(s[1..]));
      }
    }
  }

  lemma VisibleCons(x: char, c: string)
    ensures Visible([x] + c) == (if IsSpace(x) then "" else [x]) + Visible(c)
  {
    assert ([x] + c)[1..] == c;
  }

  /** Putting a character in front of well-spaced text keeps it well spaced,
      unless it makes a second space or brings in other whitespace. */
  lemma ConsSpacing(x: char, c: string)
    requires OnlyPlainSpace(c) && NoDoubleSpace(c)
    requires IsSpace(x) ==> x == ' ' && (|c| == 0 || !IsSpace(c[0]))
    ensures OnlyPlainSpace([x] + c) && NoDoubleSpace([x] + c)
  {
    var r := [x] + c;
    assert forall i :: 1 <= i < |r| ==> r[i] == c[i - 1];
  }

  /** `s` is `TrimEnd(s)` followed by a run of whitespace. */
  lemma TrimEndVisible(s: string)
    ensures Visible(TrimEnd(s)) == Visible(s)
  {
    var r := TrimEnd(s);
    var tail := s[|r|..];
    VisibleAllSpace(tail);
    assert s == r + tail;
    VisibleAppend(r, tail);
  }

  lemma StripVisible(s: string)
    ensures Visible(Strip(s)) == Visible(s)
  {
    TrimStartVisible(s);
    TrimEndVisible(TrimStart(s));
  }

  lemma InfixKeepsSpacing(r: string, s: string)
    requires IsInfix(r, s) && NoDoubleSpace(s) && OnlyPlainSpace(s)
    ensures NoDoubleSpace(r) && OnlyPlainSpace(r)
  {
    var a, b :| 0 <= a <= b <= |s| && r == s[a..b];
    assert forall i :: 0 <= i < |r| ==> r[i] == s[a + i];
  }

  /** `normalize_space(raw)` on a `str`. */
  function Normalize(s: string): (r: string)
    ensures r == Join(Words(s), " ")
    ensures Normal(r)
    ensures Visible(r) == Visible(s)
    ensures r == "" <==> forall i :: 0 <= i < |s| ==> IsSpace(s[i])
  {
    NormalizeProps(s);
    NormalizeJoins(s);
    Strip(Collapse(s))
  }

  /** The normal form is the input's words joined by single spaces. */
  lemma NormalizeJoins(s: string)
    ensures Strip(Collapse(s)) == Join(Words(s), " ")
  {
    NormalizeProps(s);
    CollapseWords(s);
    WordsStrip(Collapse(s));
    NormalJoinsWords(Strip(Collapse(s)));
  }

  lemma NormalizeProps(s: string)
    ensures Normal(Strip(Collapse(s)))
    ensures Visible(Strip(Collapse(s))) == Visible(s)
    ensures Strip(Collapse(s)) == "" <==> forall i :: 0 <= i < |s| ==> IsSpace(s[i])
  {
    var c := Collapse(s);
    CollapseProps(s);
    StripProps(c);
    InfixKeepsSpacing(Strip(c), c);
    StripVisible(c);
    if Strip(c) == "" && exists i :: 0 <= i < |s| && !IsSpace(s[i]) {
      var i :| 0 <= i < |s| && !IsSpace(s[i]);
      VisibleNonEmpty(s, i);
    }
    if Strip(c) != "" {
      var k :| 0 <= k < |Strip(c)| && !IsSpace(Strip(c)[k]) by {
        assert !IsSpace(Strip(c)[0]);
      }
      VisibleNonEmpty(Strip(c), k);
      if forall i :: 0 <= i < |s| ==> IsSpace(s[i]) {
        VisibleAllSpace(s);
      }
    }
  }

  lemma {:induction false} VisibleNonEmpty(s: string, i: nat)
    requires i < |s| && !IsSpace(s[i])
    ensures Visible(s) != ""
    decreases i
  {
    if i > 0 {
      VisibleNonEmpty(s[1..], i - 1);
    }
  }

  /** `normalize_space(raw)` for a value of any type: anything but text raises
      TypeError. */
  function NormalizeValue(v: PyValue): (r: Result<string>)
    ensures v.PyOther? <==> r == Err(TypeError)
    ensures v.PyStr? ==> r.Ok? && Normal(r.value) && Visible(r.value) == Visible(v.s)
  {
    match v
    case PyStr(s) => Ok(Normalize(s))
    case PyOther => Err(TypeError)
  }

  /** Collapsing changes nothing in text whose whitespace is already single
      plain spaces. */
  lemma {:induction false} CollapseFixed(s: string)
    requires NoDoubleSpace(s) && OnlyPlainSpace(s)
    ensures Collapse(s) == s
    decreases |s|
  {
    if |s| > 0 {
      if IsSpace(s[0]) {
        assert s[0] == ' ';
        assert |s| == 1 || !IsSpace(s[1]);
        assert TrimStart(s[1..]) == s[1..];
        CollapseFixed(s[1..]);
        assert s == [' '] + s[1..];
      } else {
        CollapseFixed(s[1..]);
        assert s == [s[0]] + s[1..];
      }
    }
  }

  /** Text already in normal form is its own normalisation. */
  lemma NormalFixed(s: string)
    requires Normal(s)
    ensures Normalize(s) == s
  {
    CollapseFixed(s);
    StripIdentity(s);
  }

  /** Normalising twice is the same as normalising once. */
  lemma NormalizeIdempotent(s: string)
    ensures Normalize(Normalize(s)) == Normalize(s)
  {
    NormalFixed(Normalize(s));
  }

  /** Two texts with single plain spaces stay so when joined, unless a space
      ends the first and another starts the second. */
  lemma SpacingConcat(x: string, y: string)
    requires NoDoubleSpace(x) && OnlyPlainSpace(x)
    requires NoDoubleSpace(y) && OnlyPlainSpace(y)
    requires |x| == 0 || |y| == 0 || !IsSpace(x[|x| - 1]) || !IsSpace(y[0])
    ensures NoDoubleSpace(x + y) && OnlyPlainSpace(x + y)
  {
    var t := x + y;
    forall i | 0 <= i < |t| - 1
      ensures !(IsSpace(t[i]) && IsSpace(t[i + 1]))
    {
      if i + 1 < |x| {
        assert t[i] == x[i] && t[i + 1] == x[i + 1];
      } else if i >= |x| {
        assert t[i] == y[i - |x|] && t[i + 1] == y[i - |x| + 1];
      }
    }
  }

  /** Normal parts joined by `" "` or `". "` give normal text, empty exactly
      when there is no part. */
  lemma {:induction false} JoinNormal(ks: seq<string>, sep: string)
    requires sep == " " || sep == ". "
    requires forall k :: k in ks ==> k != "" && Normal(k)
    ensures Normal(Join(ks, sep))
    ensures Join(ks, sep) == "" <==> |ks| == 0
    decreases |ks|
  {
    if |ks| > 1 {
      var init := ks[..|ks| - 1];
      var last := ks[|ks| - 1];
      assert forall k :: k in init ==> k in ks;
      assert last in ks;
      JoinNormal(init, sep);
      var a := Join(init, sep);
      assert !IsSpace(a[|a| - 1]) && !IsSpace(last[0]);
      assert !IsSpace('.');
      SpacingConcat(a, sep);
      SpacingConcat(a + sep, last);
      var t := a + sep + last;
      assert Join(ks, sep) == t;
      assert t[0] == a[0] && t[|t| - 1] == last[|last| - 1];
    } else if |ks| == 1 {
      assert ks[0] in ks;
    }
  }

  /** A space in front of nonempty normal text is stripped again. */
  lemma NormalizeSpaced(k: string)
    requires k != "" && Normal(k)
    ensures Normalize(" " + k) == k
  {
    SpacingConcat(" ", k);
    CollapseFixed(" " + k);
    assert (" " + k)[1..] == k;
    assert TrimStart(" " + k) == TrimStart(k) == k;
  }

  // ---------------------------------------------------------------------
  // Words survive normalisation
  // ---------------------------------------------------------------------

  lemma {:induction false} WordsAllSpace(b: string)
    requires forall i :: 0 <= i < |b| ==> IsSpace(b[i])
    ensures Words(b) == []
    decreases |b|
  {
    if |b| > 0 {
      WordsAllSpace(b[1..]);
    }
  }

  lemma {:induction false} WordsTrimStart(t: string)
    ensures Words(TrimStart(t)) == Words(t)
    decreases |t|
  {
    if |t| > 0 && IsSpace(t[0]) {
      WordsTrimStart(t[1..]);
    }
  }

  /** Trailing whitespace adds no word. */
  lemma {:induction false} WordsSpaceTail(a: string, b: string)
    requires forall i :: 0 <= i < |b| ==> IsSpace(b[i])
    ensures Words(a + b) == Words(a)
    decreases |a|
  {
    if |a| == 0 {
      assert a + b == b;
      WordsAllSpace(b);
    } else {
      assert (a + b)[1..] == a[1..] + b;
      WordsSpaceTail(a[1..], b);
      if |a| == 1 && |b| > 0 {
        assert (a + b)[1] == b[0];
      }
    }
  }

  lemma WordsTrimEnd(t: string)
    ensures Words(TrimEnd(t)) == Words(t)
  {
    var r := TrimEnd(t);
    var tail := t[|r|..];
    assert forall i :: 0 <= i < |tail| ==> tail[i] == t[|r| + i];
    assert t == r + tail;
    WordsSpaceTail(r, tail);
  }

  lemma WordsStrip(t: string)
    ensures Words(Strip(t)) == Words(t)
  {
    WordsTrimStart(t);
    WordsTrimEnd(TrimStart(t));
  }

  /** Collapsing whitespace runs keeps the words: a run between two words
      becomes one space and never vanishes. */
  lemma {:induction false} CollapseWords(s: string)
    ensures Words(Collapse(s)) == Words(s)
    decreases |s|
  {
    if |s| > 0 {
      if IsSpace(s[0]) {
        var rest := TrimStart(s[1..]);
        CollapseWords(rest);
        WordsTrimStart(s[1..]);
        WordsSpace(Collapse(rest));
      } else {
        CollapseWords(s[1..]);
        var c := Collapse(s[1..]);
        assert Collapse(s) == [s[0]] + c;
        assert ([s[0]] + c)[1..] == c;
      }
    }
  }

  /** Normal text is its words joined by single spaces. */
  lemma {:induction false} NormalJoinsWords(r: string)
    requires Normal(r)
    ensures r == Join(Words(r), " ")
    decreases |r|
  {
    var w := Run(r, c => !IsSpace(c));
    if |w| == |r| {
      if |r| > 0 {
        assert w == r;
        WordsAlone(r);
      }
    } else {
      assert r[0] == w[0];
      var rest := r[|w| + 1..];
      assert r[|w|] == ' ';
      assert r == w + " " + rest;
      assert |rest| > 0 && rest[0] == r[|w| + 1] && rest[|rest| - 1] == r[|r| - 1];
      assert forall i :: 0 <= i < |rest| ==> rest[i] == r[|w| + 1 + i];
      NormalJoinsWords(rest);
      WordsCons(w, rest);
      JoinCons(w, Words(rest), " ");
    }
  }

  /** The words of the normal form are the words of the input. */
  lemma NormalizeWords(s: string)
    ensures Words(Normalize(s)) == Words(s)
  {
    WordsJoin(Words(s));
  }
}

=== FILE: resource.dfy ===
/** The `Resource` record, its summary package, its provenance log, and the
    field-by-field merge of two records describing the same resource.

    A Python `Resource` is an object whose `__dict__` holds 33 attributes;
    here it is a map from `Field` to `Value` that holds every field with a
    value of the field's kind. */
module Resources {
  import opened Results
  import opened Strings
  import opened Dicts

  /** A summary of a resource (`title_full`, `url`, sometimes `title`), or
      any string-keyed record a caller stores in its place, such as a parent
      package carrying an `issn`. */
  type Summary = map<string, Option<string>>

  /** One provenance entry: `resource_date` and `fields` are present only
      when they were given. */
  datatype ProvEntry = ProvEntry(
    term: string,
    when: string,
    resource: string,
    resourceDate: Option<string>,
    fields: Option<seq<string>>)

  /** An identifier family (`issn`, `isbn`, ...): either a plain list of
      values or a dictionary from identifier type (`electronic`, `generic`)
      to values. */
  datatype IdFamily = Flat(values: seq<string>) | Variants(variants: Dict<seq<string>>)

  datatype Field =
    | Authors | Contributors | Description | Domain | Editors | EndDate | Extent
    | Form | Frequency | Identifiers | IsPartOf | Issue | Issuance | IssuedDates
    | Keywords | Languages | Places | Provenance | Publishers | RelatedResources
    | Responsibility | StartDate | SubordinateResources | Title | TitleAlternates
    | TitleExtended | Type | Url | UrlAlternates | Volume | Year | ZenonId | ZoteroId

  /** The Python attribute name of a field. */
  function Name(f: Field): string {
    match f
    case Authors => "authors"
    case Contributors => "contributors"
    case Description => "description"
    case Domain => "domain"
    case Editors => "editors"
    case EndDate => "end_date"
    case Extent => "extent"
    case Form => "form"
    case Frequency => "frequency"
    case Identifiers => "identifiers"
    case IsPartOf => "is_part_of"
    case Issue => "issue"
    case Issuance => "issuance"
    case IssuedDates => "issued_dates"
    case Keywords => "keywords"
    case Languages => "languages"
    case Places => "places"
    case Provenance => "provenance"
    case Publishers => "publishers"
    case RelatedResources => "related_resources"
    case Responsibility => "responsibility"
    case StartDate => "start_date"
    case SubordinateResources => "subordinate_resources"
    case Title => "title"
    case TitleAlternates => "title_alternates"
    case TitleExtended => "title_extended"
    case Type => "type"
    case Url => "url"
    case UrlAlternates => "url_alternates"
    case Volume => "volume"
    case Year => "year"
    case ZenonId => "zenon_id"
    case ZoteroId => "zotero_id"
  }

  const AllFields: seq<Field> := [
    Authors, Contributors, Description, Domain, Editors, EndDate, Extent,
    Form, Frequency, Identifiers, IsPartOf, Issue, Issuance, IssuedDates,
    Keywords, Languages, Places, Provenance, Publishers, RelatedResources,
    Responsibility, StartDate, SubordinateResources, Title, TitleAlternates,
    TitleExtended, Type, Url, UrlAlternates, Volume, Year, ZenonId, ZoteroId]

  lemma AllFieldsComplete(f: Field)
    ensures f in AllFields
  {
  }

  /** How `merge` reconciles a field, in the order its branches test them. */
  datatype Policy =
    | Link            // `url`
    | Parent          // `is_part_of`
    | Scalar          // `volume`, `year`, `zenon_id`, `issue`, `zotero_id`
    | LanguageUnion   // `languages`
    | IdentifierUnion // `identifiers`
    | ChildList       // `subordinate_resources`, `related_resources`
    | Concat          // `provenance`
    | Union           // every other list
    | Prefer          // every other text

  function PolicyOf(f: Field): Policy {
    match f
    case Url => Link
    case IsPartOf => Parent
    case Volume | Year | ZenonId | Issue | ZoteroId => Scalar
    case Languages => LanguageUnion
    case Identifiers => IdentifierUnion
    case SubordinateResources | RelatedResources => ChildList
    case Provenance => Concat
    case Authors | Contributors | Editors | Keywords | Places | Publishers
       | Responsibility | TitleAlternates | UrlAlternates => Union
    case Description | Domain | EndDate | Extent | Form | Frequency | Issuance
       | IssuedDates | StartDate | Title | TitleExtended | Type => Prefer
  }

  /** The value of one attribute. */
  datatype Value =
    | Text(text: Option<string>)
    | Texts(items: seq<string>)
    | Ids(ids: Dict<IdFamily>)
    | Part(part: Option<Summary>)
    | Kids(kids: seq<Summary>)
    | Log(entries: seq<ProvEntry>)

  /** The value has the shape the field holds. */
  predicate KindOk(f: Field, v: Value) {
    match PolicyOf(f)
    case Link | Scalar | Prefer => v.Text?
    case Parent => v.Part?
    case LanguageUnion | Union => v.Texts?
    case IdentifierUnion => v.Ids?
    case ChildList => v.Kids?
    case Concat => v.Log?
  }

  /** Every field present, each with a value of its kind. */
  predicate Complete(attrs: map<Field, Value>) {
    (forall f :: f in attrs) && forall f :: f in attrs ==> KindOk(f, attrs[f])
  }

  datatype Resource = Resource(attrs: map<Field, Value>)

  predicate Valid(r: Resource) {
    Complete(r.attrs)
  }

  /** `None`, `[]` or `{}`. */
  predicate Blank(v: Value) {
    match v
    case Text(t) => t.None?
    case Texts(xs) => |xs| == 0
    case Ids(d) => |d| == 0
    case Part(p) => p.None?
    case Kids(ks) => |ks| == 0
    case Log(es) => |es| == 0
  }

  function Default(f: Field): (v: Value)
    ensures KindOk(f, v) && Blank(v)
  {
    match PolicyOf(f)
    case Link | Scalar | Prefer => Text(None)
    case Parent => Part(None)
    case LanguageUnion | Union => Texts([])
    case IdentifierUnion => Ids([])
    case ChildList => Kids([])
    case Concat => Log([])
  }

  /** `Resource()`: every attribute `None` or empty. */
  function NewResource(): (r: Resource)
    ensures Valid(r)
    ensures forall f :: Blank(r.attrs[f])
  {
    forall f ensures f in AllFields { AllFieldsComplete(f); }
    Resource(map f | f in AllFields :: Default(f))
  }

  /** The text held by a text field. */
  function TextOf(r: Resource, f: Field): Option<string>
    requires Valid(r) && PolicyOf(f) in {Link, Scalar, Prefer}
  {
    r.attrs[f].text
  }

  /** The attribute `f` of a record: its value, or the blank value of the
      field's kind if the record lacks it (which a valid record never does). */
  function Attr(r: Resource, f: Field): (v: Value)
    ensures Valid(r) ==> v == r.attrs[f]
  {
    if f in r.attrs then r.attrs[f] else Default(f)
  }

  /** The strings of a list value, or none for any other value. */
  function ItemsOf(v: Value): seq<string> {
    if v.Texts? then v.items else []
  }

  /** The strings held by a list field. */
  function ItemsAt(r: Resource, f: Field): seq<string> {
    ItemsOf(Attr(r, f))
  }

  /** The children held by a child-list field. */
  function KidsAt(r: Resource, f: Field): seq<Summary> {
    if Attr(r, f).Kids? then Attr(r, f).kids else []
  }

  /** The entries of a log value, or none for any other value. */
  function EntriesOf(v: Value): seq<ProvEntry> {
    if v.Log? then v.entries else []
  }

  /** The entries of the provenance log. */
  function LogOf(r: Resource): seq<ProvEntry> {
    EntriesOf(Attr(r, Provenance))
  }

  // ---------------------------------------------------------------------
  // package() and set_provenance()

  /** `package()` as written: it reads `extended_title`, an attribute no
      resource has, so the `AttributeError` handler always takes `title`. */
  function PackageAsWritten(r: Resource): (p: Summary)
    requires Valid(r)
    ensures p.Keys == {"title_full", "url"}
    ensures p["title_full"] == TextOf(r, Title) && p["url"] == TextOf(r, Url)
  {
    map["title_full" := TextOf(r, Title), "url" := TextOf(r, Url)]
  }

  /** `package()` reading `title_extended`, as its fallback evidently means:
      the full title is the extended one when there is one, and the short
      title is added only when it differs. */
  function Package(r: Resource): (p: Summary)
    requires Valid(r)
    ensures "title_full" in p && "url" in p && p.Keys <= {"title_full", "title", "url"}
    ensures p["url"] == TextOf(r, Url)
    ensures TextOf(r, TitleExtended).Some? ==> p["title_full"] == TextOf(r, TitleExtended)
    ensures TextOf(r, TitleExtended).None? ==> p["title_full"] == TextOf(r, Title)
    ensures "title" in p <==> p["title_full"] != TextOf(r, Title)
    ensures "title" in p ==> p["title"] == TextOf(r, Title)
  {
    var full := if TextOf(r, TitleExtended).Some? then TextOf(r, TitleExtended) else TextOf(r, Title);
    var p := map["title_full" := full, "url" := TextOf(r, Url)];
    if full != TextOf(r, Title) then p["title" := TextOf(r, Title)] else p
  }

  /** The written package never carries `title`, whatever the resource. */
  lemma PackageAsWrittenDropsTitle(r: Resource)
    requires Valid(r)
    ensures "title" !in PackageAsWritten(r)
    ensures TextOf(r, TitleExtended).Some? && TextOf(r, TitleExtended) != TextOf(r, Title) ==>
              "title" in Package(r) && PackageAsWritten(r) != Package(r)
  {
    assert "title" != "title_full" && "title" != "url";
  }

  /** The two agree exactly when there is no extended title, or it equals
      the title. */
  lemma PackageAgreement(r: Resource)
    requires Valid(r)
    ensures PackageAsWritten(r) == Package(r) <==>
              TextOf(r, TitleExtended).None? || TextOf(r, TitleExtended) == TextOf(r, Title)
  {
    if PackageAsWritten(r) == Package(r) {
      assert Package(r)["title_full"] == TextOf(r, Title);
    }
  }

  /** A package reads nothing but the title, the extended title and the
      URL. */
  lemma PackageSameTexts(r1: Resource, r2: Resource)
    requires Valid(r1) && Valid(r2)
    requires TextOf(r1, Title) == TextOf(r2, Title) && TextOf(r1, TitleExtended) == TextOf(r2, TitleExtended)
    requires TextOf(r1, Url) == TextOf(r2, Url)
    ensures PackageAsWritten(r1) == PackageAsWritten(r2) && Package(r1) == Package(r2)
  {
  }

  /** Which `package()` a caller gets: the method as written, or as its
      fallback evidently means. */
  datatype PackageReading = WrittenPackage | IntendedPackage

  function PackageBy(reading: PackageReading, r: Resource): (p: Summary)
    requires Valid(r)
  {
    match reading
    case WrittenPackage => PackageAsWritten(r)
    case IntendedPackage => Package(r)
  }

  /** `PROVENANCE_VERBS`. */
  const ProvenanceVerbs: map<string, string> := map[
    "citesAsMetadataDocument" := "http://purl.org/spar/cito/citesAsMetadataDocument",
    "citesAsDataSource" := "http://purl.org/spar/cito/citesAsDataSource",
    "hasWorkflowMotif" := "http://purl.org/net/wf-motifs#hasWorkflowMotif",
    "Combine" := "http://purl.org/net/wf-motifs#Combine"]

  /** `r.set_provenance(obj, verb, object_date, fields)`, with the clock
      reading `when` passed in. An unknown verb raises `KeyError`; `fields`
      is stored as a list whenever it is given. */
  function SetProvenance(r: Resource, obj: string, verb: string, objectDate: Option<string>,
                         fields: Option<seq<string>>, when: string): (r': Result<Resource>)
    requires Valid(r)
    ensures r'.Err? <==> verb !in ProvenanceVerbs
    ensures r'.Err? ==> r'.error == KeyError
    ensures r'.Ok? ==> Valid(r'.value)
    ensures r'.Ok? ==> forall f :: f != Provenance ==> r'.value.attrs[f] == r.attrs[f]
    ensures r'.Ok? ==> var log := LogOf(r'.value);
              |log| == |LogOf(r)| + 1 &&
              log[..|log| - 1] == LogOf(r) &&
              log[|log| - 1] == ProvEntry(ProvenanceVerbs[verb], when, obj, objectDate, fields)
  {
    if verb !in ProvenanceVerbs then Err(KeyError)
    else
      var entry := ProvEntry(ProvenanceVerbs[verb], when, obj, objectDate, fields);
      var log := r.attrs[Provenance].entries + [entry];
      assert log[..|log| - 1] == r.attrs[Provenance].entries;
      Ok(Resource(r.attrs[Provenance := Log(log)]))
  }

  // ---------------------------------------------------------------------
  // merge(): one field at a time

  /** A merged value and whether the field counts as modified. */
  datatype Merged<T> = Merged(value: T, modified: bool)

  /** Two texts (`description`, `title`, ...): some data beats none; a text
      that contains the other wins; otherwise the longer, and r2's on a tie. */
  function MergeText(a: Option<string>, b: Option<string>): (m: Merged<Option<string>>)
    ensures m.value == a || m.value == b
    ensures m.modified <==> a != b
    ensures a.Some? || b.Some? ==> m.value.Some?
    ensures a.Some? && b.Some? ==> |a.value| <= |m.value.value| && |b.value| <= |m.value.value|
    ensures a.Some? && b.Some? && (Contains(a.value, b.value) || Contains(b.value, a.value)) ==>
              Contains(m.value.value, a.value) && Contains(m.value.value, b.value)
  {
    if a.None? && b.None? then Merged(None, false)
    else if a.None? then Merged(b, true)
    else if b.None? then Merged(a, true)
    else if |a.value| == 0 && |b.value| == 0 then Merged(a, false)
    else if a == b then ContainsSelf(a.value); Merged(a, false)
    else if Contains(b.value, a.value) then
      ContainsLength(b.value, a.value); ContainsSelf(b.value); Merged(b, true)
    else if Contains(a.value, b.value) then
      ContainsLength(a.value, b.value); ContainsSelf(a.value); Merged(a, true)
    else if |a.value| > |b.value| then Merged(a, true)
    else Merged(b, true)
  }

  /** The argument order matters only on the tie: two texts of the same
      length, neither containing the other. */
  lemma MergeTextOrder(a: Option<string>, b: Option<string>)
    ensures MergeText(a, b).value != MergeText(b, a).value <==>
              a.Some? && b.Some? && a != b && |a.value| == |b.value| &&
              !Contains(a.value, b.value) && !Contains(b.value, a.value)
  {
    if a.Some? && b.Some? && a != b {
      if Contains(b.value, a.value) && Contains(a.value, b.value) {
        ContainsLength(b.value, a.value);
        ContainsLength(a.value, b.value);
        ContainsSameLength(b.value, a.value);
      }
      if Contains(b.value, a.value) && |a.value| == |b.value| {
        ContainsSameLength(b.value, a.value);
      }
      if Contains(a.value, b.value) && |a.value| == |b.value| {
        ContainsSameLength(a.value, b.value);
      }
    }
  }

  /** The identity fields: equal or one-sided values are kept, two different
      values raise `ValueError`. */
  function MergeScalar(a: Option<string>, b: Option<string>): (r: Result<Merged<Option<string>>>)
    ensures r.Ok? <==> a.None? || b.None? || a == b
    ensures r.Err? ==> r.error == ValueError
    ensures r.Ok? ==> (r.value.modified <==> a != b)
    ensures r.Ok? ==> r.value.value == (if a.Some? then a else b)
  {
    if a.None? && b.None? then Ok(Merged(None, false))
    else if a.None? then Ok(Merged(b, true))
    else if b.None? then Ok(Merged(a, true))
    else if a == b then Ok(Merged(a, false))
    else Err(ValueError)
  }

  /** `u` is `scheme + "://" + path`. */
  predicate Scheme(u: string, scheme: string, path: string) {
    u == scheme + "://" + path
  }

  /** The merged URL and, when one URL extends the other, the longer one to
      record among the alternates. */
  datatype UrlMerge = UrlMerge(url: Option<string>, alternate: Option<string>)

  /** The `url` field. Equal values (both `None` included) are kept. Otherwise
      a missing r1 URL raises `AttributeError` (`None.startswith`) and a
      missing r2 URL `TypeError`; when one starts with the other the shorter
      is kept and the longer becomes an alternate; when both split on `://`
      into the same path and one scheme is `https`, the `https` URL is built;
      anything else raises `ValueError`. */
  function MergeUrl(a: Option<string>, b: Option<string>): (r: Result<UrlMerge>)
    ensures a == b ==> r == Ok(UrlMerge(a, None))
    ensures a != b && a.None? ==> r == Err(AttributeError)
    ensures a != b && a.Some? && b.None? ==> r == Err(TypeError)
    ensures r.Err? ==> r.error in {AttributeError, TypeError, ValueError}
    ensures a.Some? && b.Some? && r.Err? ==> r.error == ValueError
    ensures a.Some? && b.Some? && a != b && StartsWith(a.value, b.value) ==> r == Ok(UrlMerge(b, a))
    ensures a.Some? && b.Some? && a != b && !StartsWith(a.value, b.value) && StartsWith(b.value, a.value) ==>
              r == Ok(UrlMerge(a, b))
    ensures a.Some? && b.Some? && !StartsWith(a.value, b.value) && !StartsWith(b.value, a.value) ==>
              var p1, p2 := SplitOn(a.value, "://"), SplitOn(b.value, "://");
              if |p1| == 2 && |p2| == 2 && p1[1] == p2[1] && (p1[0] == "https" || p2[0] == "https")
              then r == Ok(UrlMerge(Some("https://" + p1[1]), None))
              else r == Err(ValueError)
    ensures r.Ok? && r.value.alternate.Some? ==>
              a.Some? && b.Some? && r.value.url.Some? &&
              multiset{r.value.url.value, r.value.alternate.value} == multiset{a.value, b.value} &&
              StartsWith(r.value.alternate.value, r.value.url.value)
    ensures r.Ok? && a != b && r.value.alternate.None? ==>
              a.Some? && b.Some? &&
              exists s1, s2, path :: Scheme(a.value, s1, path) && Scheme(b.value, s2, path) &&
                (s1 == "https" || s2 == "https") && r.value.url == Some("https://" + path)
  {
    if a == b then Ok(UrlMerge(a, None))
    else if a.None? then Err(AttributeError)
    else if b.None? then Err(TypeError)
    else if StartsWith(a.value, b.value) then Ok(UrlMerge(b, a))
    else if StartsWith(b.value, a.value) then Ok(UrlMerge(a, b))
    else
      var p1 := SplitOn(a.value, "://");
      var p2 := SplitOn(b.value, "://");
      if |p1| != 2 || |p2| != 2 then Err(ValueError)
      else if p1[1] == p2[1] && (p1[0] == "https" || p2[0] == "https") then
        JoinSplitOn(a.value, "://");
        JoinSplitOn(b.value, "://");
        JoinTwo(p1[0], p1[1], "://");
        JoinTwo(p2[0], p2[1], "://");
        assert p1 == [p1[0], p1[1]] && p2 == [p2[0], p2[1]];
        assert Scheme(a.value, p1[0], p1[1]) && Scheme(b.value, p2[0], p2[1]);
        Ok(UrlMerge(Some("https://" + p1[1]), None))
      else Err(ValueError)
  }

  lemma MergeUrlPrefixExample()
    ensures MergeUrl(Some("http://a.org/x/"), Some("http://a.org/x")) ==
              Ok(UrlMerge(Some("http://a.org/x"), Some("http://a.org/x/")))
  {
    assert "http://a.org/x/"[..14] == "http://a.org/x";
  }

  /** Whether a package's `url` contains the domain: `domain in p['url']`,
      which raises `KeyError` without a `url` key and `TypeError` when either
      side is `None`. */
  function DomainTest(domain: Option<string>, p: Summary): (r: Result<bool>)
    ensures r.Err? ==> r.error in {KeyError, TypeError}
    ensures r.Err? && r.error == KeyError <==> "url" !in p
    ensures r == Ok(true) <==> "url" in p && p["url"].Some? && domain.Some? && Contains(p["url"].value, domain.value)
  {
    if "url" !in p then Err(KeyError)
    else if p["url"].None? || domain.None? then Err(TypeError)
    else Ok(Contains(p["url"].value, domain.value))
  }

  /** `is_part_of`: a parent whose URL lies in r1's domain wins, r1's first;
      then a parent that alone has an ISSN; otherwise the field is cleared. */
  function MergePart(domain: Option<string>, a: Option<Summary>, b: Option<Summary>): (r: Result<Merged<Option<Summary>>>)
    ensures a.None? || b.None? || a == b ==> r == Ok(Merged(if a.Some? then a else b, a != b))
    ensures r.Ok? ==> (r.value.modified <==> a != b)
    ensures r.Err? ==> r.error in {KeyError, TypeError}
    ensures r.Ok? && a.Some? && b.Some? && a != b ==>
              if r.value.value == a then
                DomainTest(domain, a.value) == Ok(true) || ("issn" in a.value && "issn" !in b.value)
              else if r.value.value == b then
                DomainTest(domain, b.value) == Ok(true) || ("issn" in b.value && "issn" !in a.value)
              else
                r.value.value.None? &&
                DomainTest(domain, a.value) == Ok(false) && DomainTest(domain, b.value) == Ok(false) &&
                ("issn" in a.value <==> "issn" in b.value)
    ensures a.Some? && b.Some? && a != b && DomainTest(domain, a.value) == Ok(true) ==> r == Ok(Merged(a, true))
    ensures (a.Some? && b.Some? && a != b && DomainTest(domain, a.value) == Ok(false) &&
             DomainTest(domain, b.value) == Ok(true)) ==> r == Ok(Merged(b, true))
    ensures a.Some? && b.Some? && a != b ==>
              (r.Err? <==> DomainTest(domain, a.value).Err? ||
                           (DomainTest(domain, a.value) == Ok(false) && DomainTest(domain, b.value).Err?))
    ensures r.Err? ==> a.Some? && b.Some? &&
                       r.error == if DomainTest(domain, a.value).Err? then DomainTest(domain, a.value).error
                                  else DomainTest(domain, b.value).error
  {
    if a.None? && b.None? then Ok(Merged(None, false))
    else if a.None? then Ok(Merged(b, true))
    else if b.None? then Ok(Merged(a, true))
    else if a == b then Ok(Merged(a, false))
    else
      var inA :- DomainTest(domain, a.value);
      if inA then Ok(Merged(a, true))
      else
        var inB :- DomainTest(domain, b.value);
        if inB then Ok(Merged(b, true))
        else if "issn" in a.value && "issn" !in b.value then Ok(Merged(a, true))
        else if "issn" in b.value && "issn" !in a.value then Ok(Merged(b, true))
        else Ok(Merged(None, true))
  }

  /** A list field: an empty side yields the other unchanged, two non-empty
      sides their union (`list(set(v1 + v2))`). */
  function MergeList(a: seq<string>, b: seq<string>): (m: Merged<seq<string>>)
    ensures forall x :: x in m.value <==> x in a || x in b
    ensures m.modified <==> |a| > 0 || |b| > 0
    ensures |a| == 0 ==> m.value == b
    ensures |b| == 0 ==> m.value == a
    ensures |a| > 0 && |b| > 0 ==> NoDuplicates(m.value)
  {
    if |a| == 0 && |b| == 0 then Merged([], false)
    else if |a| == 0 then Merged(b, true)
    else if |b| == 0 then Merged(a, true)
    else Merged(Dedup(a + b), true)
  }

  // ---------------------------------------------------------------------
  // identifiers

  predicate IsFlat(t: Option<IdFamily>) {
    t.Some? && t.value.Flat?
  }

  /** What `list.extend` takes from a family: a flat list's values, or a
      dictionary's keys (iterating a dictionary yields its keys). */
  function Elems(t: Option<IdFamily>): seq<string> {
    match t
    case None => []
    case Some(Flat(vs)) => vs
    case Some(Variants(d)) => Keys(d)
  }

  /** Two variant dictionaries merged type by type, each type's values
      unioned. */
  function MergeVariants(d1: Dict<seq<string>>, d2: Dict<seq<string>>): (r: Dict<seq<string>>)
    ensures WellFormed(r)
    ensures forall t :: t in Keys(r) <==> t in Keys(d1) || t in Keys(d2)
    ensures forall t, x :: x in GetList(r, t) <==> x in GetList(d1, t) || x in GetList(d2, t)
  {
    var ts := Dedup(Keys(d1) + Keys(d2));
    var g := (t: string) => Dedup(GetList(d1, t) + GetList(d2, t));
    TabulateGet(ts, g, "");
    forall t ensures forall x :: x in GetList(Tabulate(ts, g), t) <==> x in GetList(d1, t) || x in GetList(d2, t) {
      MergeVariantsAt(d1, d2, ts, g, t);
    }
    Tabulate(ts, g)
  }

  lemma MergeVariantsAt(d1: Dict<seq<string>>, d2: Dict<seq<string>>, ts: seq<string>, g: string -> seq<string>, t: string)
    requires ts == Dedup(Keys(d1) + Keys(d2))
    requires forall k :: g(k) == Dedup(GetList(d1, k) + GetList(d2, k))
    ensures forall x :: x in GetList(Tabulate(ts, g), t) <==> x in GetList(d1, t) || x in GetList(d2, t)
  {
    TabulateGet(ts, g, t);
    if t !in ts {
      assert Get(d1, t).None? && Get(d2, t).None?;
    }
  }

  /** One identifier family present on at least one side. If either side is a
      flat list the result is the flat union of both sides' elements;
      otherwise a one-sided dictionary is taken as it is and two are merged
      type by type. */
  function MergeFamily(t1: Option<IdFamily>, t2: Option<IdFamily>): (r: IdFamily)
    requires t1.Some? || t2.Some?
    ensures IsFlat(t1) || IsFlat(t2) ==>
              r.Flat? && forall x :: x in r.values <==> x in Elems(t1) || x in Elems(t2)
    ensures !IsFlat(t1) && !IsFlat(t2) && t1.None? ==> r == t2.value
    ensures !IsFlat(t1) && !IsFlat(t2) && t2.None? ==> r == t1.value
    ensures !IsFlat(t1) && !IsFlat(t2) && t1.Some? && t2.Some? ==>
              r.Variants? &&
              (forall t :: t in Keys(r.variants) <==> t in Keys(t1.value.variants) || t in Keys(t2.value.variants)) &&
              forall t, x :: x in GetList(r.variants, t) <==>
                x in GetList(t1.value.variants, t) || x in GetList(t2.value.variants, t)
  {
    if IsFlat(t1) || IsFlat(t2) then Flat(Dedup(Elems(t1) + Elems(t2)))
    else if t1.None? then t2.value
    else if t2.None? then t1.value
    else Variants(MergeVariants(t1.value.variants, t2.value.variants))
  }

  /** The loop over identifier families, assigning each its merged value. */
  function FoldFamilies(v1: Dict<IdFamily>, v2: Dict<IdFamily>, fams: seq<string>, acc: Dict<IdFamily>): Dict<IdFamily>
    requires forall fam :: fam in fams ==> fam in Keys(v1) || fam in Keys(v2)
    decreases |fams|
  {
    if |fams| == 0 then acc
    else FoldFamilies(v1, v2, fams[1..], Put(acc, fams[0], MergeFamily(Get(v1, fams[0]), Get(v2, fams[0]))))
  }

  lemma {:induction false} FoldFamiliesGet(v1: Dict<IdFamily>, v2: Dict<IdFamily>, fams: seq<string>, acc: Dict<IdFamily>, k: string)
    requires forall fam :: fam in fams ==> fam in Keys(v1) || fam in Keys(v2)
    ensures Get(FoldFamilies(v1, v2, fams, acc), k) ==
              if k in fams then Some(MergeFamily(Get(v1, k), Get(v2, k))) else Get(acc, k)
    decreases |fams|
  {
    if |fams| > 0 {
      var next := Put(acc, fams[0], MergeFamily(Get(v1, fams[0]), Get(v2, fams[0])));
      FoldFamiliesGet(v1, v2, fams[1..], next, k);
      assert k in fams <==> k == fams[0] || k in fams[1..];
    }
  }

  lemma {:induction false} FoldFamiliesWellFormed(v1: Dict<IdFamily>, v2: Dict<IdFamily>, fams: seq<string>, acc: Dict<IdFamily>)
    requires forall fam :: fam in fams ==> fam in Keys(v1) || fam in Keys(v2)
    requires WellFormed(acc)
    ensures WellFormed(FoldFamilies(v1, v2, fams, acc))
    decreases |fams|
  {
    if |fams| > 0 {
      var next := Put(acc, fams[0], MergeFamily(Get(v1, fams[0]), Get(v2, fams[0])));
      PutWellFormed(acc, fams[0], MergeFamily(Get(v1, fams[0]), Get(v2, fams[0])));
      FoldFamiliesWellFormed(v1, v2, fams[1..], next);
    }
  }

  /** `identifiers`: an empty side yields the other; otherwise every family
      of either side is merged by `MergeFamily`. */
  function MergeIdentifiers(v1: Dict<IdFamily>, v2: Dict<IdFamily>): (r: Dict<IdFamily>)
    ensures |v1| == 0 ==> r == v2
    ensures |v2| == 0 ==> r == v1
    ensures |v1| > 0 && |v2| > 0 ==> WellFormed(r)
    ensures |v1| > 0 && |v2| > 0 ==> forall fam ::
              Get(r, fam) == if fam in Keys(v1) || fam in Keys(v2) then Some(MergeFamily(Get(v1, fam), Get(v2, fam))) else None
  {
    if |v1| == 0 then v2
    else if |v2| == 0 then v1
    else
      var fams := Dedup(Keys(v1) + Keys(v2));
      FoldFamiliesWellFormed(v1, v2, fams, []);
      assert forall fam :: Get(FoldFamilies(v1, v2, fams, []), fam) ==
               if fam in fams then Some(MergeFamily(Get(v1, fam), Get(v2, fam))) else None by {
        forall fam { FoldFamiliesGet(v1, v2, fams, [], fam); }
      }
      FoldFamilies(v1, v2, fams, [])
  }

  /** The family loop as written: a dictionary family present on one side
      only replaces everything merged so far by a copy of that whole side. */
  function FoldFamiliesAsWritten(v1: Dict<IdFamily>, v2: Dict<IdFamily>, fams: seq<string>, acc: Dict<IdFamily>): Dict<IdFamily>
    requires forall fam :: fam in fams ==> fam in Keys(v1) || fam in Keys(v2)
    decreases |fams|
  {
    if |fams| == 0 then acc
    else
      var t1 := Get(v1, fams[0]);
      var t2 := Get(v2, fams[0]);
      var next :=
        if IsFlat(t1) || IsFlat(t2) then Put(acc, fams[0], MergeFamily(t1, t2))
        else if t1.None? then v2
        else if t2.None? then v1
        else Put(acc, fams[0], MergeFamily(t1, t2));
      FoldFamiliesAsWritten(v1, v2, fams[1..], next)
  }

  /** `identifiers` as written, over the families in the order `fams` in
      which the set of both sides' family names is iterated. */
  function MergeIdentifiersAsWritten(v1: Dict<IdFamily>, v2: Dict<IdFamily>, fams: seq<string>): (r: Dict<IdFamily>)
    requires NoDuplicates(fams) && forall fam :: fam in fams <==> fam in Keys(v1) || fam in Keys(v2)
    ensures |v1| == 0 ==> r == v2
    ensures |v2| == 0 ==> r == v1
  {
    if |v1| == 0 then v2
    else if |v2| == 0 then v1
    else FoldFamiliesAsWritten(v1, v2, fams, [])
  }

  /** r1's identifiers in the example below: one ISSN. */
  const SampleIds1: Dict<IdFamily> := [("issn", Variants([("generic", ["a"])]))]

  /** r2's identifiers in the example below: another ISSN and an ISBN. */
  const SampleIds2: Dict<IdFamily> :=
    [("issn", Variants([("generic", ["b"])])), ("isbn", Variants([("generic", ["c"])]))]

  lemma SampleIdsKeys()
    ensures Keys(SampleIds1) == ["issn"] && Keys(SampleIds2) == ["issn", "isbn"]
    ensures Get(SampleIds1, "issn") == Some(Variants([("generic", ["a"])])) && Get(SampleIds1, "isbn") == None
    ensures Get(SampleIds2, "issn") == Some(Variants([("generic", ["b"])]))
    ensures Get(SampleIds2, "isbn") == Some(Variants([("generic", ["c"])]))
  {
    assert SampleIds2[1..] == [("isbn", Variants([("generic", ["c"])]))];
  }

  /** Families visited ISSN first: the written loop merges the ISSNs, then
      meets the ISBN on r2 only and returns r2's identifiers whole, so r1's
      ISSN `a` is lost. */
  lemma IdentifiersAsWrittenLoses()
    ensures Keys(SampleIds1) == ["issn"] && Keys(SampleIds2) == ["issn", "isbn"]
    ensures MergeIdentifiersAsWritten(SampleIds1, SampleIds2, ["issn", "isbn"]) == SampleIds2
    ensures "a" !in GetList(Get(SampleIds2, "issn").value.variants, "generic")
  {
    SampleIdsKeys();
    var v1, v2 := SampleIds1, SampleIds2;
    var step := Put([], "issn", MergeFamily(Get(v1, "issn"), Get(v2, "issn")));
    assert ["issn", "isbn"][1..] == ["isbn"];
    assert FoldFamiliesAsWritten(v1, v2, ["issn", "isbn"], []) == FoldFamiliesAsWritten(v1, v2, ["isbn"], step);
    assert FoldFamiliesAsWritten(v1, v2, ["isbn"], step) == FoldFamiliesAsWritten(v1, v2, [], v2);
    assert GetList([("generic", ["b"])], "generic") == ["b"];
  }

  /** The merge keeps r1's ISSN `a` in the same example. */
  lemma IdentifiersKeepSample()
    ensures Get(MergeIdentifiers(SampleIds1, SampleIds2), "issn").Some?
    ensures var t := Get(MergeIdentifiers(SampleIds1, SampleIds2), "issn").value;
            t.Variants? && "a" in GetList(t.variants, "generic")
  {
    SampleIdsKeys();
    var m := MergeIdentifiers(SampleIds1, SampleIds2);
    var t1, t2 := Get(SampleIds1, "issn"), Get(SampleIds2, "issn");
    assert |SampleIds1| > 0 && |SampleIds2| > 0;
    assert "issn" in Keys(SampleIds1);
    assert Get(m, "issn") == Some(MergeFamily(t1, t2));
    assert !IsFlat(t1) && !IsFlat(t2);
    assert GetList(t1.value.variants, "generic") == ["a"];
    assert "a" in GetList(t1.value.variants, "generic");
  }

  // ---------------------------------------------------------------------
  // subordinate_resources and related_resources

  predicate HasUrl(c: Summary) {
    "url" in c
  }

  predicate AllHaveUrl(cs: seq<Summary>) {
    forall i :: 0 <= i < |cs| ==> HasUrl(cs[i])
  }

  /** The `url` of every child. */
  function Urls(cs: seq<Summary>): (us: seq<Option<string>>)
    requires AllHaveUrl(cs)
    ensures |us| == |cs| && forall i :: 0 <= i < |cs| ==> us[i] == cs[i]["url"]
  {
    seq(|cs|, i requires 0 <= i < |cs| => cs[i]["url"])
  }

  /** The child lists as written: concatenated. The de-duplication loop reads
      every child's `url` (a child without one raises `KeyError`) but its
      `del` only unbinds the loop variable, so no child is removed. */
  function MergeChildrenAsWritten(a: seq<Summary>, b: seq<Summary>): (r: Result<Merged<seq<Summary>>>)
    ensures r.Err? <==> !AllHaveUrl(a + b)
    ensures r.Err? ==> r.error == KeyError
    ensures r.Ok? ==> r.value.value == a + b && (r.value.modified <==> |a| > 0 || |b| > 0)
  {
    if !AllHaveUrl(a + b) then Err(KeyError)
    else Ok(Merged(a + b, |a| > 0 || |b| > 0))
  }

  /** The de-duplication the loop evidently means: the first child of each
      URL is kept, in order. */
  function DedupByUrl(cs: seq<Summary>): (r: seq<Summary>)
    requires AllHaveUrl(cs)
    ensures forall c :: c in r ==> c in cs
    ensures AllHaveUrl(r)
    ensures NoDuplicates(Urls(r))
    ensures forall u :: u in Urls(r) <==> u in Urls(cs)
    decreases |cs|
  {
    if |cs| == 0 then []
    else
      var init := cs[..|cs| - 1];
      var last := cs[|cs| - 1];
      var rest := DedupByUrl(init);
      assert Urls(cs) == Urls(init) + [last["url"]];
      if last["url"] in Urls(rest) then rest
      else
        assert Urls(rest + [last]) == Urls(rest) + [last["url"]];
        rest + [last]
  }

  /** Children whose URLs are already distinct are kept as they are. */
  lemma {:induction false} DedupByUrlOfDistinct(cs: seq<Summary>)
    requires AllHaveUrl(cs)
    requires NoDuplicates(Urls(cs))
    ensures DedupByUrl(cs) == cs
    decreases |cs|
  {
    if |cs| > 0 {
      var init := cs[..|cs| - 1];
      var last := cs[|cs| - 1];
      assert Urls(cs) == Urls(init) + [last["url"]];
      NoDuplicatesSnoc(Urls(init), last["url"]);
      DedupByUrlOfDistinct(init);
      assert cs == init + [last];
    }
  }

  /** `subordinate_resources` and `related_resources`: the concatenation with
      later children of an already-seen URL dropped; modified unless both are
      empty. */
  function MergeChildren(a: seq<Summary>, b: seq<Summary>): (r: Result<Merged<seq<Summary>>>)
    ensures r.Err? <==> !AllHaveUrl(a + b)
    ensures r.Err? ==> r.error == KeyError
    ensures r.Ok? ==> (r.value.modified <==> |a| > 0 || |b| > 0)
    ensures r.Ok? ==> forall c :: c in r.value.value ==> c in a || c in b
    ensures r.Ok? ==> AllHaveUrl(r.value.value)
    ensures r.Ok? ==> NoDuplicates(Urls(r.value.value))
    ensures r.Ok? ==> forall u :: u in Urls(r.value.value) <==> u in Urls(a + b)
  {
    if !AllHaveUrl(a + b) then Err(KeyError)
    else Ok(Merged(DedupByUrl(a + b), |a| > 0 || |b| > 0))
  }

  /** Two lists of one child each with the same URL: as written both stay. */
  lemma ChildrenAsWrittenKeepsDuplicates(c: Summary)
    requires HasUrl(c)
    ensures MergeChildrenAsWritten([c], [c]) == Ok(Merged([c, c], true))
    ensures MergeChildren([c], [c]) == Ok(Merged([c], true))
  {
    assert [c] + [c] == [c, c];
    var r := DedupByUrl([c, c]);
    assert [c, c][..1] == [c];
    assert DedupByUrl([c]) == [c] by {
      assert [c][..0] == [];
    }
    assert Urls([c]) == [c["url"]];
  }

  // ---------------------------------------------------------------------
  // merge(): the loop over fields

  /** What one pass of the loop produces: the value stored for the field,
      whether the field is reported as modified, and for `url` the longer
      URL to add to the alternates. */
  datatype Outcome = Outcome(value: Value, modified: bool, alternate: Option<string>)

  /** One field of `merge(r1, r2)`, dispatched as the branches of the loop
      test it. `is_part_of` is judged against r1's `domain`. */
  function MergeField(f: Field, r1: Resource, r2: Resource): (r: Result<Outcome>)
    requires Valid(r1) && Valid(r2)
    ensures r.Ok? ==> KindOk(f, r.value.value)
    ensures r.Ok? && r.value.alternate.Some? ==> f == Url
    ensures r.Ok? && f == Url ==> !r.value.modified
    ensures r.Ok? && (f == Languages || f == Identifiers) ==> r.value.modified
    ensures r.Err? ==> PolicyOf(f) in {Link, Parent, Scalar, ChildList}
  {
    var v1 := r1.attrs[f];
    var v2 := r2.attrs[f];
    match PolicyOf(f)
    case Link =>
      var u :- MergeUrl(v1.text, v2.text);
      Ok(Outcome(Text(u.url), false, u.alternate))
    case Parent =>
      var m :- MergePart(r1.attrs[Domain].text, v1.part, v2.part);
      Ok(Outcome(Part(m.value), m.modified, None))
    case Scalar =>
      var m :- MergeScalar(v1.text, v2.text);
      Ok(Outcome(Text(m.value), m.modified, None))
    case LanguageUnion =>
      Ok(Outcome(Texts(MergeList(v1.items, v2.items).value), true, None))
    case IdentifierUnion =>
      Ok(Outcome(Ids(MergeIdentifiers(v1.ids, v2.ids)), true, None))
    case ChildList =>
      var m :- MergeChildren(v1.kids, v2.kids);
      Ok(Outcome(Kids(m.value), m.modified, None))
    case Concat =>
      Ok(Outcome(Log(v1.entries + v2.entries), false, None))
    case Union =>
      var m := MergeList(v1.items, v2.items);
      Ok(Outcome(Texts(m.value), m.modified, None))
    case Prefer =>
      var m := MergeText(v1.text, v2.text);
      Ok(Outcome(Text(m.value), m.modified, None))
  }

  /** A step yields values of each field's kind and only `url` yields an
      alternate: what `MergeField` guarantees. */
  predicate StepOk(step: Field -> Result<Outcome>) {
    forall f :: step(f).Ok? ==> KindOk(f, step(f).value.value) && (step(f).value.alternate.Some? ==> f == Url)
  }

  /** `MergeField` for the two records, as a function of the field alone. */
  function MergeStep(r1: Resource, r2: Resource): (step: Field -> Result<Outcome>)
    requires Valid(r1) && Valid(r2)
    ensures StepOk(step)
  {
    var step := (f: Field) => MergeField(f, r1, r2);
    assert forall f :: step(f) == MergeField(f, r1, r2);
    step
  }

  lemma MergeStepApply(r1: Resource, r2: Resource)
    requires Valid(r1) && Valid(r2)
    ensures forall f :: MergeStep(r1, r2)(f) == MergeField(f, r1, r2)
  {
  }

  /** The state the loop carries: the new record's attributes, the names of
      the fields marked modified, and URL alternates still to be added. */
  datatype Acc = Acc(attrs: map<Field, Value>, modified: seq<string>, pending: seq<string>)

  function AlternateList(o: Outcome): seq<string> {
    if o.alternate.Some? then [o.alternate.value] else []
  }

  function Record(acc: Acc, f: Field, o: Outcome): Acc {
    Acc(acc.attrs[f := o.value], acc.modified + (if o.modified then [Name(f)] else []), acc.pending + AlternateList(o))
  }

  /** The loop over the fields, stopping at the first field that raises. */
  function Combine(step: Field -> Result<Outcome>, fields: seq<Field>, acc: Acc): Result<Acc>
    decreases |fields|
  {
    if |fields| == 0 then Ok(acc)
    else
      var o :- step(fields[0]);
      Combine(step, fields[1..], Record(acc, fields[0], o))
  }

  /** The loop keeps every field present with a value of its kind. */
  lemma {:induction false} CombineComplete(step: Field -> Result<Outcome>, fields: seq<Field>, acc: Acc)
    requires StepOk(step) && Complete(acc.attrs)
    ensures Combine(step, fields, acc).Ok? ==> Complete(Combine(step, fields, acc).value.attrs)
    decreases |fields|
  {
    if |fields| > 0 && step(fields[0]).Ok? {
      var o := step(fields[0]).value;
      CompleteUpdate(acc.attrs, fields[0], o.value);
      CombineComplete(step, fields[1..], Record(acc, fields[0], o));
    }
  }

  const CombineUri: string := "http://purl.org/net/wf-motifs#Combine"

  /** The order in which `list(set(k1 + k2))` lists the 33 attribute names:
      each field exactly once. */
  predicate IsFieldOrder(order: seq<Field>) {
    NoDuplicates(order) && forall f :: f in order
  }

  /** The loop over the fields in `order` followed by the provenance entry,
      for any step: a URL alternate is added to `url_alternates` after the
      loop, so it survives whichever of the two fields comes first. */
  function MergeWith(step: Field -> Result<Outcome>, order: seq<Field>, when: string): (r: Result<Resource>)
    requires StepOk(step) && IsFieldOrder(order)
    ensures r.Ok? ==> Valid(r.value)
  {
    CombineComplete(step, order, Acc(NewResource().attrs, [], []));
    var acc :- Combine(step, order, Acc(NewResource().attrs, [], []));
    var alts := ItemsOf(acc.attrs[UrlAlternates]) + acc.pending;
    CompleteUpdate(acc.attrs, UrlAlternates, Texts(alts));
    SetProvenance(Resource(acc.attrs[UrlAlternates := Texts(alts)]), CombineUri, "hasWorkflowMotif", None, Some(acc.modified), when)
  }

  /** `merge(r1, r2)`, visiting the fields in `order` and stamping the
      provenance entry with the clock reading `when`. */
  function Merge(r1: Resource, r2: Resource, order: seq<Field>, when: string): (r: Result<Resource>)
    requires Valid(r1) && Valid(r2) && IsFieldOrder(order)
    ensures r.Ok? ==> Valid(r.value)
  {
    MergeWith(MergeStep(r1, r2), order, when)
  }

  lemma CompleteUpdate(attrs: map<Field, Value>, f: Field, v: Value)
    requires Complete(attrs) && KindOk(f, v)
    ensures Complete(attrs[f := v])
  {
  }

  // ---------------------------------------------------------------------
  // what merge() computes, field by field

  predicate AllOk(step: Field -> Result<Outcome>, fields: seq<Field>) {
    forall f :: f in fields ==> step(f).Ok?
  }

  /** The fields among `fields` that a step reports as modified, in order. */
  function ModifiedFields(step: Field -> Result<Outcome>, fields: seq<Field>): seq<Field>
    requires AllOk(step, fields)
    decreases |fields|
  {
    if |fields| == 0 then []
    else
      assert fields[0] in fields;
      assert forall f :: f in fields[1..] ==> f in fields;
      (if step(fields[0]).value.modified then [fields[0]] else []) + ModifiedFields(step, fields[1..])
  }

  /** A field is listed exactly when it is visited and reported modified. */
  lemma {:induction false} ModifiedFieldsMembers(step: Field -> Result<Outcome>, fields: seq<Field>)
    requires AllOk(step, fields)
    ensures forall f :: f in ModifiedFields(step, fields) <==> f in fields && step(f).value.modified
    decreases |fields|
  {
    if |fields| > 0 {
      assert forall f :: f in fields <==> f == fields[0] || f in fields[1..];
      ModifiedFieldsMembers(step, fields[1..]);
    }
  }

  function Names(fs: seq<Field>): (ns: seq<string>)
    ensures |ns| == |fs| && forall i :: 0 <= i < |fs| ==> ns[i] == Name(fs[i])
  {
    seq(|fs|, i requires 0 <= i < |fs| => Name(fs[i]))
  }

  /** The URL alternates the fields produce, in order. */
  function Pending(step: Field -> Result<Outcome>, fields: seq<Field>): seq<string>
    requires AllOk(step, fields)
    decreases |fields|
  {
    if |fields| == 0 then []
    else AlternateList(step(fields[0]).value) + Pending(step, fields[1..])
  }

  lemma {:induction false} CombineOk(step: Field -> Result<Outcome>, fields: seq<Field>, acc: Acc)
    ensures Combine(step, fields, acc).Ok? <==> AllOk(step, fields)
    ensures Combine(step, fields, acc).Err? ==>
              exists f :: f in fields && step(f).Err? && Combine(step, fields, acc).error == step(f).error
    decreases |fields|
  {
    if |fields| > 0 {
      assert forall f :: f in fields <==> f == fields[0] || f in fields[1..];
      if step(fields[0]).Ok? {
        CombineOk(step, fields[1..], Record(acc, fields[0], step(fields[0]).value));
      }
    }
  }

  lemma {:induction false} CombineAttrs(step: Field -> Result<Outcome>, fields: seq<Field>, acc: Acc)
    requires Combine(step, fields, acc).Ok? && AllOk(step, fields)
    ensures forall f :: f in fields || f in acc.attrs ==>
              f in Combine(step, fields, acc).value.attrs &&
              Combine(step, fields, acc).value.attrs[f] == if f in fields then step(f).value.value else acc.attrs[f]
    decreases |fields|
  {
    if |fields| > 0 {
      assert forall f :: f in fields <==> f == fields[0] || f in fields[1..];
      CombineAttrs(step, fields[1..], Record(acc, fields[0], step(fields[0]).value));
    }
  }

  /** The names the loop records as modified, in order. */
  function ModifiedNames(step: Field -> Result<Outcome>, fields: seq<Field>): seq<string>
    requires AllOk(step, fields)
    decreases |fields|
  {
    if |fields| == 0 then []
    else
      assert fields[0] in fields;
      assert forall f :: f in fields[1..] ==> f in fields;
      (if step(fields[0]).value.modified then [Name(fields[0])] else []) + ModifiedNames(step, fields[1..])
  }

  lemma {:induction false} ModifiedNamesAreNames(step: Field -> Result<Outcome>, fields: seq<Field>)
    requires AllOk(step, fields)
    ensures ModifiedNames(step, fields) == Names(ModifiedFields(step, fields))
    decreases |fields|
  {
    if |fields| > 0 {
      assert fields[0] in fields;
      assert AllOk(step, fields[1..]);
      ModifiedNamesAreNames(step, fields[1..]);
      var head := if step(fields[0]).value.modified then [fields[0]] else [];
      var tail := ModifiedFields(step, fields[1..]);
      assert ModifiedFields(step, fields) == head + tail;
      NamesConcat(head, tail);
    }
  }

  lemma {:induction false} CombineModified(step: Field -> Result<Outcome>, fields: seq<Field>, acc: Acc)
    requires AllOk(step, fields) && Combine(step, fields, acc).Ok?
    ensures Combine(step, fields, acc).value.modified == acc.modified + ModifiedNames(step, fields)
    decreases |fields|
  {
    if |fields| > 0 {
      var f0 := fields[0];
      assert f0 in fields;
      var o := step(f0).value;
      var next := Record(acc, f0, o);
      assert Combine(step, fields, acc) == Combine(step, fields[1..], next);
      assert AllOk(step, fields[1..]);
      CombineModified(step, fields[1..], next);
      var head := if o.modified then [Name(f0)] else [];
      var tail := ModifiedNames(step, fields[1..]);
      assert ModifiedNames(step, fields) == head + tail;
      assert acc.modified + head + tail == acc.modified + (head + tail);
    }
  }

  lemma NamesConcat(a: seq<Field>, b: seq<Field>)
    ensures Names(a + b) == Names(a) + Names(b)
  {
  }

  lemma {:induction false} CombinePending(step: Field -> Result<Outcome>, fields: seq<Field>, acc: Acc)
    requires AllOk(step, fields) && Combine(step, fields, acc).Ok?
    ensures Combine(step, fields, acc).value.pending == acc.pending + Pending(step, fields)
    decreases |fields|
  {
    if |fields| > 0 {
      var f0 := fields[0];
      assert f0 in fields;
      var o := step(f0).value;
      var next := Record(acc, f0, o);
      assert Combine(step, fields, acc) == Combine(step, fields[1..], next);
      assert AllOk(step, fields[1..]);
      CombinePending(step, fields[1..], next);
      var tail := Pending(step, fields[1..]);
      assert Pending(step, fields) == AlternateList(o) + tail;
      assert acc.pending + AlternateList(o) + tail == acc.pending + (AlternateList(o) + tail);
    }
  }

  /** Only `url` produces an alternate. */
  lemma {:induction false} PendingOnlyUrl(step: Field -> Result<Outcome>, fields: seq<Field>)
    requires StepOk(step) && AllOk(step, fields) && NoDuplicates(fields)
    ensures Pending(step, fields) == if Url in fields then AlternateList(step(Url).value) else []
    decreases |fields|
  {
    if |fields| > 0 {
      var tail := fields[1..];
      assert forall j :: 0 <= j < |tail| ==> tail[j] == fields[j + 1];
      assert NoDuplicates(tail);
      assert forall f :: f in fields <==> f == fields[0] || f in tail;
      assert fields[0] !in tail;
      PendingOnlyUrl(step, tail);
    }
  }

  /** The provenance entry `merge` appends: the `hasWorkflowMotif` term, the
      `Combine` motif as its resource, no date, and the modified field names. */
  function CombineEntry(when: string, names: seq<string>): ProvEntry {
    ProvEntry("http://purl.org/net/wf-motifs#hasWorkflowMotif", when, CombineUri, None, Some(names))
  }

  lemma MergeWithFails(step: Field -> Result<Outcome>, order: seq<Field>, when: string)
    requires StepOk(step) && IsFieldOrder(order)
    ensures MergeWith(step, order, when).Ok? <==> AllOk(step, order)
    ensures MergeWith(step, order, when).Err? ==>
              exists f :: step(f).Err? && MergeWith(step, order, when).error == step(f).error
  {
    CombineOk(step, order, Acc(NewResource().attrs, [], []));
  }

  /** The loop from a fresh record, when every field merges: each field
      holds its step's value, the modified names and alternates follow the
      order of the fields. */
  lemma CombineFresh(step: Field -> Result<Outcome>, order: seq<Field>)
    requires StepOk(step) && IsFieldOrder(order) && AllOk(step, order)
    ensures Combine(step, order, Acc(NewResource().attrs, [], [])).Ok?
    ensures var acc := Combine(step, order, Acc(NewResource().attrs, [], [])).value;
            (forall f :: f in acc.attrs && acc.attrs[f] == step(f).value.value) &&
            acc.modified == Names(ModifiedFields(step, order)) &&
            acc.pending == AlternateList(step(Url).value)
  {
    var acc0 := Acc(NewResource().attrs, [], []);
    CombineOk(step, order, acc0);
    CombineAttrs(step, order, acc0);
    CombineModified(step, order, acc0);
    ModifiedNamesAreNames(step, order);
    CombinePending(step, order, acc0);
    PendingOnlyUrl(step, order);
  }

  /** `MergeWith` as the record the loop builds, with the alternates
      appended, passed to `SetProvenance`. */
  lemma MergeWithUnfold(step: Field -> Result<Outcome>, order: seq<Field>, when: string)
    requires StepOk(step) && IsFieldOrder(order) && Combine(step, order, Acc(NewResource().attrs, [], [])).Ok?
    requires UrlAlternates in Combine(step, order, Acc(NewResource().attrs, [], [])).value.attrs
    ensures var acc := Combine(step, order, Acc(NewResource().attrs, [], [])).value;
            var alts := ItemsOf(acc.attrs[UrlAlternates]) + acc.pending;
            Complete(acc.attrs[UrlAlternates := Texts(alts)]) &&
            MergeWith(step, order, when) ==
              SetProvenance(Resource(acc.attrs[UrlAlternates := Texts(alts)]), CombineUri, "hasWorkflowMotif", None,
                            Some(acc.modified), when)
  {
    CombineComplete(step, order, Acc(NewResource().attrs, [], []));
    var acc := Combine(step, order, Acc(NewResource().attrs, [], [])).value;
    var alts := ItemsOf(acc.attrs[UrlAlternates]) + acc.pending;
    CompleteUpdate(acc.attrs, UrlAlternates, Texts(alts));
  }

  lemma MergeWithAttrs(step: Field -> Result<Outcome>, order: seq<Field>, when: string)
    requires StepOk(step) && IsFieldOrder(order) && AllOk(step, order)
    ensures MergeWith(step, order, when).Ok?
    ensures forall f :: f != UrlAlternates && f != Provenance ==>
              MergeWith(step, order, when).value.attrs[f] == step(f).value.value
  {
    CombineFresh(step, order);
    MergeWithUnfold(step, order, when);
  }

  lemma MergeWithAlternates(step: Field -> Result<Outcome>, order: seq<Field>, when: string)
    requires StepOk(step) && IsFieldOrder(order) && AllOk(step, order)
    ensures MergeWith(step, order, when).Ok?
    ensures ItemsAt(MergeWith(step, order, when).value, UrlAlternates) ==
              ItemsOf(step(UrlAlternates).value.value) + AlternateList(step(Url).value)
  {
    CombineFresh(step, order);
    MergeWithUnfold(step, order, when);
    var r := MergeWith(step, order, when).value;
    assert r.attrs[UrlAlternates] == Texts(ItemsOf(step(UrlAlternates).value.value) + AlternateList(step(Url).value));
  }

  lemma MergeWithLog(step: Field -> Result<Outcome>, order: seq<Field>, when: string)
    requires StepOk(step) && IsFieldOrder(order) && AllOk(step, order)
    ensures MergeWith(step, order, when).Ok?
    ensures LogOf(MergeWith(step, order, when).value) ==
              EntriesOf(step(Provenance).value.value) + [CombineEntry(when, Names(ModifiedFields(step, order)))]
  {
    CombineFresh(step, order);
    MergeWithUnfold(step, order, when);
    var log := LogOf(MergeWith(step, order, when).value);
    assert log == log[..|log| - 1] + [log[|log| - 1]];
  }

  /** The merge succeeds exactly when every field merges, and otherwise fails
      with the error of a failing field. */
  lemma MergeFails(r1: Resource, r2: Resource, order: seq<Field>, when: string)
    requires Valid(r1) && Valid(r2) && IsFieldOrder(order)
    ensures Merge(r1, r2, order, when).Ok? <==> forall f :: MergeField(f, r1, r2).Ok?
    ensures Merge(r1, r2, order, when).Err? ==>
              exists f :: MergeField(f, r1, r2).Err? && Merge(r1, r2, order, when).error == MergeField(f, r1, r2).error
  {
    MergeStepApply(r1, r2);
    MergeWithFails(MergeStep(r1, r2), order, when);
  }

  /** When every field merges, the merged record stores each field's merged
      value, except for the two fields the merge itself then extends. */
  lemma MergeSpec(r1: Resource, r2: Resource, order: seq<Field>, when: string)
    requires Valid(r1) && Valid(r2) && IsFieldOrder(order)
    requires forall f :: MergeField(f, r1, r2).Ok?
    ensures Merge(r1, r2, order, when).Ok?
    ensures forall f :: f != UrlAlternates && f != Provenance ==>
              Attr(Merge(r1, r2, order, when).value, f) == MergeField(f, r1, r2).value.value
  {
    MergeStepApply(r1, r2);
    MergeWithAttrs(MergeStep(r1, r2), order, when);
  }

  /** `url_alternates` receives the merged list and then the alternate of
      `url`. */
  lemma MergeAlternates(r1: Resource, r2: Resource, order: seq<Field>, when: string)
    requires Valid(r1) && Valid(r2) && IsFieldOrder(order)
    requires forall f :: MergeField(f, r1, r2).Ok?
    ensures Merge(r1, r2, order, when).Ok?
    ensures ItemsAt(Merge(r1, r2, order, when).value, UrlAlternates) ==
              ItemsOf(MergeField(UrlAlternates, r1, r2).value.value) + AlternateList(MergeField(Url, r1, r2).value)
  {
    MergeStepApply(r1, r2);
    MergeWithAlternates(MergeStep(r1, r2), order, when);
  }

  /** The merged log is r1's, then r2's, then one entry for the merge
      itself naming the modified fields. */
  lemma MergeLog(r1: Resource, r2: Resource, order: seq<Field>, when: string)
    requires Valid(r1) && Valid(r2) && IsFieldOrder(order)
    requires Merge(r1, r2, order, when).Ok?
    ensures AllOk(MergeStep(r1, r2), order)
    ensures LogOf(Merge(r1, r2, order, when).value) == LogOf(r1) + LogOf(r2) +
              [CombineEntry(when, Names(ModifiedFields(MergeStep(r1, r2), order)))]
  {
    var step := MergeStep(r1, r2);
    MergeWithFails(step, order, when);
    MergeWithLog(step, order, when);
    ProvenanceField(r1, r2);
    assert step(Provenance) == MergeField(Provenance, r1, r2);
  }

  /** The log field merges by concatenation. */
  lemma ProvenanceField(r1: Resource, r2: Resource)
    requires Valid(r1) && Valid(r2)
    ensures MergeField(Provenance, r1, r2) == Ok(Outcome(Log(LogOf(r1) + LogOf(r2)), false, None))
  {
  }

  /** `url` is never reported as modified; `languages` and `identifiers`
      always are, even when nothing changed. */
  lemma ModifiedNamesFacts(r1: Resource, r2: Resource, order: seq<Field>)
    requires Valid(r1) && Valid(r2) && IsFieldOrder(order)
    requires forall f :: MergeField(f, r1, r2).Ok?
    ensures AllOk(MergeStep(r1, r2), order)
    ensures "url" !in Names(ModifiedFields(MergeStep(r1, r2), order))
    ensures "languages" in Names(ModifiedFields(MergeStep(r1, r2), order))
    ensures "identifiers" in Names(ModifiedFields(MergeStep(r1, r2), order))
  {
    MergeStepApply(r1, r2);
    ModifiedNamesListed(r1, r2, order);
    var ms := ModifiedFields(MergeStep(r1, r2), order);
    ModifiedFieldsMembers(MergeStep(r1, r2), order);
    var ns := Names(ms);
    forall i | 0 <= i < |ns| ensures ns[i] != "url" {
      assert ms[i] in ms;
      NameOfUrl(ms[i]);
    }
    assert MergeField(Languages, r1, r2).value.modified && MergeField(Identifiers, r1, r2).value.modified;
  }

  /** Every field the merge reports as modified is named in the log entry. */
  lemma ModifiedNamesListed(r1: Resource, r2: Resource, order: seq<Field>)
    requires Valid(r1) && Valid(r2) && IsFieldOrder(order)
    requires forall f :: MergeField(f, r1, r2).Ok?
    ensures AllOk(MergeStep(r1, r2), order)
    ensures forall f :: MergeField(f, r1, r2).value.modified ==> Name(f) in Names(ModifiedFields(MergeStep(r1, r2), order))
  {
    MergeStepApply(r1, r2);
    var ms := ModifiedFields(MergeStep(r1, r2), order);
    ModifiedFieldsMembers(MergeStep(r1, r2), order);
    var ns := Names(ms);
    forall f | MergeField(f, r1, r2).value.modified ensures Name(f) in ns {
      assert f in ms;
      var i :| 0 <= i < |ms| && ms[i] == f;
      assert ns[i] == Name(f);
    }
  }

  lemma NameOfUrl(f: Field)
    ensures Name(f) == "url" <==> f == Url
  {
  }

  /** Merging a record with itself succeeds when every child has a URL, and
      keeps every text, scalar, URL and parent. */
  lemma SelfMerge(r: Resource, order: seq<Field>, when: string, f: Field)
    requires Valid(r) && IsFieldOrder(order)
    requires AllHaveUrl(KidsAt(r, SubordinateResources)) && AllHaveUrl(KidsAt(r, RelatedResources))
    requires PolicyOf(f) in {Link, Parent, Scalar, Prefer}
    ensures Merge(r, r, order, when).Ok?
    ensures Attr(Merge(r, r, order, when).value, f) == Attr(r, f)
  {
    SelfMergeOk(r);
    SelfMergeKeeps(r, f);
    MergeSpecAt(r, r, order, when, f);
  }

  lemma MergeSpecAt(r1: Resource, r2: Resource, order: seq<Field>, when: string, f: Field)
    requires Valid(r1) && Valid(r2) && IsFieldOrder(order)
    requires forall g :: MergeField(g, r1, r2).Ok?
    requires f != UrlAlternates && f != Provenance
    ensures Merge(r1, r2, order, when).Ok?
    ensures Attr(Merge(r1, r2, order, when).value, f) == MergeField(f, r1, r2).value.value
  {
    MergeSpec(r1, r2, order, when);
  }

  /** Merging a record with itself still reports `languages` and
      `identifiers` as modified. */
  lemma SelfMergeLog(r: Resource, order: seq<Field>, when: string)
    requires Valid(r) && IsFieldOrder(order)
    requires AllHaveUrl(KidsAt(r, SubordinateResources)) && AllHaveUrl(KidsAt(r, RelatedResources))
    ensures Merge(r, r, order, when).Ok?
    ensures var log := LogOf(Merge(r, r, order, when).value);
            |log| > 0 && log[|log| - 1].fields.Some? &&
            "languages" in log[|log| - 1].fields.value && "identifiers" in log[|log| - 1].fields.value
  {
    SelfMergeOk(r);
    MergeFails(r, r, order, when);
    MergeLog(r, r, order, when);
    ModifiedNamesFacts(r, r, order);
  }

  /** Every field of a record merges with itself when every child has a URL. */
  lemma SelfMergeOk(r: Resource)
    requires Valid(r)
    requires AllHaveUrl(KidsAt(r, SubordinateResources)) && AllHaveUrl(KidsAt(r, RelatedResources))
    ensures forall f :: MergeField(f, r, r).Ok?
  {
    forall f ensures MergeField(f, r, r).Ok? {
      if PolicyOf(f) == ChildList {
        AllHaveUrlTwice(KidsAt(r, f));
      }
    }
  }

  lemma AllHaveUrlTwice(ks: seq<Summary>)
    requires AllHaveUrl(ks)
    ensures AllHaveUrl(ks + ks)
  {
    forall i | 0 <= i < |ks + ks| ensures HasUrl((ks + ks)[i]) {
      if i >= |ks| { assert (ks + ks)[i] == ks[i - |ks|]; }
    }
  }

  /** A text, scalar, URL or parent merged with itself is kept and not
      reported as modified. */
  lemma SelfMergeKeeps(r: Resource, f: Field)
    requires Valid(r) && PolicyOf(f) in {Link, Parent, Scalar, Prefer}
    ensures MergeField(f, r, r) == Ok(Outcome(Attr(r, f), false, None))
  {
  }

  /** Two different values of an identity field (`year`, `volume`, ...) make
      the merge fail. */
  lemma ScalarConflict(r1: Resource, r2: Resource, order: seq<Field>, when: string, f: Field)
    requires Valid(r1) && Valid(r2) && IsFieldOrder(order) && PolicyOf(f) == Scalar
    requires TextOf(r1, f).Some? && TextOf(r2, f).Some? && TextOf(r1, f) != TextOf(r2, f)
    ensures Merge(r1, r2, order, when).Err?
  {
    MergeFails(r1, r2, order, when);
    assert MergeField(f, r1, r2).Err?;
  }

  /** A merged list field holds exactly the elements of both sides. */
  lemma ListUnion(r1: Resource, r2: Resource, order: seq<Field>, when: string, f: Field)
    requires Valid(r1) && Valid(r2) && IsFieldOrder(order)
    requires PolicyOf(f) in {Union, LanguageUnion} && f != UrlAlternates
    requires forall g :: MergeField(g, r1, r2).Ok?
    ensures Merge(r1, r2, order, when).Ok?
    ensures forall x :: x in ItemsAt(Merge(r1, r2, order, when).value, f) <==> x in ItemsAt(r1, f) || x in ItemsAt(r2, f)
  {
    ListFieldUnion(r1, r2, f);
    MergeSpecAt(r1, r2, order, when, f);
  }

  lemma ListFieldUnion(r1: Resource, r2: Resource, f: Field)
    requires Valid(r1) && Valid(r2) && PolicyOf(f) in {Union, LanguageUnion}
    ensures MergeField(f, r1, r2).Ok?
    ensures forall x :: x in ItemsOf(MergeField(f, r1, r2).value.value) <==> x in ItemsAt(r1, f) || x in ItemsAt(r2, f)
  {
  }

  // ---------------------------------------------------------------------
  // merge() as written: the URL alternate is appended inside the loop


  /** One pass as written: the alternate goes straight onto the new
      record's current `url_alternates`. */
  function RecordAsWritten(acc: Acc, f: Field, o: Outcome): Acc
    requires UrlAlternates in acc.attrs
  {
    var attrs := acc.attrs[f := o.value];
    var attrs' := if o.alternate.Some? then attrs[UrlAlternates := Texts(ItemsOf(attrs[UrlAlternates]) + [o.alternate.value])] else attrs;
    Acc(attrs', acc.modified + (if o.modified then [Name(f)] else []), acc.pending)
  }

  function CombineAsWritten(step: Field -> Result<Outcome>, fields: seq<Field>, acc: Acc): (r: Result<Acc>)
    requires StepOk(step) && Complete(acc.attrs)
    ensures r.Ok? ==> Complete(r.value.attrs)
    ensures r.Ok? <==> AllOk(step, fields)
    decreases |fields|
  {
    if |fields| == 0 then Ok(acc)
    else
      assert forall f :: f in fields <==> f == fields[0] || f in fields[1..];
      var o :- step(fields[0]);
      CombineAsWritten(step, fields[1..], RecordAsWritten(acc, fields[0], o))
  }

  /** The loop as written followed by the provenance entry, for any step. */
  function MergeWithAsWritten(step: Field -> Result<Outcome>, order: seq<Field>, when: string): (r: Result<Resource>)
    requires StepOk(step) && IsFieldOrder(order)
    ensures r.Ok? <==> AllOk(step, order)
  {
    var acc :- CombineAsWritten(step, order, Acc(NewResource().attrs, [], []));
    SetProvenance(Resource(acc.attrs), CombineUri, "hasWorkflowMotif", None, Some(acc.modified), when)
  }

  /** `merge(r1, r2)` with its alternates loop as written and every field
      merged as intended, so that this one defect shows on its own; the
      identifier and child-list merges as written are
      `MergeIdentifiersAsWritten` and `MergeChildrenAsWritten`. */
  function MergeAsWritten(r1: Resource, r2: Resource, order: seq<Field>, when: string): (r: Result<Resource>)
    requires Valid(r1) && Valid(r2) && IsFieldOrder(order)
  {
    MergeWithAsWritten(MergeStep(r1, r2), order, when)
  }

  /** Fields that are neither `url` nor `url_alternates` leave
      `url_alternates` alone. */
  lemma {:induction false} AsWrittenUntouched(step: Field -> Result<Outcome>, fields: seq<Field>, acc: Acc)
    requires StepOk(step) && Complete(acc.attrs)
    requires Url !in fields && UrlAlternates !in fields
    requires CombineAsWritten(step, fields, acc).Ok?
    ensures CombineAsWritten(step, fields, acc).value.attrs[UrlAlternates] == acc.attrs[UrlAlternates]
    decreases |fields|
  {
    if |fields| > 0 {
      assert fields[0] in fields;
      AsWrittenUntouched(step, fields[1..], RecordAsWritten(acc, fields[0], step(fields[0]).value));
    }
  }

  /** When no `url` comes after `url_alternates`, the written loop leaves
      `url_alternates` with its own merged value: the alternate is lost. */
  lemma {:induction false} AsWrittenOverwrites(step: Field -> Result<Outcome>, fields: seq<Field>, acc: Acc)
    requires StepOk(step) && Complete(acc.attrs)
    requires NoDuplicates(fields) && UrlAlternates in fields
    requires forall i, j :: 0 <= i < j < |fields| && fields[i] == UrlAlternates ==> fields[j] != Url
    requires CombineAsWritten(step, fields, acc).Ok?
    ensures CombineAsWritten(step, fields, acc).value.attrs[UrlAlternates] == step(UrlAlternates).value.value
    decreases |fields|
  {
    assert fields[0] in fields;
    var next := RecordAsWritten(acc, fields[0], step(fields[0]).value);
    var tail := fields[1..];
    assert forall j :: 0 <= j < |tail| ==> tail[j] == fields[j + 1];
    if fields[0] == UrlAlternates {
      assert UrlAlternates !in tail;
      assert Url !in tail;
      AsWrittenUntouched(step, tail, next);
    } else {
      assert UrlAlternates in tail;
      AsWrittenOverwrites(step, tail, next);
    }
  }

  /** With `url` visited before `url_alternates`, the written loop leaves
      only the merged list in `url_alternates`. */
  lemma AsWrittenLoses(step: Field -> Result<Outcome>, order: seq<Field>, when: string)
    requires StepOk(step) && IsFieldOrder(order) && AllOk(step, order)
    requires forall i, j :: 0 <= i < j < |order| && order[i] == UrlAlternates ==> order[j] != Url
    ensures MergeWithAsWritten(step, order, when).Ok?
    ensures MergeWithAsWritten(step, order, when).value.attrs[UrlAlternates] == step(UrlAlternates).value.value
  {
    AsWrittenOverwrites(step, order, Acc(NewResource().attrs, [], []));
  }

  /** With `url` visited before `url_alternates`, the written merge drops
      the URL that lost to its prefix, which the merge keeps. */
  lemma AlternateLostAsWritten(r1: Resource, r2: Resource, order: seq<Field>, when: string)
    requires Valid(r1) && Valid(r2) && IsFieldOrder(order)
    requires forall f :: MergeField(f, r1, r2).Ok?
    requires forall i, j :: 0 <= i < j < |order| && order[i] == UrlAlternates ==> order[j] != Url
    ensures MergeAsWritten(r1, r2, order, when).Ok? && Merge(r1, r2, order, when).Ok?
    ensures ItemsOf(MergeAsWritten(r1, r2, order, when).value.attrs[UrlAlternates]) ==
              ItemsOf(MergeField(UrlAlternates, r1, r2).value.value)
    ensures ItemsAt(Merge(r1, r2, order, when).value, UrlAlternates) ==
              ItemsOf(MergeField(UrlAlternates, r1, r2).value.value) + AlternateList(MergeField(Url, r1, r2).value)
  {
    MergeAlternates(r1, r2, order, when);
    MergeStepApply(r1, r2);
    AsWrittenLoses(MergeStep(r1, r2), order, when);
  }
}

=== FILE: results.dfy ===
/** Outcome types shared by every module.

    The Python code signals failure by raising; each raising path is modelled
    as an `Err` carrying the class of the exception that would propagate. */
module Results {

  datatype Option<+T> = None | Some(value: T)

  /** The exception classes the modelled code raises (or lets propagate). */
  datatype PyError =
    | TypeError
    | ValueError
    | IndexError
    | KeyError
    | AttributeError
    | NameError
    | NotImplementedError
    | RuntimeError
    | RecursionError
    | Exception        // a bare `raise Exception`
    | Unmodelled       // a handler whose behaviour this model does not describe

  datatype Result<+T> = Ok(value: T) | Err(error: PyError) {
    predicate IsFailure() { Err? }

    function PropagateFailure<U>(): Result<U>
      requires Err?
    {
      Err(error)
    }

    function Extract(): T
      requires Ok?
    {
      value
    }
  }

  /** A Python value handed to a function that insists on text. */
  datatype PyValue = PyStr(s: string) | PyOther
}

=== FILE: routing.dfy ===
/** `AwolParsers`: the bank of parsers and the choice of the parser that
    handles a post. The parsers are found by importing every module of the
    package at start-up; here the bank is the set of domains they declare,
    and a chosen parser is named by its domain. Running the chosen parser
    is the rest of the model. */
module Routing {
  import opened Results
  import opened Strings
  import opened Domains

  /** The domains of the parsers that were loaded. */
  type Registry = set<string>

  const Generic: string := "generic"
  const GenericSingle: string := "generic-single"

  /** Domains without a parser of their own that get the single-resource
      parser. */
  const SingleDomains: seq<string> := ["www.egyptpro.sci.waseda.ac.jp"]

  /** `self.parsers[name]`. */
  function Lookup(registry: Registry, name: string): (r: Result<string>)
    ensures r.Ok? <==> name in registry
    ensures r.Ok? ==> r.value == name
    ensures r.Err? ==> r.error == KeyError
  {
    if name in registry then Ok(name) else Err(KeyError)
  }

  /** A title that marks a post about a single journal. */
  predicate JournalTitle(title: string) {
    Contains(Lower(title), "journal:")
  }

  /** The choice `parse` makes once the domains are known. */
  function Route(registry: Registry, title: string, domains: seq<string>): (r: Result<string>)
    ensures r.Ok? ==> r.value in registry
    ensures r.Ok? ==> |domains| == 1 || (|domains| > 1 && JournalTitle(title) && r.value == GenericSingle)
    ensures r.Ok? ==> r.value == domains[0] || r.value == Generic || r.value == GenericSingle
    ensures r == Err(NotImplementedError) <==> |domains| == 0 || (|domains| > 1 && !JournalTitle(title))
    ensures r.Err? ==> r.error in {NotImplementedError, KeyError}
  {
    if |domains| == 0 then Err(NotImplementedError)
    else if JournalTitle(title) then Lookup(registry, GenericSingle)
    else if |domains| == 1 then
      if domains[0] in registry then Ok(domains[0])
      else if domains[0] in SingleDomains then Lookup(registry, GenericSingle)
      else Lookup(registry, Generic)
    else Err(NotImplementedError)
  }

  /** A post whose title names a journal goes to the single-resource
      parser however many domains it links to. */
  lemma RouteJournal(registry: Registry, title: string, domains: seq<string>)
    requires |domains| > 0 && JournalTitle(title) && GenericSingle in registry
    ensures Route(registry, title, domains) == Ok(GenericSingle)
  {
  }

  /** With one domain and an ordinary title, a parser registered for the
      domain wins; otherwise the single-resource parser for the listed
      domains, and the generic parser for the rest. */
  lemma RouteOneDomain(registry: Registry, title: string, d: string)
    requires !JournalTitle(title) && Generic in registry && GenericSingle in registry
    ensures Route(registry, title, [d]) ==
              Ok(if d in registry then d else if d in SingleDomains then GenericSingle else Generic)
  {
  }

  /** The bank's own state: the soup it was last fed, if any. */
  datatype Bank = Bank(soup: Option<seq<Anchor>>)

  /** `AwolParsers.get_domains(content_soup)`: the generic parser's domain
      list for the soup given, or else the one fed before. With neither it
      raises `AttributeError`; without a generic parser, `KeyError`. */
  function BankDomains(registry: Registry, bank: Bank, soupArg: Option<seq<Anchor>>, generic: ParserState): (r: Result<(Bank, seq<string>)>)
    ensures r.Err? <==> (soupArg.None? && bank.soup.None?) || Generic !in registry
    ensures soupArg.None? && bank.soup.None? ==> r == Err(AttributeError)
    ensures r.Ok? ==> (r.value.0.soup.Some? &&
                       r.value.1 == ComputeDomains(Reset(r.value.0.soup), r.value.0.soup.value))
    ensures r.Ok? && soupArg.Some? ==> r.value.0.soup == soupArg
  {
    if soupArg.None? && bank.soup.None? then Err(AttributeError)
    else
      var bank' := if soupArg.Some? then Bank(soupArg) else bank;
      var _ :- Lookup(registry, Generic);
      match GetDomains(generic, bank'.soup)
      case Ok(got) => Ok((bank', got.1))
      case Err(e) => Err(e)
  }

  /** `AwolParsers.parse(article)`: the parser chosen for a post with the
      given title and soup (`None` when the article has none). */
  function Parse(registry: Registry, title: string, soup: Option<seq<Anchor>>, generic: ParserState): (r: Result<string>)
    ensures soup.None? ==> r == Err(AttributeError)
    ensures soup.Some? && Generic in registry ==>
              r == Route(registry, title, ComputeDomains(Reset(soup), soup.value))
  {
    var got :- BankDomains(registry, Bank(None), soup, generic);
    Route(registry, title, got.1)
  }

  /** Whatever state the generic parser was left in, it is reset by the
      soup it is handed, so the choice depends on the post alone. */
  lemma ParseStateless(registry: Registry, title: string, soup: Option<seq<Anchor>>, g1: ParserState, g2: ParserState)
    ensures Parse(registry, title, soup, g1) == Parse(registry, title, soup, g2)
  {
  }

  /** A post linking nowhere is refused. */
  lemma ParseNoDomains(registry: Registry, title: string, generic: ParserState)
    requires Generic in registry
    ensures Parse(registry, title, Some([]), generic) == Err(NotImplementedError)
  {
    assert UnskippedDomains(Reset(Some([])), []) == [];
  }
}

=== FILE: strings.dfy ===
/** Python string primitives used throughout the model: whitespace, ASCII case
    mapping, `startswith`, `in`, `split(sep)`, `sep.join`, `replace`, `strip`,
    slicing with clamping, and order-preserving de-duplication. */
module Strings {

  /** Python's `str.isspace()` character set, which is also what `\s` and
      `str.strip()` use on `str` values. */
  predicate IsSpace(c: char) {
    || c == ' '
    || ('\t' <= c <= '\r')
    || ('\U{1C}' <= c <= '\U{1F}')
    || c == '\U{85}'
    || c == '\U{A0}'
    || c == '\U{1680}'
    || ('\U{2000}' <= c <= '\U{200A}')
    || c == '\U{2028}'
    || c == '\U{2029}'
    || c == '\U{202F}'
    || c == '\U{205F}'
    || c == '\U{3000}'
  }

  function LowerChar(c: char): char {
    if 'A' <= c <= 'Z' then (c as int + 32) as char else c
  }

  function UpperChar(c: char): char {
    if 'a' <= c <= 'z' then (c as int - 32) as char else c
  }

  /** `s.lower()`, restricted to the ASCII letters. */
  function Lower(s: string): (r: string)
    ensures |r| == |s|
    ensures forall i :: 0 <= i < |s| ==> r[i] == LowerChar(s[i])
  {
    seq(|s|, i requires 0 <= i < |s| => LowerChar(s[i]))
  }

  /** `s.upper()`, restricted to the ASCII letters. */
  function Upper(s: string): (r: string)
    ensures |r| == |s|
    ensures forall i :: 0 <= i < |s| ==> r[i] == UpperChar(s[i])
  {
    seq(|s|, i requires 0 <= i < |s| => UpperChar(s[i]))
  }

  predicate StartsWith(s: string, p: string) {
    |p| <= |s| && s[..|p|] == p
  }

  /** Python's `p in s` on strings. */
  predicate Contains(s: string, p: string)
    decreases |s|
  {
    StartsWith(s, p) || (|s| > 0 && Contains(s[1..], p))
  }

  lemma ContainsAt(s: string, p: string, i: nat)
    requires i + |p| <= |s| && s[i..i + |p|] == p
    ensures Contains(s, p)
    decreases i
  {
    if i > 0 {
      assert s[1..][i - 1..i - 1 + |p|] == s[i..i + |p|];
      ContainsAt(s[1..], p, i - 1);
    }
  }

  /** Only text at least as long as `p` can contain it. */
  lemma {:induction false} ContainsLength(s: string, p: string)
    requires Contains(s, p)
    ensures |p| <= |s|
    decreases |s|
  {
    if !StartsWith(s, p) {
      ContainsLength(s[1..], p);
    }
  }

  /** Text containing `p` and no longer than it is `p`. */
  lemma ContainsSameLength(s: string, p: string)
    requires Contains(s, p) && |p| == |s|
    ensures s == p
  {
    if !StartsWith(s, p) {
      ContainsLength(s[1..], p);
    }
  }

  lemma ContainsSelf(s: string)
    ensures Contains(s, s)
  {
    assert s[..|s|] == s;
  }

  /** Text that contains `p` holds it at some position. */
  lemma {:induction false} ContainsIndex(s: string, p: string) returns (i: nat)
    requires Contains(s, p)
    ensures i + |p| <= |s| && s[i..i + |p|] == p
    decreases |s|
  {
    if StartsWith(s, p) {
      i := 0;
    } else {
      var j := ContainsIndex(s[1..], p);
      assert s[1..][j..j + |p|] == s[j + 1..j + 1 + |p|];
      i := j + 1;
    }
  }

  /** Text without a space is found in `a + " " + b` exactly when it is
      found in `a` or in `b`. */
  lemma ContainsAround(a: string, b: string, p: string)
    requires ' ' !in p
    ensures Contains(a + " " + b, p) <==> Contains(a, p) || Contains(b, p)
  {
    if Contains(a, p) {
      ContainsLeft(a, b, p);
    }
    if Contains(b, p) {
      ContainsRight(a, b, p);
    }
    if Contains(a + " " + b, p) {
      ContainsSplit(a, b, p);
    }
  }

  lemma ContainsLeft(a: string, b: string, p: string)
    requires Contains(a, p)
    ensures Contains(a + " " + b, p)
  {
    var s := a + " " + b;
    var i := ContainsIndex(a, p);
    assert s[i..i + |p|] == a[i..i + |p|];
    ContainsAt(s, p, i);
  }

  lemma ContainsRight(a: string, b: string, p: string)
    requires Contains(b, p)
    ensures Contains(a + " " + b, p)
  {
    var i := ContainsIndex(b, p);
    SliceAfter(a + " ", b, i, |p|);
    ContainsAt(a + " " + b, p, |a| + 1 + i);
  }

  lemma ContainsSplit(a: string, b: string, p: string)
    requires ' ' !in p && Contains(a + " " + b, p)
    ensures Contains(a, p) || Contains(b, p)
  {
    var s := a + " " + b;
    var i := ContainsIndex(s, p);
    if i + |p| <= |a| {
      assert a[i..i + |p|] == s[i..i + |p|];
      ContainsAt(a, p, i);
    } else if i > |a| {
      SliceAfter(a + " ", b, i - |a| - 1, |p|);
      ContainsAt(b, p, i - |a| - 1);
    } else {
      MatchOverSpace(a, b, p, i);
      assert false;
    }
  }

  lemma SliceAfter(x: string, y: string, j: nat, n: nat)
    requires j + n <= |y|
    ensures (x + y)[|x| + j..|x| + j + n] == y[j..j + n]
  {
  }

  /** A match that starts in `a` and ends past it covers the space. */
  lemma MatchOverSpace(a: string, b: string, p: string, i: nat)
    requires i <= |a| < i + |p| <= |a + " " + b|
    requires (a + " " + b)[i..i + |p|] == p
    ensures ' ' in p
  {
    assert p[|a| - i] == (a + " " + b)[|a|];
  }

  /** Text without a space is found in words joined by spaces exactly when
      one of the words holds it: the order of the words does not matter. */
  lemma {:induction false} JoinContains(ws: seq<string>, p: string)
    requires ' ' !in p && p != ""
    ensures Contains(Join(ws, " "), p) <==> exists i :: 0 <= i < |ws| && Contains(ws[i], p)
    decreases |ws|
  {
    if |ws| == 0 {
      assert !StartsWith("", p);
    } else if |ws| == 1 {
    } else {
      var front := ws[..|ws| - 1];
      JoinContains(front, p);
      ContainsAround(Join(front, " "), ws[|ws| - 1], p);
      assert forall i :: 0 <= i < |front| ==> front[i] == ws[i];
      if exists i :: 0 <= i < |ws| && Contains(ws[i], p) {
        var i :| 0 <= i < |ws| && Contains(ws[i], p);
        if i < |ws| - 1 {
          assert Contains(front[i], p);
        }
      }
    }
  }

  /** The position of the first occurrence of `x`. */
  function IndexOf<T(==)>(xs: seq<T>, x: T): (i: nat)
    requires x in xs
    ensures i < |xs| && xs[i] == x && x !in xs[..i]
    decreases |xs|
  {
    if xs[0] == x then 0
    else
      var j := IndexOf(xs[1..], x);
      assert xs[..j + 1] == [xs[0]] + xs[1..][..j];
      j + 1
  }

  /** Python's `xs.remove(x)`: drops the first occurrence of `x`. */
  function RemoveFirst<T(==)>(xs: seq<T>, x: T): (r: seq<T>)
    requires x in xs
    ensures |r| == |xs| - 1
    ensures r == xs[..IndexOf(xs, x)] + xs[IndexOf(xs, x) + 1..]
  {
    var i := IndexOf(xs, x);
    xs[..i] + xs[i + 1..]
  }

  /** `r` is `s` with some elements left out, the others in order. */
  predicate IsSubseq<T(==)>(r: seq<T>, s: seq<T>)
    decreases |s|
  {
    |r| == 0 || (|s| > 0 && ((r[0] == s[0] && IsSubseq(r[1..], s[1..])) || IsSubseq(r, s[1..])))
  }

  lemma {:induction false} SubseqRefl<T>(s: seq<T>)
    ensures IsSubseq(s, s)
    decreases |s|
  {
    if |s| > 0 {
      SubseqRefl(s[1..]);
    }
  }

  lemma {:induction false} SubseqTrans<T>(a: seq<T>, b: seq<T>, c: seq<T>)
    requires IsSubseq(a, b) && IsSubseq(b, c)
    ensures IsSubseq(a, c)
    decreases |c|
  {
    if |a| > 0 {
      if IsSubseq(b, c[1..]) {
        SubseqTrans(a, b, c[1..]);
      } else if IsSubseq(a, b[1..]) {
        SubseqTrans(a, b[1..], c[1..]);
      } else {
        SubseqTrans(a[1..], b[1..], c[1..]);
      }
    }
  }

  /** Leaving out the element at `i` gives a subsequence. */
  lemma {:induction false} DropAtSubseq<T>(xs: seq<T>, i: nat)
    requires i < |xs|
    ensures IsSubseq(xs[..i] + xs[i + 1..], xs)
    decreases i
  {
    if i == 0 {
      assert xs[..0] + xs[1..] == xs[1..];
      SubseqRefl(xs[1..]);
    } else {
      DropAtSubseq(xs[1..], i - 1);
      var r := xs[..i] + xs[i + 1..];
      assert r[0] == xs[0];
      assert r[1..] == xs[1..][..i - 1] + xs[1..][i..];
    }
  }

  /** `xs.remove(x)` leaves a subsequence holding one `x` fewer. */
  lemma RemoveFirstProps<T>(xs: seq<T>, x: T)
    requires x in xs
    ensures IsSubseq(RemoveFirst(xs, x), xs)
    ensures multiset(RemoveFirst(xs, x)) == multiset(xs) - multiset{x}
  {
    var i := IndexOf(xs, x);
    DropAtSubseq(xs, i);
    assert xs == xs[..i] + [x] + xs[i + 1..];
  }

  /** Python's `s.split(sep)` for a one-character separator. */
  function Split(s: string, sep: char): (r: seq<string>)
    ensures |r| >= 1
    ensures forall i :: 0 <= i < |r| ==> sep !in r[i]
    decreases |s|
  {
    if |s| == 0 then [""]
    else if s[0] == sep then [""] + Split(s[1..], sep)
    else
      var rest := Split(s[1..], sep);
      [[s[0]] + rest[0]] + rest[1..]
  }

  /** Splitting at the first separator gives the text before it and then the pieces
      of the text after it. */
  lemma {:induction false} SplitAtFirst(before: string, after: string, c: char)
    requires c !in before
    ensures Split(before + [c] + after, c) == [before] + Split(after, c)
    decreases |before|
  {
    if |before| == 0 {
      assert before + [c] + after == [c] + after;
      assert ([c] + after)[1..] == after;
    } else {
      assert (before + [c] + after)[1..] == before[1..] + [c] + after;
      SplitAtFirst(before[1..], after, c);
      assert [before[0]] + before[1..] == before;
    }
  }

  /** Python's `sep.join(parts)`. */
  function Join(parts: seq<string>, sep: string): string
    decreases |parts|
  {
    if |parts| == 0 then ""
    else if |parts| == 1 then parts[0]
    else Join(parts[..|parts| - 1], sep) + sep + parts[|parts| - 1]
  }

  lemma {:induction false} JoinCons(a: string, ps: seq<string>, sep: string)
    requires |ps| >= 1
    ensures Join([a] + ps, sep) == a + sep + Join(ps, sep)
    decreases |ps|
  {
    if |ps| == 1 {
      assert [a] + ps == [a, ps[0]];
      assert ([a] + ps)[..1] == [a];
    } else {
      var init := ps[..|ps| - 1];
      var last := ps[|ps| - 1];
      assert ([a] + ps)[..|ps|] == [a] + init;
      assert ([a] + ps)[|ps|] == last;
      assert Join([a] + ps, sep) == Join([a] + init, sep) + sep + last;
      JoinCons(a, init, sep);
      assert Join(ps, sep) == Join(init, sep) + sep + last;
    }
  }

  lemma JoinHeadAppend(c: char, ps: seq<string>, sep: string)
    requires |ps| >= 1
    ensures Join([[c] + ps[0]] + ps[1..], sep) == [c] + Join(ps, sep)
  {
    if |ps| == 1 {
      assert [[c] + ps[0]] + ps[1..] == [[c] + ps[0]];
    } else {
      JoinCons([c] + ps[0], ps[1..], sep);
      JoinCons(ps[0], ps[1..], sep);
      assert [ps[0]] + ps[1..] == ps;
    }
  }

  /** Splitting on a character and joining on it again gives back the text. */
  lemma {:induction false} JoinSplit(s: string, sep: char)
    ensures Join(Split(s, sep), [sep]) == s
    decreases |s|
  {
    if |s| == 0 {
    } else if s[0] == sep {
      JoinSplit(s[1..], sep);
      JoinCons("", Split(s[1..], sep), [sep]);
      assert s == [sep] + s[1..];
    } else {
      JoinSplit(s[1..], sep);
      JoinHeadAppend(s[0], Split(s[1..], sep), [sep]);
      assert s == [s[0]] + s[1..];
    }
  }

  /** Python's `s.split(sep)` for a separator of any length: the leftmost
      occurrences, without overlap. */
  function SplitOn(s: string, sep: string): (r: seq<string>)
    requires |sep| > 0
    ensures |r| >= 1
    decreases |s|
  {
    if |s| == 0 then [""]
    else if StartsWith(s, sep) then [""] + SplitOn(s[|sep|..], sep)
    else
      var rest := SplitOn(s[1..], sep);
      [[s[0]] + rest[0]] + rest[1..]
  }

  /** Joining the pieces of a split with the separator gives back the text. */
  lemma {:induction false} JoinSplitOn(s: string, sep: string)
    requires |sep| > 0
    ensures Join(SplitOn(s, sep), sep) == s
    decreases |s|
  {
    if |s| == 0 {
    } else if StartsWith(s, sep) {
      JoinSplitOn(s[|sep|..], sep);
      JoinSplitOnSep(s, sep);
    } else {
      JoinSplitOn(s[1..], sep);
      JoinSplitOnChar(s, sep);
    }
  }

  lemma JoinSplitOnSep(s: string, sep: string)
    requires |sep| > 0 && |s| > 0 && StartsWith(s, sep)
    requires Join(SplitOn(s[|sep|..], sep), sep) == s[|sep|..]
    ensures Join(SplitOn(s, sep), sep) == s
  {
    var rest := SplitOn(s[|sep|..], sep);
    SplitOnSepStep(s, sep);
    JoinCons("", rest, sep);
    StartsWithRest(s, sep);
  }

  lemma SplitOnSepStep(s: string, sep: string)
    requires |sep| > 0 && |s| > 0 && StartsWith(s, sep)
    ensures SplitOn(s, sep) == [""] + SplitOn(s[|sep|..], sep)
  {
  }

  /** A text that starts with `p` is `p` followed by the rest. */
  lemma StartsWithRest(s: string, p: string)
    requires StartsWith(s, p)
    ensures s == "" + p + s[|p|..]
  {
    assert s == s[..|p|] + s[|p|..];
  }

  lemma JoinSplitOnChar(s: string, sep: string)
    requires |sep| > 0 && |s| > 0 && !StartsWith(s, sep)
    requires Join(SplitOn(s[1..], sep), sep) == s[1..]
    ensures Join(SplitOn(s, sep), sep) == s
  {
    var rest := SplitOn(s[1..], sep);
    assert SplitOn(s, sep) == [[s[0]] + rest[0]] + rest[1..];
    JoinHeadAppend(s[0], rest, sep);
    assert s == [s[0]] + s[1..];
  }

  /** Two pieces join as `a + sep + b`. */
  lemma JoinTwo(a: string, b: string, sep: string)
    ensures Join([a, b], sep) == a + sep + b
  {
    assert [a, b][..1] == [a];
  }

  /** A text without the separator splits into itself alone. */
  lemma {:induction false} SplitAbsent(s: string, c: char)
    requires c !in s
    ensures Split(s, c) == [s]
    decreases |s|
  {
    if |s| > 0 {
      SplitAbsent(s[1..], c);
      assert [s[0]] + s[1..] == s;
    }
  }

  /** Splitting `ks` joined by `". "` on `.` gives the first part and then
      every other part behind the space of the separator. */
  lemma {:induction false} SplitJoinDots(ks: seq<string>)
    requires |ks| >= 1
    requires forall k :: k in ks ==> '.' !in k
    ensures |Split(Join(ks, ". "), '.')| == |ks|
    ensures Split(Join(ks, ". "), '.')[0] == ks[0]
    ensures forall i :: 1 <= i < |ks| ==> Split(Join(ks, ". "), '.')[i] == " " + ks[i]
    decreases |ks|
  {
    if |ks| == 1 {
      SplitAbsent(ks[0], '.');
    } else {
      var rest := ks[1..];
      assert forall k :: k in rest ==> k in ks;
      assert ks[0] in ks;
      SplitJoinDots(rest);
      SplitAfterDot(ks, Join(rest, ". "));
      ShiftPieces(ks, Split(Join(ks, ". "), '.'), Split(Join(rest, ". "), '.'));
    }
  }

  /** The index bookkeeping of `SplitJoinDots`: the pieces of the rest, the
      first behind a space, follow the first part. */
  lemma ShiftPieces(ks: seq<string>, whole: seq<string>, sj: seq<string>)
    requires |ks| >= 2 && |sj| == |ks| - 1
    requires sj[0] == ks[1]
    requires forall i :: 1 <= i < |ks| - 1 ==> sj[i] == " " + ks[i + 1]
    requires whole == [ks[0]] + ([" " + sj[0]] + sj[1..])
    ensures |whole| == |ks| && whole[0] == ks[0]
    ensures forall i :: 1 <= i < |ks| ==> whole[i] == " " + ks[i]
  {
    forall i | 1 <= i < |ks|
      ensures whole[i] == " " + ks[i]
    {
      if i > 1 {
        assert whole[i] == sj[i - 1];
      }
    }
  }

  /** One step of `SplitJoinDots`: the first part, then the pieces of the
      rest behind one space. */
  lemma SplitAfterDot(ks: seq<string>, j: string)
    requires |ks| >= 2 && '.' !in ks[0]
    requires j == Join(ks[1..], ". ")
    ensures Split(Join(ks, ". "), '.') == [ks[0]] + ([" " + Split(j, '.')[0]] + Split(j, '.')[1..])
  {
    assert [ks[0]] + ks[1..] == ks;
    JoinCons(ks[0], ks[1..], ". ");
    assert Join(ks, ". ") == ks[0] + ['.'] + (" " + j);
    SplitAtFirst(ks[0], " " + j, '.');
    assert (" " + j)[1..] == j;
  }

  /** Python's `s.replace(pat, rep)`: non-overlapping, left to right. */
  function Replace(s: string, pat: string, rep: string): string
    requires |pat| > 0
    decreases |s|
  {
    if |s| == 0 then ""
    else if StartsWith(s, pat) then rep + Replace(s[|pat|..], pat, rep)
    else [s[0]] + Replace(s[1..], pat, rep)
  }

  /** `s.replace(a, b)` for one-character `a` and `b`: a character map. */
  lemma ReplaceOneChar(s: string, a: char, b: char)
    ensures |Replace(s, [a], [b])| == |s|
    ensures forall i :: 0 <= i < |s| ==>
              Replace(s, [a], [b])[i] == (if s[i] == a then b else s[i])
    decreases |s|
  {
    if |s| > 0 {
      ReplaceOneChar(s[1..], a, b);
    }
  }

  /** Deleting a one-character string leaves exactly the other characters. */
  lemma ReplaceCharByEmpty(s: string, a: char)
    ensures forall c :: c in Replace(s, [a], "") <==> c in s && c != a
    decreases |s|
  {
    if |s| > 0 {
      ReplaceCharByEmpty(s[1..], a);
      assert s == [s[0]] + s[1..];
    }
  }

  /** `replace` only introduces characters of the replacement. */
  lemma {:induction false} ReplaceChars(s: string, pat: string, rep: string)
    requires |pat| > 0
    ensures forall c :: c in Replace(s, pat, rep) ==> c in s || c in rep
    decreases |s|
  {
    if |s| > 0 {
      if StartsWith(s, pat) {
        ReplaceChars(s[|pat|..], pat, rep);
      } else {
        ReplaceChars(s[1..], pat, rep);
      }
    }
  }

  /** Replacing a character by text that does not contain it removes it. */
  lemma {:induction false} ReplaceRemovesChar(s: string, a: char, rep: string)
    requires a !in rep
    ensures a !in Replace(s, [a], rep)
    decreases |s|
  {
    if |s| > 0 {
      ReplaceRemovesChar(s[1..], a, rep);
    }
  }

  lemma {:induction false} ContainsChar(s: string, a: char)
    ensures Contains(s, [a]) <==> a in s
    decreases |s|
  {
    if |s| > 0 {
      ContainsChar(s[1..], a);
      assert s == [s[0]] + s[1..];
    }
  }

  /** Replacing a pattern that does not occur changes nothing. */
  lemma {:induction false} ReplaceAbsent(s: string, pat: string, rep: string)
    requires |pat| > 0 && !Contains(s, pat)
    ensures Replace(s, pat, rep) == s
    decreases |s|
  {
    if |s| > 0 {
      ReplaceAbsent(s[1..], pat, rep);
      assert s == [s[0]] + s[1..];
    }
  }

  /** Each character of `s` replaced by the text `f` gives for it. */
  function MapChars(s: string, f: char -> string): string
    decreases |s|
  {
    if |s| == 0 then "" else f(s[0]) + MapChars(s[1..], f)
  }

  lemma {:induction false} MapCharsAppend(x: string, y: string, f: char -> string)
    ensures MapChars(x + y, f) == MapChars(x, f) + MapChars(y, f)
    decreases |x|
  {
    if |x| > 0 {
      assert (x + y)[1..] == x[1..] + y;
      MapCharsAppend(x[1..], y, f);
    } else {
      assert x + y == y;
    }
  }

  /** A one-character replacement works piece by piece. */
  lemma {:induction false} ReplaceCharAppend(x: string, y: string, a: char, rep: string)
    ensures Replace(x + y, [a], rep) == Replace(x, [a], rep) + Replace(y, [a], rep)
    decreases |x|
  {
    if |x| > 0 {
      assert (x + y)[1..] == x[1..] + y;
      ReplaceCharAppend(x[1..], y, a, rep);
    } else {
      assert x + y == y;
    }
  }

  /** A one-character replacement on the character itself, or on text
      without it. */
  lemma ReplaceCharOn(x: string, a: char, rep: string)
    requires x == [a] || a !in x
    ensures Replace(x, [a], rep) == if x == [a] then rep else x
  {
    if x != [a] {
      ContainsChar(x, a);
      ReplaceAbsent(x, [a], rep);
    }
  }

  /** The longest prefix of `s` whose characters satisfy `p`. */
  function Run(s: string, p: char -> bool): (r: string)
    ensures StartsWith(s, r)
    ensures forall i :: 0 <= i < |r| ==> p(r[i])
    ensures |r| == |s| || !p(s[|r|])
    decreases |s|
  {
    if |s| > 0 && p(s[0]) then [s[0]] + Run(s[1..], p) else ""
  }

  /** A run ends at the first character that fails `p`. */
  lemma {:induction false} RunStops(s: string, p: char -> bool, n: nat)
    requires n < |s| && !p(s[n])
    requires forall i :: 0 <= i < n ==> p(s[i])
    ensures Run(s, p) == s[..n]
    decreases n
  {
    if n > 0 {
      RunStops(s[1..], p, n - 1);
      assert [s[0]] + s[1..][..n - 1] == s[..n];
    }
  }

  /** Python's `s.split()` with no separator: the maximal runs of
      non-whitespace characters. */
  function Words(s: string): (r: seq<string>)
    ensures forall i :: 0 <= i < |r| ==> IsWord(r[i])
    ensures |s| > 0 && !IsSpace(s[0]) ==> |r| > 0
    decreases |s|
  {
    if |s| == 0 then []
    else if IsSpace(s[0]) then Words(s[1..])
    else
      var rest := Words(s[1..]);
      if |s| > 1 && !IsSpace(s[1]) then [[s[0]] + rest[0]] + rest[1..]
      else [[s[0]]] + rest
  }

  /** A nonempty run of non-whitespace characters. */
  predicate IsWord(w: string) {
    w != "" && forall j :: 0 <= j < |w| ==> !IsSpace(w[j])
  }

  lemma WordsSpace(rest: string)
    ensures Words(" " + rest) == Words(rest)
  {
    assert (" " + rest)[1..] == rest;
  }

  lemma {:induction false} WordsCons(w: string, rest: string)
    requires IsWord(w)
    ensures Words(w + " " + rest) == [w] + Words(rest)
    decreases |w|
  {
    var s := w + " " + rest;
    assert s[0] == w[0];
    if |w| == 1 {
      assert s[1..] == " " + rest;
      WordsSpace(rest);
      assert [w[0]] == w;
    } else {
      assert s[1..] == w[1..] + " " + rest;
      WordsCons(w[1..], rest);
      assert [w[0]] + w[1..] == w;
    }
  }

  lemma {:induction false} WordsAlone(w: string)
    requires IsWord(w)
    ensures Words(w) == [w]
    decreases |w|
  {
    if |w| > 1 {
      WordsAlone(w[1..]);
      assert [w[0]] + w[1..] == w;
    } else {
      assert Words(w[1..]) == [];
      assert [w[0]] == w;
    }
  }

  /** Joining words with single spaces and splitting gives the words back. */
  lemma {:induction false} WordsJoin(ws: seq<string>)
    requires forall i :: 0 <= i < |ws| ==> IsWord(ws[i])
    ensures Words(Join(ws, " ")) == ws
    decreases |ws|
  {
    if |ws| == 1 {
      WordsAlone(ws[0]);
    } else if |ws| > 1 {
      JoinCons(ws[0], ws[1..], " ");
      assert [ws[0]] + ws[1..] == ws;
      WordsCons(ws[0], Join(ws[1..], " "));
      WordsJoin(ws[1..]);
    }
  }

  function TrimStart(s: string): (r: string)
    ensures |r| <= |s| && r == s[|s| - |r|..]
    ensures |r| == 0 || !IsSpace(r[0])
    ensures forall i :: 0 <= i < |s| - |r| ==> IsSpace(s[i])
    decreases |s|
  {
    if |s| > 0 && IsSpace(s[0]) then TrimStart(s[1..]) else s
  }

  function TrimEnd(s: string): (r: string)
    ensures |r| <= |s| && r == s[..|r|]
    ensures |r| == 0 || !IsSpace(r[|r| - 1])
    ensures forall i :: |r| <= i < |s| ==> IsSpace(s[i])
    decreases |s|
  {
    if |s| > 0 && IsSpace(s[|s| - 1]) then TrimEnd(s[..|s| - 1]) else s
  }

  /** `s.strip()`. */
  function Strip(s: string): string {
    TrimEnd(TrimStart(s))
  }

  predicate NoEdgeSpace(s: string) {
    |s| == 0 || (!IsSpace(s[0]) && !IsSpace(s[|s| - 1]))
  }

  /** `r` is `s[a:b]` for some `a <= b`. */
  predicate IsInfix(r: string, s: string) {
    exists a, b :: 0 <= a <= b <= |s| && r == s[a..b]
  }

  /** A slice of `s` is an infix of it. */
  lemma InfixAt(s: string, a: nat, b: nat)
    requires a <= b <= |s|
    ensures IsInfix(s[a..b], s)
  {
  }

  lemma SliceOfSlice(t: string, c: nat, d: nat, a: nat, b: nat)
    requires c <= d <= |t| && a <= b <= d - c
    ensures t[c..d][a..b] == t[c + a..c + b]
  {
    assert forall k :: 0 <= k < b - a ==> t[c..d][a..b][k] == t[c + a + k];
  }

  lemma InfixTrans(r: string, s: string, t: string)
    requires IsInfix(r, s) && IsInfix(s, t)
    ensures IsInfix(r, t)
  {
    var a, b :| 0 <= a <= b <= |s| && r == s[a..b];
    var c, d :| 0 <= c <= d <= |t| && s == t[c..d];
    SliceOfSlice(t, c, d, a, b);
    InfixAt(t, c + a, c + b);
  }

  lemma StripProps(s: string)
    ensures NoEdgeSpace(Strip(s))
    ensures IsInfix(Strip(s), s)
    ensures (forall i :: 0 <= i < |s| ==> IsSpace(s[i])) <==> Strip(s) == ""
  {
    StripInfix(s);
    StripEmpty(s);
  }

  lemma StripInfix(s: string)
    ensures IsInfix(Strip(s), s)
  {
    var t := TrimStart(s);
    var r := TrimEnd(t);
    var a := |s| - |t|;
    assert t == s[a..];
    assert r == t[..|r|];
    assert s[a..][..|r|] == s[a..a + |r|];
    InfixAt(s, a, a + |r|);
  }

  lemma StripEmpty(s: string)
    ensures (forall i :: 0 <= i < |s| ==> IsSpace(s[i])) <==> Strip(s) == ""
  {
    var t := TrimStart(s);
    assert |t| > 0 ==> !IsSpace(t[0]) && t[0] == s[|s| - |t|];
    assert Strip(s) == "" ==> |t| == 0;
  }

  lemma StripIdentity(s: string)
    requires NoEdgeSpace(s)
    ensures Strip(s) == s
  {
  }

  /** Python's `s[:n]`. */
  function Take(s: string, n: nat): (r: string)
    ensures |r| == if |s| <= n then |s| else n
    ensures r == s[..|r|]
  {
    if |s| <= n then s else s[..n]
  }

  /** Python's `s[1:-1]`, which is empty on strings shorter than two. */
  function Inner(s: string): string {
    if |s| >= 2 then s[1..|s| - 1] else ""
  }

  function Filter<T(!new)>(s: seq<T>, keep: T -> bool): (r: seq<T>)
    ensures |r| <= |s|
    ensures forall x :: x in r <==> x in s && keep(x)
    decreases |s|
  {
    if |s| == 0 then []
    else if keep(s[0]) then [s[0]] + Filter(s[1..], keep)
    else Filter(s[1..], keep)
  }

  predicate NoDuplicates<T(==)>(s: seq<T>) {
    forall i, j :: 0 <= i < j < |s| ==> s[i] != s[j]
  }

  /** A list without duplicates, less its last element. */
  lemma NoDuplicatesSnoc<T>(xs: seq<T>, x: T)
    requires NoDuplicates(xs + [x])
    ensures NoDuplicates(xs) && x !in xs
  {
    var s := xs + [x];
    assert forall i :: 0 <= i < |xs| ==> s[i] == xs[i];
    forall i | 0 <= i < |xs| ensures xs[i] != x {
      assert s[i] == xs[i] && s[|xs|] == x;
    }
  }

  /** Filtering keeps distinct elements distinct. */
  lemma {:induction false} FilterDistinct<T(!new)>(s: seq<T>, keep: T -> bool)
    requires NoDuplicates(s)
    ensures NoDuplicates(Filter(s, keep))
    decreases |s|
  {
    if |s| > 0 {
      FilterDistinct(s[1..], keep);
      var rest := Filter(s[1..], keep);
      if keep(s[0]) {
        assert s[0] !in s[1..];
        assert s[0] !in rest;
        assert forall j :: 0 <= j < |rest| ==> ([s[0]] + rest)[j + 1] == rest[j];
      }
    }
  }


  /** Keeps the first occurrence of each element, in order: the model of
      Python's `list(set(xs))`, whose order Python leaves unspecified. */
  function Dedup<T(==,!new)>(s: seq<T>): (r: seq<T>)
    ensures forall x :: x in r <==> x in s
    ensures NoDuplicates(r)
    ensures |r| <= |s|
    decreases |s|
  {
    if |s| == 0 then []
    else
      var rest := Dedup(s[..|s| - 1]);
      if s[|s| - 1] in rest then rest else rest + [s[|s| - 1]]
  }

  lemma DedupOfDistinct<T(!new)>(s: seq<T>)
    requires NoDuplicates(s)
    ensures Dedup(s) == s
    decreases |s|
  {
    if |s| > 0 {
      DedupOfDistinct(s[..|s| - 1]);
    }
  }
}

=== FILE: titles.dfy ===
/** Title rules of the base parser: the colon-prefix table (`check_colon`,
    `allow_by_title`), `_reconcile_titles`, and `_grok_analytic_title`.

    The colon-prefix table is read from a CSV file at import time; here it
    is a parameter. The regular expressions of `RX_ANALYTIC_TITLES` are an
    abstract `engine`, except the first, which is written out. */
module Titles {
  import opened Results
  import opened Strings
  import opened CleanString

  // ---------------------------------------------------------------------
  // Colon prefixes

  /** One row of `awol_colon_prefixes.csv`: the `omit_post`, `strip_title`
      and `mul_res` flags. */
  datatype PrefixRow = PrefixRow(omitPost: string, stripTitle: string, mulRes: string)

  /** `COLON_PREFIXES`, keyed by the normalised lower-case prefix. */
  type PrefixTable = map<string, PrefixRow>

  /** `title.split(':')[0].lower()`. */
  function ColonPrefix(title: string): string {
    Lower(Split(title, ':')[0])
  }

  /** `':'.join(title.split(':')[1:])`. */
  function AfterColon(title: string): string {
    Join(Split(title, ':')[1..], ":")
  }

  /** The prefix is the text before the first ':' and the rest is all the
      text after it, further colons included. */
  lemma FirstColon(before: string, after: string)
    requires ':' !in before
    ensures ':' in before + ":" + after
    ensures Split(before + ":" + after, ':')[0] == before
    ensures ColonPrefix(before + ":" + after) == Lower(before)
    ensures AfterColon(before + ":" + after) == after
  {
    assert (before + ":" + after)[|before|] == ':';
    SplitAtFirst(before, after, ':');
    assert Split(before + ":" + after, ':')[1..] == Split(after, ':');
    JoinSplit(after, ':');
  }

  /** `check_colon(title)`: a title whose colon prefix is flagged for
      stripping loses the prefix and is cleaned; any other title is
      returned as it is. */
  function CheckColon(table: PrefixTable, title: string): (r: string)
    ensures ':' !in title ==> r == title
    ensures r != title ==> ':' in title && r == Clean(AfterColon(title))
  {
    if ':' in title then
      var prefix := ColonPrefix(title);
      if prefix in table && table[prefix].stripTitle == "yes" then Clean(AfterColon(title)) else title
    else title
  }

  /** `check_colon` on `before:after`, where `before` is the text up to the
      first colon. */
  lemma CheckColonSplit(table: PrefixTable, before: string, after: string)
    requires ':' !in before
    ensures CheckColon(table, before + ":" + after) ==
              if Lower(before) in table && table[Lower(before)].stripTitle == "yes"
              then Clean(after) else before + ":" + after
  {
    FirstColon(before, after);
  }

  const OmitTitles: seq<string> := ["administrative", "administrative note"]

  /** `allow_by_title(title)`. */
  predicate AllowByTitle(table: PrefixTable, title: string) {
    if Lower(title) in OmitTitles then false
    else if ':' in title then
      var prefix := ColonPrefix(title);
      !(prefix in table && table[prefix].omitPost == "yes")
    else true
  }

  /** A post is refused exactly when its lower-case title is an omitted
      title or the text before its first colon is flagged for omission. */
  lemma AllowByTitleSplit(table: PrefixTable, before: string, after: string)
    requires ':' !in before
    ensures !AllowByTitle(table, before + ":" + after) <==>
              || Lower(before + ":" + after) in OmitTitles
              || (Lower(before) in table && table[Lower(before)].omitPost == "yes")
  {
    FirstColon(before, after);
  }

  /** Without a colon only the omitted titles are refused. */
  lemma AllowByTitleNoColon(table: PrefixTable, title: string)
    requires ':' !in title
    ensures AllowByTitle(table, title) <==> Lower(title) !in OmitTitles
  {
  }

  // ---------------------------------------------------------------------
  // _reconcile_titles

  /** A member of the tuple `_reconcile_titles` returns: a title, or the
      function object `check_colon` itself. */
  datatype TitleItem = TitleText(text: string) | CheckColonFunction

  /** The titles for an anchor and a post title that are both present: the
      post title when the two agree up to case, then the anchor title when
      it agrees with the post title stripped of its colon prefix, then the
      stripped post title and the anchor title when the first is contained
      in the second, and otherwise the anchor title. */
  function ReconcileBoth(table: PrefixTable, anchor: string, article: string): (r: seq<string>)
    ensures 1 <= |r| <= 2
    ensures |r| == 1 ==> Lower(r[0]) == Lower(anchor)
    ensures Lower(anchor) == Lower(article) ==> r == [article]
    ensures |r| == 2 ==>
              && r[0] == CheckColon(table, article) && r[1] == anchor
              && Lower(r[0]) != Lower(anchor) && Contains(Lower(anchor), Lower(r[0]))
  {
    if Lower(anchor) == Lower(article) then [article]
    else
      var clean := CheckColon(table, article);
      if Lower(clean) == Lower(anchor) then [anchor]
      else if Contains(Lower(anchor), Lower(clean)) then [clean, anchor]
      else [anchor]
  }

  /** Two titles come back exactly when the titles differ up to case, the
      stripped post title differs from the anchor up to case, and the anchor
      contains it up to case. */
  lemma ReconcileTwoTitles(table: PrefixTable, anchor: string, article: string)
    ensures |ReconcileBoth(table, anchor, article)| == 2 <==>
              && Lower(anchor) != Lower(article)
              && Lower(CheckColon(table, article)) != Lower(anchor)
              && Contains(Lower(anchor), Lower(CheckColon(table, article)))
  {
  }

  /** When the first rule does not apply, the single title is the anchor
      title itself. */
  lemma ReconcileAnchorWins(table: PrefixTable, anchor: string, article: string)
    requires Lower(anchor) != Lower(article)
    requires |ReconcileBoth(table, anchor, article)| == 1
    ensures ReconcileBoth(table, anchor, article) == [anchor]
  {
  }

  /** `_reconcile_titles(anchor_title, article_title)` as written: with no
      post title it returns the tuple `(check_colon,)`, holding the function
      rather than a title. */
  function ReconcileAsWritten(table: PrefixTable, anchor: Option<string>, article: Option<string>): (r: Option<seq<TitleItem>>)
    ensures r.None? <==> anchor.None? && article.None?
  {
    if anchor.None? && article.None? then None
    else if anchor.None? then Some([TitleText(CheckColon(table, article.value))])
    else if article.None? then Some([CheckColonFunction])
    else Some(seq(|ReconcileBoth(table, anchor.value, article.value)|,
                  i requires 0 <= i < |ReconcileBoth(table, anchor.value, article.value)| =>
                    TitleText(ReconcileBoth(table, anchor.value, article.value)[i])))
  }

  /** `_reconcile_titles` with the missing call put in: a lone anchor title
      goes through `check_colon` as a lone post title does. */
  function ReconcileTitles(table: PrefixTable, anchor: Option<string>, article: Option<string>): (r: Option<seq<string>>)
    ensures r.None? <==> anchor.None? && article.None?
    ensures r.Some? ==> 1 <= |r.value| <= 2
    ensures anchor.None? && article.Some? ==> r == Some([CheckColon(table, article.value)])
    ensures anchor.Some? && article.None? ==> r == Some([CheckColon(table, anchor.value)])
  {
    if anchor.None? && article.None? then None
    else if anchor.None? then Some([CheckColon(table, article.value)])
    else if article.None? then Some([CheckColon(table, anchor.value)])
    else Some(ReconcileBoth(table, anchor.value, article.value))
  }

  function AsItems(ts: seq<string>): (r: seq<TitleItem>)
    ensures |r| == |ts| && forall i :: 0 <= i < |ts| ==> r[i] == TitleText(ts[i])
  {
    seq(|ts|, i requires 0 <= i < |ts| => TitleText(ts[i]))
  }

  /** Everywhere but the missing-post-title case the two agree. */
  lemma ReconcileAgrees(table: PrefixTable, anchor: Option<string>, article: Option<string>)
    requires article.Some? || anchor.None?
    ensures ReconcileAsWritten(table, anchor, article).None? <==> ReconcileTitles(table, anchor, article).None?
    ensures ReconcileTitles(table, anchor, article).Some? ==>
              ReconcileAsWritten(table, anchor, article) == Some(AsItems(ReconcileTitles(table, anchor, article).value))
  {
    if article.Some? {
      var ts := ReconcileTitles(table, anchor, article).value;
      assert ReconcileAsWritten(table, anchor, article).value == AsItems(ts);
    }
  }

  /** With only an anchor title, the written code hands back a function as
      the resource title. */
  lemma ReconcileMissingArticle(table: PrefixTable, anchor: string)
    ensures ReconcileAsWritten(table, Some(anchor), None) == Some([CheckColonFunction])
    ensures ReconcileTitles(table, Some(anchor), None) == Some([CheckColon(table, anchor)])
    ensures ReconcileAsWritten(table, Some(anchor), None) != Some(AsItems(ReconcileTitles(table, Some(anchor), None).value))
  {
    assert AsItems([CheckColon(table, anchor)])[0] != CheckColonFunction;
  }

  // ---------------------------------------------------------------------
  // _grok_analytic_title

  /** Which group of a pattern holds the volume, the issue and the year. */
  datatype GroupMap = GroupMap(volume: Option<nat>, issue: Option<nat>, year: Option<nat>)

  /** The group maps of `RX_ANALYTIC_TITLES`, in list order. */
  const AnalyticPatterns: seq<GroupMap> := [
    GroupMap(Some(1), Some(2), Some(3)),    // Bd. 52, Nr. 1 (2005)
    GroupMap(Some(2), None, Some(1)),       // 1888 ... Band 3
    GroupMap(Some(1), None, Some(2)),       // 4/2011
    GroupMap(Some(2), None, Some(1)),       // year, then volume
    GroupMap(Some(1), None, Some(2)),       // volume, then year
    GroupMap(None, None, Some(1)),          // year only
    GroupMap(Some(1), None, None)           // volume only
  ]

  /** A regular-expression engine: `engine(k, title)` is the groups
      (group 1 first; `None` for a group that did not take part) of
      `RX_ANALYTIC_TITLES[k]['rx'].match(title)`, or `None` when it does
      not match. */
  type Engine = (nat, string) -> Option<seq<Option<string>>>

  datatype Analytic = Analytic(volume: Option<string>, issue: Option<string>, year: Option<string>)

  /** The first pattern from `k` on that matches, with its groups. */
  function FirstMatch(engine: Engine, title: string, k: nat): (r: Option<(nat, seq<Option<string>>)>)
    requires k <= |AnalyticPatterns|
    ensures r.Some? ==> k <= r.value.0 < |AnalyticPatterns| && engine(r.value.0, title) == Some(r.value.1)
    ensures r.Some? ==> forall j :: k <= j < r.value.0 ==> engine(j, title).None?
    ensures r.None? ==> forall j :: k <= j < |AnalyticPatterns| ==> engine(j, title).None?
    decreases |AnalyticPatterns| - k
  {
    if k == |AnalyticPatterns| then None
    else match engine(k, title)
      case Some(groups) => Some((k, groups))
      case None => FirstMatch(engine, title, k + 1)
  }

  /** `m.group(g[key])`: an absent key (`KeyError`, caught) gives `None`; a
      group number beyond the pattern's groups raises `IndexError`. Group 0,
      the whole match, is named by no map of `AnalyticPatterns`, so `groups`
      holds only the numbered groups and 0 falls to `IndexError` too. */
  function GroupOf(groups: seq<Option<string>>, n: Option<nat>): (r: Result<Option<string>>)
    ensures n.None? ==> r == Ok(None)
    ensures n.Some? && 1 <= n.value <= |groups| ==> r == Ok(groups[n.value - 1])
    ensures n.Some? && n.value > |groups| ==> r == Err(IndexError)
  {
    match n
    case None => Ok(None)
    case Some(i) =>
      if 1 <= i <= |groups| then Ok(groups[i - 1])
      else Err(IndexError)
  }

  /** `_grok_analytic_title(title)`: `(volume, issue, year)` from the first
      pattern that matches, or `None` when none does. */
  function Grok(engine: Engine, title: string): (r: Result<Option<Analytic>>)
    ensures r == Ok(None) <==> forall j :: 0 <= j < |AnalyticPatterns| ==> engine(j, title).None?
  {
    match FirstMatch(engine, title, 0)
    case None => Ok(None)
    case Some((k, groups)) =>
      var g := AnalyticPatterns[k];
      var volume :- GroupOf(groups, g.volume);
      var issue :- GroupOf(groups, g.issue);
      var year :- GroupOf(groups, g.year);
      Ok(Some(Analytic(volume, issue, year)))
  }

  /** The first pattern that matches decides, and the fields its group map
      does not name are `None`, for an engine that yields every group the
      pattern has. */
  lemma GrokFirstWins(engine: Engine, title: string, k: nat)
    requires k < |AnalyticPatterns| && engine(k, title).Some?
    requires forall j :: 0 <= j < k ==> engine(j, title).None?
    requires var g, n := AnalyticPatterns[k], |engine(k, title).value|;
             && (g.volume.Some? ==> g.volume.value <= n)
             && (g.issue.Some? ==> g.issue.value <= n)
             && (g.year.Some? ==> g.year.value <= n)
    ensures Grok(engine, title).Ok? && Grok(engine, title).value.Some?
    ensures var a := Grok(engine, title).value.value;
            var g := AnalyticPatterns[k];
            var groups := engine(k, title).value;
            && (g.volume.None? ==> a.volume.None?)
            && (g.issue.None? ==> a.issue.None?)
            && (g.year.None? ==> a.year.None?)
            && (g.volume.Some? ==> a.volume == groups[g.volume.value - 1])
            && (g.issue.Some? ==> a.issue == groups[g.issue.value - 1])
            && (g.year.Some? ==> a.year == groups[g.year.value - 1])
  {
    var m := FirstMatch(engine, title, 0);
    assert m.Some? && m.value.0 == k;
  }

  // The first pattern, written out:
  //   ^Bd\.\s+(\d+),?\s+Nr\.\s+(\d+)\s+\(?(\d{4})\)?$   (case-insensitive)

  predicate IsDigit(c: char) {
    '0' <= c <= '9'
  }

  /** `s` starts with `word`, ignoring ASCII case. */
  predicate StartsWithNoCase(s: string, word: string) {
    |word| <= |s| && Lower(s[..|word|]) == Lower(word)
  }

  /** Drops one leading `c` if there is one: an optional `c?`. */
  function Optional(s: string, c: char): (r: string)
    ensures r == s || (|s| > 0 && s[0] == c && r == s[1..])
  {
    if |s| > 0 && s[0] == c then s[1..] else s
  }

  /** `\s+` then `tail`: the rest after a nonempty whitespace run. */
  function AfterSpaces(s: string): (r: Option<string>)
    ensures r.Some? ==> |r.value| < |s| && r.value == s[|s| - |r.value|..]
  {
    var w := Run(s, IsSpace);
    if w == "" then None else Some(s[|w|..])
  }

  /** `$`: the end of the text, or just before a final newline. */
  predicate AtEnd(s: string) {
    s == "" || s == "\n"
  }

  /** The year and what must follow it: `\(?(\d{4})\)?$`. */
  function MatchYear(s: string): (r: Option<string>)
    ensures r.Some? ==> |r.value| == 4 && forall i :: 0 <= i < 4 ==> IsDigit(r.value[i])
  {
    var s1 := Optional(s, '(');
    if |s1| >= 4 && (forall i :: 0 <= i < 4 ==> IsDigit(s1[i])) && AtEnd(Optional(s1[4..], ')'))
    then Some(s1[..4]) else None
  }

  /** After "Nr.": `\s+(\d+)\s+` and the year. */
  function MatchIssueYear(s: string): (r: Option<(string, string)>)
    ensures r.Some? ==> r.value.0 != "" && forall i :: 0 <= i < |r.value.0| ==> IsDigit(r.value.0[i])
    ensures r.Some? ==> |r.value.1| == 4
  {
    match AfterSpaces(s)
    case None => None
    case Some(s1) =>
      var issue := Run(s1, IsDigit);
      if issue == "" then None
      else match AfterSpaces(s1[|issue|..])
        case None => None
        case Some(s2) =>
          match MatchYear(s2)
          case None => None
          case Some(year) => Some((issue, year))
  }

  /** `RX_ANALYTIC_TITLES[0]['rx'].match(title)`, deterministically: every
      run is followed by a character it cannot absorb, so the greedy match
      is the only one. */
  function MatchBdNr(title: string): (r: Option<seq<Option<string>>>)
    ensures r.Some? ==> |r.value| == 3 && r.value[0].Some? && r.value[1].Some? && r.value[2].Some?
    ensures r.Some? ==> StartsWithNoCase(title, "Bd.")
    ensures r.Some? ==> |r.value[2].value| == 4 && forall i :: 0 <= i < 4 ==> IsDigit(r.value[2].value[i])
  {
    if !StartsWithNoCase(title, "Bd.") then None
    else match AfterSpaces(title[3..])
      case None => None
      case Some(s1) =>
        var volume := Run(s1, IsDigit);
        if volume == "" then None
        else match AfterSpaces(Optional(s1[|volume|..], ','))
          case None => None
          case Some(s2) =>
            if !StartsWithNoCase(s2, "Nr.") then None
            else match MatchIssueYear(s2[3..])
              case None => None
              case Some((issue, year)) => Some([Some(volume), Some(issue), Some(year)])
  }

  predicate AllDigits(s: string) {
    forall i :: 0 <= i < |s| ==> IsDigit(s[i])
  }

  /** The title the first pattern describes. */
  function BdNr(volume: string, issue: string, year: string): string {
    "Bd. " + volume + ", Nr. " + issue + " (" + year + ")"
  }

  lemma SpaceThen(rest: string)
    requires |rest| > 0 && !IsSpace(rest[0])
    ensures AfterSpaces(" " + rest) == Some(rest)
  {
    RunStops(" " + rest, IsSpace, 1);
    assert (" " + rest)[1..] == rest;
  }

  lemma DigitsThen(digits: string, rest: string)
    requires AllDigits(digits) && |rest| > 0 && !IsDigit(rest[0])
    ensures Run(digits + rest, IsDigit) == digits
    ensures (digits + rest)[|digits|..] == rest
  {
    RunStops(digits + rest, IsDigit, |digits|);
    assert (digits + rest)[..|digits|] == digits;
  }

  lemma YearThen(year: string)
    requires |year| == 4 && AllDigits(year)
    ensures MatchYear("(" + year + ")") == Some(year)
  {
    var s := "(" + year + ")";
    assert Optional(s, '(') == year + ")";
    assert (year + ")")[..4] == year;
    assert (year + ")")[4..] == ")";
  }

  lemma IssueYearThen(issue: string, year: string)
    requires issue != "" && AllDigits(issue) && |year| == 4 && AllDigits(year)
    ensures MatchIssueYear(" " + issue + " (" + year + ")") == Some((issue, year))
  {
    var tail := "(" + year + ")";
    assert " " + issue + " (" + year + ")" == " " + (issue + (" " + tail));
    IssueStep(issue, tail);
    YearThen(year);
  }

  lemma IssueStep(issue: string, tail: string)
    requires issue != "" && AllDigits(issue)
    requires |tail| > 0 && !IsSpace(tail[0])
    ensures AfterSpaces(" " + (issue + (" " + tail))) == Some(issue + (" " + tail))
    ensures Run(issue + (" " + tail), IsDigit) == issue
    ensures AfterSpaces((issue + (" " + tail))[|issue|..]) == Some(tail)
  {
    SpaceThen(issue + (" " + tail));
    DigitsThen(issue, " " + tail);
    SpaceThen(tail);
  }

  /** The first pattern reads back the volume, issue and year of any title
      of its shape. */
  lemma MatchBdNrFormat(volume: string, issue: string, year: string)
    requires volume != "" && AllDigits(volume)
    requires issue != "" && AllDigits(issue)
    requires |year| == 4 && AllDigits(year)
    ensures MatchBdNr(BdNr(volume, issue, year)) == Some([Some(volume), Some(issue), Some(year)])
  {
    var t := BdNr(volume, issue, year);
    var s3 := " " + issue + " (" + year + ")";
    var s2 := "Nr." + s3;
    var s1 := volume + (", " + s2);
    BdNrShape(volume, issue, year);
    BdStep(s1);
    VolumeStep(volume, s2);
    NrStep(s3);
    IssueYearThen(issue, year);
    MatchBdNrSteps(t, s1, volume, s2, issue, year);
  }

  lemma BdNrShape(volume: string, issue: string, year: string)
    requires volume != "" && AllDigits(volume)
    ensures var s1 := volume + (", " + ("Nr." + (" " + issue + " (" + year + ")")));
            && BdNr(volume, issue, year) == "Bd." + (" " + s1)
            && |s1| > 0 && !IsSpace(s1[0])
  {
    var s1 := volume + (", " + ("Nr." + (" " + issue + " (" + year + ")")));
    assert s1[0] == volume[0];
  }

  lemma BdStep(s1: string)
    requires |s1| > 0 && !IsSpace(s1[0])
    ensures StartsWithNoCase("Bd." + (" " + s1), "Bd.")
    ensures AfterSpaces(("Bd." + (" " + s1))[3..]) == Some(s1)
  {
    SplitAfter("Bd.", " " + s1);
    SpaceThen(s1);
  }

  lemma VolumeStep(volume: string, s2: string)
    requires volume != "" && AllDigits(volume)
    requires |s2| > 0 && !IsSpace(s2[0])
    ensures Run(volume + (", " + s2), IsDigit) == volume
    ensures AfterSpaces(Optional((volume + (", " + s2))[|volume|..], ',')) == Some(s2)
  {
    DigitsThen(volume, ", " + s2);
    CommaThen(s2);
  }

  lemma CommaThen(s2: string)
    requires |s2| > 0 && !IsSpace(s2[0])
    ensures AfterSpaces(Optional(", " + s2, ',')) == Some(s2)
  {
    assert Optional(", " + s2, ',') == " " + s2;
    SpaceThen(s2);
  }

  lemma NrStep(s3: string)
    ensures StartsWithNoCase("Nr." + s3, "Nr.")
    ensures ("Nr." + s3)[3..] == s3
  {
    SplitAfter("Nr.", s3);
  }

  lemma SplitAfter(w: string, rest: string)
    ensures (w + rest)[..|w|] == w && (w + rest)[|w|..] == rest
  {
  }

  /** The pattern read step by step. */
  lemma MatchBdNrSteps(t: string, s1: string, volume: string, s2: string, issue: string, year: string)
    requires StartsWithNoCase(t, "Bd.") && AfterSpaces(t[3..]) == Some(s1)
    requires Run(s1, IsDigit) == volume && volume != ""
    requires AfterSpaces(Optional(s1[|volume|..], ',')) == Some(s2)
    requires StartsWithNoCase(s2, "Nr.") && MatchIssueYear(s2[3..]) == Some((issue, year))
    ensures MatchBdNr(t) == Some([Some(volume), Some(issue), Some(year)])
  {
  }

  /** The test suite's example. */
  lemma MatchBdNrExample()
    ensures MatchBdNr("Bd. 52, Nr. 1 (2005)") == Some([Some("52"), Some("1"), Some("2005")])
  {
    assert BdNr("52", "1", "2005") == "Bd. 52, Nr. 1 (2005)";
    MatchBdNrFormat("52", "1", "2005");
  }

  /** With the first pattern as written, a title such as
      `'Bd. 52, Nr. 1 (2005)'` yields its volume, issue and year. */
  lemma GrokBdNr(engine: Engine, volume: string, issue: string, year: string)
    requires forall t :: engine(0, t) == MatchBdNr(t)
    requires volume != "" && AllDigits(volume)
    requires issue != "" && AllDigits(issue)
    requires |year| == 4 && AllDigits(year)
    ensures Grok(engine, BdNr(volume, issue, year)) == Ok(Some(Analytic(Some(volume), Some(issue), Some(year))))
  {
    MatchBdNrFormat(volume, issue, year);
    GrokFirstWins(engine, BdNr(volume, issue, year), 0);
  }
}
